=== FILE: README.md ===
# Streak Engine, modelled in Dafny

Streak Engine is a self-control tracker. A signed-in user starts a streak,
resets it on a relapse (the finished attempt goes into a history), writes
journal check-ins with a mood, and may compete in a room: a small group joined
by a six-character code, whose leaderboard ranks the members by the hours of
their current streak. The frontend derives what it shows from these records:
the badge a streak has earned, the running clock, the duration texts, the
ranked cards, the order of the history, and the checks of the sign-up form.

This project models that core as pure Dafny functions over immutable records
and proves the properties the code promises.

- `common.dfy` holds the shared vocabulary: `Option`, HTTP statuses, the route
  reply, and floor-hours arithmetic on millisecond timestamps.
- `users.dfy` and `rooms.dfy` hold the two document schemas with their setters
  and validators: `trim`, `uppercase`, `minlength`, `maxlength`, the mood
  enumeration and the 24-hour expiry.
- `store.dfy` holds the document store. It has a user collection (a user's id
  is its position), the rooms in insertion order, and a counter for fresh room
  ids. It also defines `Wf`, the cross-document invariant:
  - user ids are positions, and every stored user satisfies the schema;
  - usernames are unique;
  - every room has a host who is a member, and no duplicate members;
  - room ids and codes are unique;
  - room membership and `activeRoom` agree, in both directions, for every
    room that still exists.
- The backend routes:
  - `auth.dfy`: register, login, me and logout;
  - `middleware.dfy`: `protect`;
  - `streak.dfy`: start, reset and clear;
  - `journal.dfy`: add and list;
  - `competition.dfy`: create, join, current and leave;
  - `room_codes.dfy`: the room-code generator and its retry loop;
  - `leaderboard.dfy`: the leaderboard.
- `competition_proofs.dfy` proves that every competition route keeps `Wf`,
  together with the scenarios and the expiry behaviour.
- The frontend helpers:
  - `badges.dfy`: the badge table, `getBadgeInfo`, `getNextBadgeInfo` and the
    image loader;
  - `home_page.dfy`: the clock;
  - `competition_page.dfy`: the duration text, the rank labels, the input
    fields and the leave dialog;
  - `history_page.dfy`: the duration text, the sorted list, the counters and
    the card badge;
  - `register_page.dfy`: the form checks;
  - `videos.dfy`: the random video and the Fisher–Yates shuffle.
- `text.dfy` and `seqs.dfy` model the JavaScript string and array built-ins
  the code relies on: `trim`, `toLowerCase`/`toUpperCase`, `split`,
  `String(n)`, `filter`, and the stable `sort`. A string is a sequence of
  Unicode characters. Its `length`, like every length rule of the schemas and
  every `maxLength` of an input, counts UTF-16 code units: a character outside
  the Basic Multilingual Plane counts twice (`Text.Utf16Length`).

The surroundings are parameters:
- Time is an `int` of milliseconds passed in as `now`.
- `Math.random()` is a draw `num / den` in [0, 1), passed in.
- `crypto.randomBytes(3)` is a sequence of three-byte draws.
- bcrypt is a pair of functions (`hash`, `matches`) with the guarantees bcrypt
  gives: a 60-character hash, and a password matches its own hash.
- JWT signing and verification are functions from user ids to tokens and back.
- The TTL monitor of MongoDB is `Store.Expire(s, t)`, a step of its own that
  runs between requests. A pass at time `t` removes every room older than
  86400 seconds at `t`. The monitor passes about once a minute, so the routes
  see every room it has not removed yet. A room past its 24 hours can still be
  looked up and joined until the next pass (`CompetitionProofs.ExpiredUntilSwept`).

Where a reader might expect otherwise, the model follows the code:
- The backend does not clamp negative durations to zero: a streak start in
  the future gives negative leaderboard hours. Only the home clock clamps.
- A mood outside the enumeration is not a 400 answer. Schema validation on
  save fails, and the route answers 500 "Server error" without storing
  anything.
- A room name that is blank after trimming, or longer than 30 code units, is
  likewise a 500 "Server Error", with nothing stored.

One place is the exception. The user schema declares no `activeRoom` path, so a
strict schema drops the reference the competition routes save. `Competition.Create`,
`Competition.Join`, `Competition.Current` and `Competition.Leave` model the
intended reading, in which the reference is stored. The code as written is
modelled separately; see Findings.

## Model

| member | source | states |
|---|---|---|
| Common.HoursBetween | backend/routes/streak.js:59-60 | The duration is the floor of the millisecond difference in hours: `h * 3600000 <= end - start < (h + 1) * 3600000` |
| Common.HoursBetweenNonNegative | backend/routes/streak.js:59-60 | A duration is never negative unless the end lies before the start |
| Common.ElapsedHours | backend/routes/competition.js:142-146 | A member without a streak has 0 hours; otherwise the floor hours since the start, unclamped |
| Users.ParseMood | backend/models/User.js:38-41 | Only the three enumeration names are accepted, each as the mood it names; every other string is refused |
| Users.ParseMoodName | backend/models/User.js:38-41 | Every mood survives the round trip through its stored name |
| Users.View | backend/routes/auth.js:57-63 | The answered user carries the stored id, username, streak start, last check-in, history and journal unchanged |
| Users.UsernameRule | backend/models/User.js:5-11 | A (trimmed) username passes exactly when it has at least 3 UTF-16 code units |
| Users.PasswordRule | backend/models/User.js:12-16 | A saved password passes exactly when it has at least 6 UTF-16 code units |
| Users.ValidationMessage | backend/models/User.js:5-16 | `User.create` fails exactly when the trimmed username is under 3 or the password under 6 UTF-16 code units, and its message then starts with "User validation failed: " |
| Users.ViewOmitsPassword | backend/routes/auth.js:57-63 | The user object the routes answer is independent of the stored password and carries id, username, history and journals unchanged |
| Rooms.CanonicalCode | backend/models/Room.js:10-16 | The code setters yield an upper-case code with no leading or trailing blank, no longer than the input, and empty exactly when the input is all blank |
| Rooms.CanonicalCodeIdempotent | backend/models/Room.js:10-16 | Applying the setters to a stored code changes nothing |
| Rooms.CanonicalCodeIgnoresCase | backend/models/Room.js:10-16 | A code typed in lower case becomes the same code as the original |
| Rooms.RoomCodeIsCanonical | backend/models/Room.js:10-16 | A generated code is a fixed point of `trim` plus `uppercase`, so storing or querying it leaves it unchanged |
| Rooms.StoredRoomName | backend/models/Room.js:4-9 | A name is stored exactly when, trimmed, it is not empty and has at most 30 UTF-16 code units, and what is stored is the trimmed name |
| Rooms.FindById | backend/routes/competition.js:127-130 | A found room is stored and has the id; nothing is found exactly when no room has it |
| Rooms.FindByCode | backend/routes/competition.js:91 | A found room holds the canonical form of the query; nothing is found exactly when no room holds it |
| Rooms.Without | backend/routes/competition.js:206 | After the delete, exactly the rooms with other ids remain |
| Rooms.LiveRooms | backend/models/Room.js:28-32 | Exactly the rooms younger than 86400 seconds remain |
| Rooms.Replace | backend/routes/competition.js:100-101 | Saving keeps the length and the id at every position, and leaves the rooms with other ids unchanged. The saved room is stored afterwards exactly when a room with its id was stored before, and every other room of the result was stored before |
| Store.Expire | backend/models/Room.js:28-32 | A monitor pass at time `t` leaves users and the id counter alone and keeps exactly the rooms still live at `t` |
| Store.ExpireWf | backend/models/Room.js:28-32 | Expiry keeps the store invariant |
| Store.UsernamesCaseInsensitivelyUnique | backend/routes/auth.js:32-48 | In a well-formed store, no two usernames differ only in letter case |
| Streak.Start | backend/routes/streak.js:10-38 | While a streak is active: 400 and the user unchanged. Otherwise the start becomes `now` and nothing else changes, the history included |
| Streak.Reset | backend/routes/streak.js:43-90 | Without a streak: 400 and nothing appended. Otherwise exactly one entry is appended (start, `now`, floor hours between), earlier entries stay, the streak is cleared, and the reply carries the appended entry and the stored history |
| Streak.ClearHistory | backend/routes/streak.js:95-114 | The history becomes empty and the active streak is kept |
| Streak.StartTwiceRejected | backend/routes/streak.js:15-20 | A second start is refused with 400 and keeps the first start time |
| Streak.ResetAfterTwentySixHours | backend/routes/streak.js:55-70 | Worked example of `Streak.ResetRecordsElapsed`: a reset 26 hours after the start records 26 hours and adds one entry |
| Streak.ResetRecordsElapsed | backend/routes/streak.js:59-60 | The recorded hours equal what the leaderboard shows at that moment, and are non-negative when the start is not in the future |
| Streak.StartResetCycle | backend/routes/streak.js:10-90 | A start then a reset leaves no streak, and the history grew by exactly the entry from the start time to the reset time |
| Streak.RoutesKeepHistoryConsistent | backend/models/User.js:27-33 | Every history entry carries the duration of its own dates, and all three routes keep that |
| Streak.RoutesKeepStoreWf | backend/routes/streak.js:10-114 | The streak routes keep the store invariant |
| Journal.AddEntry | backend/routes/journal.js:10-46 | Missing mood: 400, nothing changes. Mood outside the enumeration: 500, nothing stored. Otherwise exactly one entry is appended with the mood, the quote (`""` when absent) and the date of the first clock reading. Earlier entries stay, `lastCheckIn` becomes the second clock reading, and the reply is the appended entry |
| Journal.AddThenList | backend/routes/journal.js:51-65 | After a successful add, the list is the earlier list followed by the answered entry; after a refusal it is unchanged |
| Journal.StoredMoodsAreNamed | backend/models/User.js:38-41 | Every stored mood is "strong", "okay" or "struggling", whatever the requests carried |
| Journal.AddKeepsStoreWf | backend/routes/journal.js:10-46 | Adding an entry keeps the store invariant |
| Middleware.SelectToken | backend/middleware/auth.js:7-12 | A non-empty cookie wins. The header is used only without one and only when it starts with "Bearer", and the token is its second space-separated field |
| Middleware.Protect | backend/middleware/auth.js:4-42 | The request passes exactly when a token is present, verifies, and names an existing user, and it passes for that user. Every refusal is a 401, and no token gives "Not authorized, no token" |
| Middleware.BearerHeaderToken | backend/middleware/auth.js:10-11 | A header `Bearer <token>` yields exactly the token |
| Middleware.BearerHeader | backend/middleware/auth.js:10-11 | The header is the scheme "Bearer", one space, then the token unchanged |
| Middleware.IssuedTokenPasses | backend/middleware/auth.js:7-34 | A token issued for an existing user lets exactly that user through, as the cookie or as a bearer header |
| Middleware.EmptyCookieIsNoCookie | backend/middleware/auth.js:10 | An empty cookie is treated as no cookie |
| Auth.FindByUsername | backend/routes/auth.js:32 | A found user has the username; nothing is found exactly when no user has it |
| Auth.UsernameKey | backend/routes/auth.js:32 | Lookup and storage use a lower-case, trimmed key |
| Auth.RegisterWith | backend/routes/auth.js:27-73 | Every outcome of registration. A missing username is a 500. A taken name is a 400 with nothing stored. Success (201) exactly when both fields are present, the name is free, and both length rules pass. Success appends a user with the next id, the key as name, the hash, and no streak, history, journal or room |
| Auth.Register | backend/routes/auth.js:27-73 | As written, registration succeeds exactly when both fields are present, the name is free and at least 3 code units long, whatever the password |
| Auth.RegisterChecked | backend/models/User.js:15 | With the length rule applied to the submitted password, success implies a password of at least 6 code units; a shorter one is a 500 validation error |
| Auth.Login | backend/routes/auth.js:78-123 | Success exactly when the user is found by the lower-cased name and the password matches its hash; the answer is that user's token and profile. Every failure is 401 "Invalid credentials" or 500 |
| Auth.Me | backend/routes/auth.js:139-160 | Always 200 with the caller's own profile: id, username, streak start, last check-in, history and journal as stored |
| Auth.Logout | backend/routes/auth.js:128-134 | Always succeeds |
| Auth.RegisterWithKeepsWf | backend/routes/auth.js:45-48 | Registration keeps the store invariant: the new user has the next id, a unique valid name and no room |
| Auth.RegisterThenLogin | backend/routes/auth.js:27-123 | Whoever registers can log in with the same password under any letter case of the name, and gets the account just created |
| Auth.RegisterTwiceRejected | backend/routes/auth.js:32-38 | Once registered, a name is taken in every letter case |
| Auth.LoginFailuresIndistinguishable | backend/routes/auth.js:84-98 | An unknown name and a wrong password get the identical answer |
| Auth.LoginAgreesWithMe | backend/routes/auth.js:104-152 | The user object login answers is the one `/me` answers for the same user |
| Auth.RegisterAcceptsEmptyPassword | backend/models/User.js:15 | As written, the empty password is accepted, because the rule sees the 60-character hash |
| Auth.RegisterCheckedRefusesShortPassword | backend/models/User.js:15 | With the rule on the submitted password, a short password is refused and nothing is stored |
| RoomCodes.HexEncode | backend/routes/competition.js:13 | The hex text of three bytes is six lower-case hexadecimal digits |
| RoomCodes.HexEncodeReadsBack | backend/routes/competition.js:13 | Each pair of digits is the value of its byte, high nibble first, in drawing order |
| RoomCodes.GenerateRoomCode | backend/routes/competition.js:12-14 | Upper-casing the hex text gives the upper-case hex digits of the same three bytes, high nibble first |
| RoomCodes.GeneratedCodeShape | backend/routes/competition.js:12-14 | Every generated code has six characters from 0-9A-F and is already canonical |
| RoomCodes.DecodeGenerated | backend/routes/competition.js:12-14 | Decoding a generated code gives its three bytes back |
| RoomCodes.GenerateInjective | backend/routes/competition.js:12-14 | Different draws never give the same code |
| RoomCodes.FindByCodeHeld | backend/routes/competition.js:42 | `Room.findOne({ code })` finds a room exactly when some room holds the canonical form |
| RoomCodes.FirstFreeCode | backend/routes/competition.js:41-46 | The loop settles on the first candidate no room holds, every earlier candidate being held; it settles on none exactly when all are held |
| RoomCodes.FreeCodeIsFresh | backend/routes/competition.js:41-46 | The code settled on has the room-code shape, and no room holds it |
| Leaderboard.Standings | backend/routes/competition.js:141-155 | Each entry describes a member: its name, its hours at `now` (0 without a streak), and `isHost`/`isMe` exactly for the host and the caller. When every member exists, the entries follow the member list one for one |
| Leaderboard.Board | backend/routes/competition.js:139-158 | The leaderboard is sorted by hours, most first, and is a rearrangement of the standings |
| Leaderboard.BoardIsPermutationOfMembers | backend/routes/competition.js:141-158 | When every member exists, the leaderboard lists each member exactly as often as the member list does |
| Leaderboard.BoardIsStable | backend/routes/competition.js:158 | Members with equal hours keep their member-list order |
| Leaderboard.BoardExample | backend/routes/competition.js:158 | Worked example of `Leaderboard.Board` and `Leaderboard.BoardIsStable`: hours 5, 20, 0, 20 rank as first 20, second 20, 5, 0 |
| Seqs.SortDesc | backend/routes/competition.js:158 | `sort((a, b) => key(b) - key(a))` returns a rearrangement of its input sorted by key, largest first |
| Seqs.SortDescStable | backend/routes/competition.js:158 | The sort is stable: elements with equal keys keep their relative order |
| Seqs.Filter | backend/routes/competition.js:217 | `filter` keeps exactly the elements that satisfy the predicate |
| Text.Trim | backend/models/Room.js:7 | `trim` gives a slice of the input that neither starts nor ends with a blank, with only blanks before and after it, and the empty string exactly for an all-blank input |
| Text.TrimCutsOnlyEnds | backend/models/Room.js:7 | The input is a blank run, then the trimmed text, then a blank run: nothing is cut from the middle |
| Text.TrimLower | backend/models/User.js:9 | Lower-casing then trimming equals trimming then lower-casing |
| Text.Utf16Length | backend/models/User.js:10 | A string's `length` in UTF-16 code units: at least its number of characters and at most twice that, and 0 only for the empty string |
| Text.BmpLength | backend/models/User.js:10 | For text inside the Basic Multilingual Plane the code-unit length is the number of characters |
| Text.Utf16LengthAppend | backend/models/User.js:10 | The length of a concatenation is the sum of the lengths |
| Text.CaseKeepsUtf16Length | backend/models/User.js:9-10 | Upper- and lower-casing keep the length |
| Text.TrimUtf16Length | backend/models/Room.js:7-8 | Trimming never makes a text longer |
| Text.Split | backend/middleware/auth.js:11 | `split(" ")` gives fields free of the separator that join back to the input |
| Text.SplitJoin | backend/middleware/auth.js:11 | Splitting the join of separator-free fields gives the fields back |
| Competition.ClearRefs | backend/routes/competition.js:209-212 | Users keep every field except the room reference. Exactly the users pointing at the room lose their reference, and afterwards no user points at it |
| Competition.Create | backend/routes/competition.js:19-65 | Missing name or caller already in a room: 400 and nothing stored. Otherwise success exactly when a free code is drawn and the name passes the schema. The new room has a fresh id, the trimmed name, a code no room held, the caller as host and only member, and `createdAt = now`. It is appended, and the caller refers to it |
| Competition.WithMember | backend/routes/competition.js:99-102 | The caller is appended to the members only when absent, so no member appears twice |
| Competition.Join | backend/routes/competition.js:70-113 | Missing code or caller already in a room: 400. Unknown upper-cased code: 404. Nothing changes in those cases. Otherwise the caller joins the member list once and refers to the room, and nothing else changes |
| Competition.Current | backend/routes/competition.js:118-176 | Always 200. No reference means not in a room. A reference to a room that no longer exists is cleared, with not in a room. Otherwise the answer is the room and its leaderboard, and nothing is written |
| Competition.Summary | backend/routes/competition.js:163-168 | The room is answered with its id, name, code, host and creation time as stored, and without its member list |
| Competition.Leave | backend/routes/competition.js:181-226 | No reference: 400. Otherwise the caller's reference is cleared first. A missing room ends there. A host's leave deletes the room and clears every reference to it. A member's leave removes only the caller from the members |
| CompetitionProofs.CreateKeepsWf | backend/routes/competition.js:19-65 | Create keeps the store invariant |
| CompetitionProofs.JoinKeepsWf | backend/routes/competition.js:70-113 | Join keeps the store invariant |
| CompetitionProofs.CurrentKeepsWf | backend/routes/competition.js:118-176 | Current, including its repair, keeps the store invariant |
| CompetitionProofs.LeaveKeepsWf | backend/routes/competition.js:181-226 | Leave keeps the store invariant in all its cases |
| CompetitionProofs.HostLeaveClearsEveryReference | backend/routes/competition.js:204-214 | After a host's leave, the room is gone and no user refers to it |
| CompetitionProofs.MemberLeaveKeepsRoom | backend/routes/competition.js:215-221 | A member's leave keeps the room, its host and code, and every other member, and removes the caller |
| CompetitionProofs.InterruptedHostLeaveWf | backend/routes/competition.js:193-212 | However far the host's cascade got, the store invariant holds |
| CompetitionProofs.CurrentRepairsInterruptedLeave | backend/routes/competition.js:132-137 | A user left pointing at a deleted room is told it is in no room, and its reference is cleared |
| CompetitionProofs.ExpiredCodeNotFound | backend/models/Room.js:28-32 | After a monitor pass at `t` that finds the room older than 24 hours, its code finds nothing |
| CompetitionProofs.ExpiredRoomCannotBeJoined | backend/routes/competition.js:91-96 | After such a pass, joining with the exact code is a 404 |
| CompetitionProofs.ExpiredRoomIsLeft | backend/routes/competition.js:132-137 | After such a pass, a user whose room expired is told it is in no room, and the stale reference is cleared |
| CompetitionProofs.ExpiredUntilSwept | backend/models/Room.js:28-32 | A room past its 24 hours that the last pass still found live can be joined with its code |
| CompetitionProofs.CreateThenCurrent | backend/routes/competition.js:49-58 | The host of a room just created finds itself in it: current answers the room and its leaderboard |
| CompetitionProofs.FoundByCode | backend/routes/competition.js:91 | A stored room is found by its exact code |
| CompetitionProofs.FoundByLowerCode | backend/routes/competition.js:91 | A stored room is found by its code typed in lower case |
| CompetitionProofs.JoinByLowerCode | backend/routes/competition.js:91-108 | A caller in no room joins a stored room by its lower-case code |
| CompetitionProofs.CreatedRoomIsLive | backend/routes/competition.js:49-58 | The created room is stored and live, with the caller as only member, and no other user's reference changes |
| CompetitionProofs.CreateThenJoinLowerCase | backend/routes/competition.js:70-108 | A second user joins a room just created by its lower-case code, and the room then has both as members |
| CompetitionProofs.Unreferenced | backend/models/User.js:3-49 | A save under the schema drops every room reference and changes nothing else |
| CompetitionProofs.CreateAsWritten | backend/routes/competition.js:57-58 | As written, create answers and stores the room as intended, but no user keeps a room reference |
| CompetitionProofs.CreateAsWrittenLosesHost | backend/routes/competition.js:57-58 | As written, the host of a room just created is in no room: current says so and leave is refused |
| CompetitionProofs.JoinAsWritten | backend/routes/competition.js:105-106 | As written, join answers and stores the room as intended, but no user keeps a room reference |
| CompetitionProofs.JoinAsWrittenTwoRooms | backend/routes/competition.js:70-113 | As written, a user joins two different rooms in a row and is a member of both, and leave then answers "Not in a room" |
| CompetitionPage.FormatDuration | frontend/src/pages/Competition.jsx:156-161 | The card text is non-empty and ends in `h` |
| CompetitionPage.DurationHoursForm | frontend/src/pages/Competition.jsx:157 | Under a day the text is exactly the hours followed by `h`, with a minus sign for negative hours |
| CompetitionPage.DurationReadsBack | frontend/src/pages/Competition.jsx:156-161 | Reading the card text back gives the hours it was printed from, negative hours included |
| CompetitionPage.DurationInjective | frontend/src/pages/Competition.jsx:156-161 | Different streak lengths never show the same text |
| CompetitionPage.DurationDaysForm | frontend/src/pages/Competition.jsx:158-160 | From a day on, the text is `<d>d <r>h` with `d >= 1`, `r < 24` and `d * 24 + r` the hours |
| CompetitionPage.RankReadsBack | frontend/src/pages/Competition.jsx:320 | A rank label reads back as its position: the crown for the leader, `#n` for position `n - 1` |
| CompetitionPage.RankInjective | frontend/src/pages/Competition.jsx:320 | No two positions share a label |
| CompetitionPage.RankLabel | frontend/src/pages/Competition.jsx:320 | The crown exactly for the leader; every other position shows a label that starts with `#` |
| CompetitionPage.JoinField | frontend/src/pages/Competition.jsx:262-263 | The join field holds at most six code units, all upper case |
| CompetitionPage.Capped | frontend/src/pages/Competition.jsx:229 | An input with a `maxLength` holds the longest prefix of what was typed that fits in `maxLength` code units: a prefix within the bound, all of the text when it fits, and one more character would exceed the bound |
| CompetitionPage.JoinFieldIdempotent | frontend/src/pages/Competition.jsx:262-263 | Typing what the join field shows changes nothing |
| CompetitionPage.JoinFieldOfLowerCode | frontend/src/pages/Competition.jsx:262 | A room code typed in lower case shows as the code, which the server looks up unchanged |
| CompetitionPage.RoomCodeFitsJoinField | frontend/src/pages/Competition.jsx:262 | A room code in lower case fits the join field whole |
| CompetitionPage.CreateField | frontend/src/pages/Competition.jsx:229 | The create field holds the longest prefix of what was typed that fits in 30 code units, and all of it when it fits |
| CompetitionPage.Submitted | frontend/src/pages/Competition.jsx:73 | A blank field sends nothing; otherwise the field is sent as typed |
| CompetitionPage.SubmittedNameIsStored | frontend/src/pages/Competition.jsx:71-80 | Every name the create form sends passes the room-name schema |
| CompetitionPage.LeaveDialog | frontend/src/pages/Competition.jsx:109-131 | The danger dialog comes exactly for the host, and its confirm text is the button's label |
| CompetitionPage.LeaveButtonLabel | frontend/src/pages/Competition.jsx:305 | "End Room" exactly for the host, "Surrender" exactly for everyone else |
| CompetitionPage.DialogPredictsLeave | frontend/src/pages/Competition.jsx:109-131 | The "End Room" label and the danger dialog show only when confirming deletes the room. The warning dialog shows only when the room stays and only the caller leaves it |
| HistoryPage.DurationReadsBack | frontend/src/pages/History.jsx:51-62 | Reading the history text back gives the hours it was printed from |
| HistoryPage.SingularOnlyForOne | frontend/src/pages/History.jsx:53-59 | "1 hour" appears exactly for one hour, and "1 day" exactly for 24 hours |
| HistoryPage.FormatDuration | frontend/src/pages/History.jsx:51-62 | The text is non-empty. Under a day it ends in the hour unit, in whole days in the day unit, and otherwise in `h` |
| HistoryPage.DurationTexts | frontend/src/pages/History.jsx:51-62 | The exact text of each branch: `<n> hour` or `<n> hours` under a day, `<d> day` or `<d> days` in whole days, otherwise `<d>d <r>h` |
| HistoryPage.SortedHistoryIsArrangement | frontend/src/pages/History.jsx:93-95 | The list is every stored attempt once, latest end first, and attempts ending together keep their stored order |
| HistoryPage.SortedHistory | frontend/src/pages/History.jsx:93-95 | A rearrangement of the stored attempts, latest end first |
| HistoryPage.ResetShowsFirst | frontend/src/pages/History.jsx:93-95 | After a reset, the attempt just recorded heads the list when every earlier one ended before it |
| HistoryPage.PageCounts | frontend/src/pages/History.jsx:107-164 | The clear button and the attempt count appear exactly when something is stored, and the count is the number of stored attempts |
| HistoryPage.Page | frontend/src/pages/History.jsx:107-164 | The cards are the stored attempts, latest end first. The clear button shows exactly when something is stored, together with the number of stored attempts; otherwise there is no count and no card |
| HistoryPage.ClearedPageIsEmpty | frontend/src/pages/History.jsx:119-124 | After clearing: no cards, no button, no count |
| HistoryPage.HistoryBadgeAfterErrors | frontend/src/pages/History.jsx:15-40 | A card tries the five extensions in order, then shows the trophy from the fifth failure on |
| HistoryPage.HistoryBadge | frontend/src/pages/History.jsx:15-40 | The trophy exactly once the loader has given up. Otherwise the picture of the earned badge, named after it, in the loader's current extension |
| HomePage.CalculateElapsed | frontend/src/pages/Home.jsx:19-49 | No streak or a future start gives zero everywhere. Otherwise hours < 24, minutes and seconds < 60, and total hours = days * 24 + hours |
| HomePage.ClockAddsUp | frontend/src/pages/Home.jsx:37-48 | The clock fields add up to the whole seconds elapsed |
| HomePage.PageHoursMatchServer | frontend/src/pages/Home.jsx:37-42 | The total hours the page shows equal the hours the server records for the same start and moment |
| HomePage.InactiveShowsZero | frontend/src/pages/Home.jsx:20-24 | Without an active streak the clock shows zero |
| HomePage.ButtonMatchesServer | frontend/src/pages/Home.jsx:125-141 | "Start Journey" shows exactly when the server would accept a start, and "I Relapsed" exactly when it would accept a reset |
| HomePage.FormatNumber | frontend/src/pages/Home.jsx:67 | At least two digits, exactly two below 100 |
| HomePage.FormatNumberReadsBack | frontend/src/pages/Home.jsx:67 | The padded field reads back as the number it shows |
| HomePage.ClockWidth | frontend/src/pages/Home.jsx:113-114 | Below 100 days the printed clock has eleven characters |
| HomePage.Clock | frontend/src/pages/Home.jsx:113-114 | At least eleven characters. With every field below 100, exactly `DD:HH:MM:SS`: eleven characters with the colons at positions 2, 5 and 8 |
| Badges.ThresholdsIncreasing | frontend/src/components/StreakBadge.jsx:5-157 | The table starts at 0 days, ends at 360, and its thresholds strictly increase |
| Badges.Days | frontend/src/components/StreakBadge.jsx:164 | The floor of the hours over 24 |
| Badges.BadgeInfo | frontend/src/components/StreakBadge.jsx:163-177 | The earned badge's threshold is reached (for a non-negative count) and is at least every threshold reached |
| Badges.ScanDownDominates | frontend/src/components/StreakBadge.jsx:167-174 | Over an increasing table, every reached threshold is at most the one the scan stops at |
| Badges.ScanDown | frontend/src/components/StreakBadge.jsx:167-174 | The downward scan stops at the first reached threshold from the top, or gives the first badge when none is reached |
| Badges.ScanDownIsLargest | frontend/src/components/StreakBadge.jsx:163-177 | Over an increasing table starting at 0, the scan finds the largest reached threshold |
| Badges.BadgeIsLargestReached | frontend/src/components/StreakBadge.jsx:163-177 | The earned badge is the one with the largest threshold the streak has reached; a negative count earns the first |
| Badges.ScanDownMonotone | frontend/src/components/StreakBadge.jsx:169-174 | Over an increasing table, a larger count never scans to an earlier badge |
| Badges.BadgeMonotone | frontend/src/components/StreakBadge.jsx:169-174 | A longer streak never has a lower badge |
| Badges.ScanUp | frontend/src/components/StreakBadge.jsx:183-190 | The upward scan finds the first threshold beyond the count, or none when all are reached |
| Badges.ScanUpIsSmallest | frontend/src/components/StreakBadge.jsx:183-190 | Over an increasing table, the scan up stops at the smallest threshold beyond the count |
| Badges.NextBadge | frontend/src/components/StreakBadge.jsx:180-193 | None exactly when every threshold is reached. Otherwise the badge of the smallest threshold beyond the count, with `daysRemaining` equal to its days minus the count, at least 1 |
| Badges.DayWord | frontend/src/components/StreakBadge.jsx:261-262 | The unit word is "day" exactly for one and "days" for every other count |
| Badges.NextBadgeLine | frontend/src/components/StreakBadge.jsx:256-264 | The next-badge line is absent exactly from 360 days on. Otherwise it reads `Next: <name> in <n> day(s)`, where `n` is the days remaining, at least 1 |
| Badges.NextLinePlural | frontend/src/components/StreakBadge.jsx:261-262 | The line ends in the plural "s" exactly when more than one day remains |
| Badges.ScanUpFollowsScanDown | frontend/src/components/StreakBadge.jsx:163-193 | Over an increasing table starting at 0, the upward scan finds the badge right after the one the downward scan finds, and finds none exactly when the last threshold is reached |
| Badges.NextFollowsEarned | frontend/src/components/StreakBadge.jsx:163-193 | For non-negative hours the next badge is the one after the earned badge, and there is none exactly from 360 days on |
| Badges.NegativeHoursNext | frontend/src/components/StreakBadge.jsx:163-193 | Negative hours earn the first badge and also name it as the next one |
| Badges.OnError | frontend/src/components/StreakBadge.jsx:200-208 | The extension index stays within the five extensions |
| Badges.AfterErrorsClosedForm | frontend/src/components/StreakBadge.jsx:197-208 | After `n` failures the loader tries extension `n`, or gives up with the trophy from the fifth failure on |
| RegisterPage.FirstFailure | frontend/src/pages/Register.jsx:18-42 | Reference reading of a chain of checks: it sends exactly when no check fails, and otherwise shows a failing check's message |
| RegisterPage.HandleSubmit | frontend/src/pages/Register.jsx:18-42 | The form sends exactly when no field is blank, the username has 3 code units as typed, the password 6, and the confirmation matches. It sends the fields as typed, and any blank field gives "Please fill in all fields" |
| RegisterPage.HandleSubmitIsFirstFailure | frontend/src/pages/Register.jsx:18-42 | The form is the ordered chain of its four checks: the first failing check names the error |
| RegisterPage.PaddedShortNameIsSent | frontend/src/pages/Register.jsx:26-29 | As written, "  ab" passes the form and is then refused by the server with a validation error |
| RegisterPage.HandleSubmitTrimmed | frontend/src/pages/Register.jsx:26-29 | With the length check on the trimmed username, the form sends exactly when the server's username rule will also pass |
| RegisterPage.SentFormIsRegistered | frontend/src/pages/Register.jsx:41-42 | Whatever the corrected form sends, the register route accepts, unless the name is taken |
| RegisterPage.TrimmedKeepsRefusals | frontend/src/pages/Register.jsx:21-39 | The corrected form refuses everything the original refuses |
| Videos.ScaleBelow | frontend/src/data/videos.js:37 | `Math.floor(random * n)` is an index below `n` |
| Videos.ScaleIsFloor | frontend/src/data/videos.js:37 | The scaled draw is the floor of the real product `num / den * n` |
| Videos.ScaleExact | frontend/src/data/videos.js:37 | The draw `k / n` scaled to `n` is exactly `k` |
| Videos.RandomVideo | frontend/src/data/videos.js:36-39 | Every draw in [0, 1) picks a video of the list |
| Videos.EveryVideoCanComeUp | frontend/src/data/videos.js:36-39 | Every video of the list is picked by some draw |
| Videos.Swap | frontend/src/data/videos.js:46 | The destructuring swap exchanges the two cells and keeps every other cell and the multiset |
| Videos.Partner | frontend/src/data/videos.js:45 | The swap partner of position `i` lies in `[0, i]` |
| Videos.Picks | frontend/src/data/videos.js:44-45 | The partners chosen for a list never lie above their own position |
| Videos.ShuffledAbove | frontend/src/data/videos.js:43-47 | Each stage of the shuffle is a rearrangement of the copy |
| Videos.Shuffle | frontend/src/data/videos.js:42-49 | The reference shuffle has the same length and the same videos, each as often, as its input |
| Videos.SwapDown | frontend/src/data/videos.js:44-47 | The loop from the last position down to 1 computes the reference shuffle |
| Videos.GetShuffled | frontend/src/data/videos.js:42-49 | `getShuffledVideos` returns a rearrangement of the list (same length and multiset), equal to the reference shuffle; its input is a value and stays unchanged |
| Videos.LastPositionFromFirstDraw | frontend/src/data/videos.js:44-47 | The last position ends up holding the video at the index the first draw picks, and no later step moves it |

## Left out

- HTTP, Express and cookies. A route is a function from the store and the
  request fields to a reply and a new store. Cookie options, JSON framing and
  the `console.error` logging are not modelled.
- Concurrency. Requests run one at a time; interleaved requests and document
  version conflicts are not modelled. A host's cascade that stops part way is
  modelled by `CompetitionProofs.InterruptedHostLeave`.
- bcrypt, JWT and `crypto.randomBytes`. They are parameters, with only the
  guarantees the model relies on. Token expiry (30 days) is part of the
  verification function.
- Competition.Create: the code loop is bounded by the draws supplied. When
  every supplied draw collides, the model answers `Pending`, where the source
  would keep drawing.
- Text.ToLower, Text.ToUpper: case mapping covers ASCII letters only, not the
  full Unicode case tables.
- Auth.RegisterWith: the message of a Mongoose validation error is modelled
  for the username and password rules. Other failures (a duplicate-key race, a
  lost connection) are not modelled.
- Videos.GetShuffled: states which rearrangement the draws produce, not that
  every rearrangement is equally likely. Probability is not modelled. The
  partners are computed from the draws before the swaps, which is equivalent
  because each partner depends only on its own draw.
- Videos.RandomVideo: `Math.random()` is an exact fraction in [0, 1), not a
  floating-point double.
- Store.Expire: the monitor is a step of its own taken at times the caller
  chooses. The model does not fix the one-minute period, and it does not
  interleave a pass with a request in progress.
- HomePage.CalculateElapsed: the once-a-second polling and the React state
  updates are not modelled; one call computes one tick.
- The dates on the history cards (`toLocaleDateString`) are locale
  formatting and are not modelled.
- The badge and history images: only the choice of file and the fallback are
  modelled, not the rendering.
- The YouTube playlist route, quotes, the landing page, the check-in page,
  the login page (one emptiness check), the routing guards, the polling of the
  competition page, and the AuthContext and axios wrappers are outside the
  modelled core.

## Findings

| source | as written | input that shows it | evidently intended | confidence | as-written member | corrected member |
|---|---|---|---|---|---|---|
| backend/routes/competition.js:57-58 and 105-106 | `user.activeRoom = room._id` is saved after create and after join, but the user schema (backend/models/User.js:3-49) declares no `activeRoom` path, so a strict schema drops it on save | any successful create: the host's `/current` then answers "not in a room" and `/leave` answers 400. Any successful join: the same user can then join a second room, is a member of both, and can leave neither | the user refers to the room it created or joined | not executed | CompetitionProofs.CreateAsWritten, CompetitionProofs.CreateAsWrittenLosesHost, CompetitionProofs.JoinAsWritten, CompetitionProofs.JoinAsWrittenTwoRooms | Competition.Create, Competition.Join, CompetitionProofs.CreateThenCurrent, CompetitionProofs.JoinKeepsWf |
| backend/models/User.js:15 | the password `minlength: 6` runs on the saved value, which backend/routes/auth.js:41-48 has already replaced by the 60-character bcrypt hash | register "alice" with the password "" | passwords under six characters are refused | not executed | Auth.Register, Auth.RegisterAcceptsEmptyPassword | Auth.RegisterChecked, Auth.RegisterCheckedRefusesShortPassword, Auth.RegisterThenLogin |
| frontend/src/pages/Register.jsx:26 | the length check reads the untrimmed `username.length`, while the server trims before its own rule | "  ab" with a valid password passes the form and is refused by the server with a 500 validation error | the form refuses what the server will refuse | not executed | RegisterPage.HandleSubmit, RegisterPage.PaddedShortNameIsSent | RegisterPage.HandleSubmitTrimmed, RegisterPage.SentFormIsRegistered |

=== FILE: auth.dfy ===
/**
 The account routes: registration, login and the profile of the signed-in user.
 Password hashing and token signing are parameters: `Bcrypt` stands for
 `bcrypt.hash` with a fresh salt and `bcrypt.compare`, `sign` for issuing a
 token for a user id.
 */
module Auth {
  import opened Common
  import opened Text
  import opened Users
  import opened Store

  /** The length of every bcrypt hash. */
  const BcryptHashLength: int := 60

  /** The message of the TypeError raised by `undefined.toLowerCase()`. */
  const UndefinedUsernameMessage: string := "Cannot read properties of undefined (reading 'toLowerCase')"
  /** The message bcryptjs rejects `hash(undefined, salt)` with. */
  const UndefinedPasswordMessage: string := "Illegal arguments: undefined, string"

  datatype Bcrypt = Bcrypt(hash: string -> string, matches: (string, string) -> bool)

  /** What bcrypt guarantees: hashes have a fixed length and a password matches
      its own hash. */
  ghost predicate SoundBcrypt(b: Bcrypt) {
    forall p :: |b.hash(p)| == BcryptHashLength && b.matches(p, b.hash(p))
  }

  /** A successful register or login answer: the token and the user object. */
  datatype Session = Session(token: string, user: PublicUser)

  /** `User.findOne({ username })`: the first user with that stored username. */
  function FindByUsername(users: seq<User>, name: string): (r: Option<UserId>)
    ensures r.Some? ==> r.value < |users| && users[r.value].username == name
    ensures r.None? ==> forall i :: 0 <= i < |users| ==> users[i].username != name
  {
    FindFrom(users, name, 0)
  }

  function FindFrom(users: seq<User>, name: string, from: nat): (r: Option<UserId>)
    requires from <= |users|
    ensures r.Some? ==> from <= r.value < |users| && users[r.value].username == name
    ensures r.None? ==> forall i :: from <= i < |users| ==> users[i].username != name
    decreases |users| - from
  {
    if from == |users| then None
    else if users[from].username == name then Some(from)
    else FindFrom(users, name, from + 1)
  }

  /** The key a username is stored and looked up under: lower-cased by the route,
      then trimmed by the schema setter, which also runs on query casting. */
  function UsernameKey(username: string): (k: string)
    ensures IsLowerCase(k) && Trim(k) == k
  {
    var k := Trim(ToLower(username));
    TrimKeepsLowerCase(ToLower(username));
    TrimIdempotent(ToLower(username));
    k
  }

  /** POST /auth/register, parameterised by which string the password rule of
      the schema sees: the saved hash (`plainChecked == false`, the route as
      written) or the submitted password (`plainChecked == true`). */
  function RegisterWith(s: Store, username: Option<string>, password: Option<string>,
                        b: Bcrypt, sign: UserId -> string, plainChecked: bool): (r: Step<Session>)
    ensures username.None? ==> r == Step(Failure(ServerError, UndefinedUsernameMessage), s)
    ensures username.Some? && FindByUsername(s.users, UsernameKey(username.value)).Some? ==>
      r == Step(Failure(BadRequest, "Username already taken"), s)
    ensures r.reply.Failure? ==> r.store == s
    ensures r.reply.Success? <==>
      && username.Some? && password.Some?
      && FindByUsername(s.users, UsernameKey(username.value)).None?
      && Utf16Length(UsernameKey(username.value)) >= UsernameMinLength
      && Utf16Length(if plainChecked then password.value else b.hash(password.value)) >= PasswordMinLength
    ensures r.reply.Success? ==>
      var u := User(|s.users|, UsernameKey(username.value), b.hash(password.value), None, None, [], [], None);
      && r.reply.status == Created
      && r.reply.value == Session(sign(u.id), View(u))
      && r.store == s.(users := s.users + [u])
  {
    if username.None? then Step(Failure(ServerError, UndefinedUsernameMessage), s)
    else
      var key := UsernameKey(username.value);
      if FindByUsername(s.users, key).Some? then Step(Failure(BadRequest, "Username already taken"), s)
      else if password.None? then Step(Failure(ServerError, UndefinedPasswordMessage), s)
      else
        var stored := b.hash(password.value);
        match ValidationMessage(ToLower(username.value), if plainChecked then password.value else stored)
        case Some(msg) => Step(Failure(ServerError, msg), s)
        case None =>
          var u := User(|s.users|, key, stored, None, None, [], [], None);
          Step(Success(Created, Session(sign(u.id), View(u))), s.(users := s.users + [u]))
  }

  /** The register route as written: the schema's length rule sees the hash. */
  function Register(s: Store, username: Option<string>, password: Option<string>,
                    b: Bcrypt, sign: UserId -> string): (r: Step<Session>)
    requires SoundBcrypt(b)
    ensures r.reply.Success? <==>
      && username.Some? && password.Some?
      && FindByUsername(s.users, UsernameKey(username.value)).None?
      && Utf16Length(UsernameKey(username.value)) >= UsernameMinLength
  {
    RegisterWith(s, username, password, b, sign, false)
  }

  /** Registration with the password rule applied to the submitted password. */
  function RegisterChecked(s: Store, username: Option<string>, password: Option<string>,
                           b: Bcrypt, sign: UserId -> string): (r: Step<Session>)
    ensures r.reply.Success? ==> password.Some? && Utf16Length(password.value) >= PasswordMinLength
    ensures
      (&& username.Some? && password.Some?
       && FindByUsername(s.users, UsernameKey(username.value)).None?
       && Utf16Length(password.value) < PasswordMinLength)
      ==> r.reply.Failure? && r.reply.status == ServerError && StartsWith(r.reply.message, ValidationPrefix)
  {
    RegisterWith(s, username, password, b, sign, true)
  }

  /** POST /auth/login. An unknown username and a wrong password get the same
      answer; an absent field ends in the generic server error. */
  function Login(s: Store, username: Option<string>, password: Option<string>,
                 b: Bcrypt, sign: UserId -> string): (r: Reply<Session>)
    ensures r.Success? <==>
      && username.Some? && password.Some?
      && FindByUsername(s.users, UsernameKey(username.value)).Some?
      && b.matches(password.value, s.users[FindByUsername(s.users, UsernameKey(username.value)).value].password)
    ensures r.Success? ==>
      var id := FindByUsername(s.users, UsernameKey(username.value)).value;
      r == Success(Ok, Session(sign(id), View(s.users[id])))
    ensures r.Failure? ==>
      r == Failure(Unauthorized, "Invalid credentials") || r == Failure(ServerError, "Server error")
  {
    if username.None? then Failure(ServerError, "Server error")
    else
      match FindByUsername(s.users, UsernameKey(username.value))
      case None => Failure(Unauthorized, "Invalid credentials")
      case Some(id) =>
        if password.None? then Failure(ServerError, "Server error")
        else if !b.matches(password.value, s.users[id].password) then Failure(Unauthorized, "Invalid credentials")
        else Success(Ok, Session(sign(id), View(s.users[id])))
  }

  /** GET /auth/me for the user the middleware let through. */
  function Me(s: Store, uid: UserId): (r: Reply<PublicUser>)
    requires uid < |s.users|
    ensures r.Success? && r.status == Ok
    ensures r.value.id == s.users[uid].id && r.value.username == s.users[uid].username
    ensures r.value.currentStreakStart == s.users[uid].currentStreakStart
    ensures r.value.lastCheckIn == s.users[uid].lastCheckIn
    ensures r.value.streakHistory == s.users[uid].streakHistory && r.value.journals == s.users[uid].journals
  {
    Success(Ok, View(s.users[uid]))
  }

  /** POST /auth/logout: always succeeds; clearing the cookie is transport. */
  function Logout(): (r: Reply<string>)
    ensures r.Success? && r.status == Ok
  {
    Success(Ok, "Logged out successfully")
  }

  // ---------------------------------------------------------------------------
  // Properties
  // ---------------------------------------------------------------------------

  /** Registering keeps the store invariant: the new user gets the next id, a
      valid trimmed lower-case username no one else has, and no room. */
  lemma RegisterWithKeepsWf(s: Store, username: Option<string>, password: Option<string>,
                            b: Bcrypt, sign: UserId -> string, plainChecked: bool)
    requires Wf(s) && SoundBcrypt(b)
    ensures Wf(RegisterWith(s, username, password, b, sign, plainChecked).store)
  {
    var r := RegisterWith(s, username, password, b, sign, plainChecked);
    if r.reply.Success? {
      var u := User(|s.users|, UsernameKey(username.value), b.hash(password.value), None, None, [], [], None);
      AppendUserWf(s, u);
    }
  }

  lemma AppendUserWf(s: Store, u: User)
    requires Wf(s) && u.id == |s.users| && StoredUserValid(u) && u.activeRoom.None?
    requires forall i :: 0 <= i < |s.users| ==> s.users[i].username != u.username
    ensures Wf(s.(users := s.users + [u]))
  {
    var s' := s.(users := s.users + [u]);
    AppendUsersWf(s.users, u);
    assert IdsIssued(s');
    AppendMembersRefer(s, u);
    forall r, i | r in s'.rooms && 0 <= i < |s'.users| && s'.users[i].activeRoom == Some(r.id)
      ensures i in r.members
    {
      assert s.users[i] == s'.users[i];
    }
  }

  lemma AppendUsersWf(users: seq<User>, u: User)
    requires UsersWf(users) && u.id == |users| && StoredUserValid(u)
    requires forall i :: 0 <= i < |users| ==> users[i].username != u.username
    ensures UsersWf(users + [u])
  {
  }

  lemma AppendMembersRefer(s: Store, u: User)
    requires MembersReferToRoom(s)
    ensures MembersReferToRoom(s.(users := s.users + [u]))
  {
    var s' := s.(users := s.users + [u]);
    forall r, m | r in s'.rooms && m in r.members
      ensures m < |s'.users| && s'.users[m].activeRoom == Some(r.id)
    {
      assert s.users[m] == s'.users[m];
    }
  }

  /** Whoever registers can log in with the same password, under any letter case
      of the username, and gets the account just created. */
  lemma RegisterThenLogin(s: Store, username: string, other: string, password: string,
                          b: Bcrypt, sign: UserId -> string)
    requires Wf(s) && SoundBcrypt(b)
    requires ToLower(other) == ToLower(username)
    requires RegisterChecked(s, Some(username), Some(password), b, sign).reply.Success?
    ensures var r := RegisterChecked(s, Some(username), Some(password), b, sign);
      Login(r.store, Some(other), Some(password), b, sign) == Success(Ok, r.reply.value)
  {
    var r := RegisterChecked(s, Some(username), Some(password), b, sign);
    RegisterWithKeepsWf(s, Some(username), Some(password), b, sign, true);
    var id := FindByUsername(r.store.users, UsernameKey(other));
    assert r.store.users[|s.users|].username == UsernameKey(other);
    assert id.Some?;
  }

  /** A username is taken in every letter case once registered. */
  lemma RegisterTwiceRejected(s: Store, username: string, other: string, p: string, q: Option<string>,
                              b: Bcrypt, sign: UserId -> string)
    requires ToLower(other) == ToLower(username)
    requires RegisterChecked(s, Some(username), Some(p), b, sign).reply.Success?
    ensures var r := RegisterChecked(s, Some(username), Some(p), b, sign);
      RegisterChecked(r.store, Some(other), q, b, sign).reply == Failure(BadRequest, "Username already taken")
  {
    var r := RegisterChecked(s, Some(username), Some(p), b, sign);
    assert r.store.users[|s.users|].username == UsernameKey(other);
  }

  /** The two login failures a client can provoke answer identically, so the
      answer does not reveal whether the username exists. */
  lemma LoginFailuresIndistinguishable(s: Store, unknown: string, known: string, wrong: string,
                                       b: Bcrypt, sign: UserId -> string)
    requires FindByUsername(s.users, UsernameKey(unknown)).None?
    requires FindByUsername(s.users, UsernameKey(known)).Some?
    requires !b.matches(wrong, s.users[FindByUsername(s.users, UsernameKey(known)).value].password)
    ensures forall p :: Login(s, Some(unknown), Some(p), b, sign) == Login(s, Some(known), Some(wrong), b, sign)
  {
  }

  /** Logging in changes nothing and answers the stored profile, which is what
      `/me` answers for the same user. */
  lemma LoginAgreesWithMe(s: Store, username: string, password: string, b: Bcrypt, sign: UserId -> string)
    requires Login(s, Some(username), Some(password), b, sign).Success?
    ensures var id := FindByUsername(s.users, UsernameKey(username)).value;
      Login(s, Some(username), Some(password), b, sign).value.user == Me(s, id).value
  {
  }

  // ---------------------------------------------------------------------------
  // The length rule sees the hash
  // ---------------------------------------------------------------------------

  /** As written, any password is accepted, even the empty one: the rule that
      passwords have at least six code units is checked on the 60-character hash. */
  lemma RegisterAcceptsEmptyPassword(s: Store, b: Bcrypt, sign: UserId -> string)
    requires SoundBcrypt(b)
    requires FindByUsername(s.users, "alice").None?
    ensures Register(s, Some("alice"), Some(""), b, sign).reply.Success?
  {
    AliceKey();
  }

  lemma AliceKey()
    ensures UsernameKey("alice") == "alice"
  {
    assert ToLower("alice") == "alice";
    TrimUntrimmed("alice");
  }

  /** With the rule applied to the submitted password, a short password is
      refused and nothing is stored. */
  lemma RegisterCheckedRefusesShortPassword(s: Store, username: string, password: string,
                                            b: Bcrypt, sign: UserId -> string)
    requires Utf16Length(password) < PasswordMinLength
    ensures var r := RegisterChecked(s, Some(username), Some(password), b, sign);
      r.reply.Failure? && r.store == s
  {
  }
}

=== FILE: badges.dfy ===
/**
 The streak badge: the table of badges by days of streak, the badge a streak of
 a given number of hours has earned, the next badge and the days left to it, and
 the image loader that tries one file extension after another before showing a
 trophy instead.
 */
module Badges {
  import opened Common
  import opened Text

  datatype Badge = Badge(days: nat, name: string, description: string)

  /** The image file name of a badge, without extension. */
  function Image(b: Badge): string {
    "badge-" + NatToString(b.days)
  }

  /** The days each badge needs, in the order of the table. */
  const Thresholds: seq<nat> := [0, 1, 2, 3, 5, 7, 10, 14, 17, 21, 30, 45, 60, 75, 90, 120, 150, 180, 210, 240, 270, 300, 330, 360]

  const Names: seq<string> := [
    "Clown",
    "Beginner",
    "Novice",
    "Struggler",
    "Rookie",
    "Warrior",
    "Streak Enjoyer",
    "Mind Over Meat",
    "Weak Men Quit Here",
    "Discipline Learner",
    "Self-Control Adept",
    "Aura Farmer",
    "Built Different",
    "Sigma Initiate",
    "Monk Mode",
    "Sigma Male",
    "Chad",
    "Ascended Chad",
    "Temptation Exorcist",
    "Gigachad",
    "Chad Ascender",
    "Monk Mode MAX",
    "Reality Breaker",
    "NoFap Final Boss 👑"
  ]

  const Descriptions: seq<string> := [
    "Just starting... prove yourself!",
    "First step taken!",
    "Building momentum...",
    "Keep pushing through!",
    "Getting stronger!",
    "One week strong! 💪",
    "Enjoying the journey!",
    "Two weeks of discipline!",
    "You're not weak!",
    "Habits are forming!",
    "One month! 🎉",
    "Your energy is rising!",
    "Two months strong!",
    "On the sigma path!",
    "90 days! True discipline! 🧘",
    "Identity transformed!",
    "Five months! 💎",
    "Half a year! Incredible!",
    "Temptation has no power!",
    "Eight months of iron will!",
    "Nine months! Elite status!",
    "300 days! Legendary!",
    "Breaking all limits!",
    "ONE YEAR! You are the BOSS!"
  ]

  /** The badge table, one row per threshold. */
  function Row(k: nat): Badge
    requires k < |Thresholds|
  {
    Badge(Thresholds[k], Names[k], Descriptions[k])
  }

  /** The days of the last badge. */
  const MaxBadgeDays: nat := 360

  /** Thresholds that strictly increase from one badge to the next. */
  predicate Increasing(t: seq<nat>) {
    forall i :: 0 <= i < |t| - 1 ==> t[i] < t[i + 1]
  }

  /** The table starts at zero, ends at a year and its thresholds strictly
      increase. */
  lemma ThresholdsIncreasing()
    ensures |Thresholds| == |Names| == |Descriptions| == 24
    ensures Thresholds[0] == 0 && Thresholds[|Thresholds| - 1] == MaxBadgeDays
    ensures Increasing(Thresholds)
  {
  }

  /** In an increasing table every later threshold is larger. */
  lemma {:induction false} SortedStep(t: seq<nat>, i: int, j: int)
    requires Increasing(t) && 0 <= i < j < |t|
    ensures t[i] < t[j]
    decreases j - i
  {
    if j > i + 1 {
      SortedStep(t, i + 1, j);
    }
  }

  /** `Math.floor(hours / 24)`. */
  function Days(hours: int): (d: int)
    ensures d * 24 <= hours < d * 24 + 24
  {
    hours / 24
  }

  /** The scan of `getBadgeInfo` over positions `i - 1` down to 0: the first badge
      from the top whose threshold is reached, or the first badge when none is. */
  function ScanDown(t: seq<nat>, d: int, i: nat): (k: nat)
    requires 0 < |t| && i <= |t|
    ensures k < |t|
    ensures forall j :: k < j < i ==> t[j] > d
    ensures t[k] <= d || (k == 0 && forall j :: 0 <= j < i ==> t[j] > d)
  {
    if i == 0 then 0
    else if d >= t[i - 1] then i - 1
    else ScanDown(t, d, i - 1)
  }

  /** The position of the badge a streak of `hours` has earned. */
  function BadgeIndex(hours: int): (k: nat)
    ensures k < |Thresholds|
  {
    ScanDown(Thresholds, Days(hours), |Thresholds|)
  }

  /** `getBadgeInfo`: the badge of the largest threshold the streak has reached. */
  function BadgeInfo(hours: int): (b: Badge)
    ensures Days(hours) >= 0 ==> b.days <= Days(hours)
    ensures forall k :: 0 <= k < |Thresholds| && Thresholds[k] <= Days(hours) ==> Thresholds[k] <= b.days
  {
    ThresholdsIncreasing();
    ScanDownIsLargest(Thresholds, Days(hours));
    ScanDownDominates(Thresholds, Days(hours));
    Row(BadgeIndex(hours))
  }

  /** Every threshold reached is at most the one the scan down stops at. */
  lemma ScanDownDominates(t: seq<nat>, d: int)
    requires 0 < |t| && Increasing(t)
    ensures forall j :: 0 <= j < |t| && t[j] <= d ==> t[j] <= t[ScanDown(t, d, |t|)]
  {
    var k := ScanDown(t, d, |t|);
    forall j | 0 <= j < |t| && t[j] <= d
      ensures t[j] <= t[k]
    {
      if j < k {
        SortedStep(t, j, k);
      }
    }
  }

  /** In an increasing table starting at zero, the scan down finds the largest
      threshold reached, and the first badge for a negative count. */
  lemma ScanDownIsLargest(t: seq<nat>, d: int)
    requires 0 < |t| && Increasing(t) && t[0] == 0
    ensures var k := ScanDown(t, d, |t|);
      && (d >= 0 ==> t[k] <= d)
      && (k + 1 < |t| ==> d < t[k + 1])
      && (d < 0 ==> k == 0)
  {
  }

  /** The earned badge is the one with the largest threshold the streak has
      reached; a negative count earns the first badge. */
  lemma BadgeIsLargestReached(hours: int)
    ensures var k := BadgeIndex(hours);
      && (Days(hours) >= 0 ==> BadgeInfo(hours).days <= Days(hours))
      && (k + 1 < |Thresholds| ==> Days(hours) < Row(k + 1).days)
      && (Days(hours) < 0 ==> k == 0)
  {
    ThresholdsIncreasing();
    ScanDownIsLargest(Thresholds, Days(hours));
  }

  /** Over an increasing table the scan down never moves back as the count grows. */
  lemma ScanDownMonotone(t: seq<nat>, d1: int, d2: int)
    requires 0 < |t| && Increasing(t) && d1 <= d2
    ensures ScanDown(t, d1, |t|) <= ScanDown(t, d2, |t|)
  {
    var k1, k2 := ScanDown(t, d1, |t|), ScanDown(t, d2, |t|);
    if k2 < k1 {
      SortedStep(t, k2, k1);
    }
  }

  /** A longer streak never has a lower badge. */
  lemma BadgeMonotone(h1: int, h2: int)
    requires h1 <= h2
    ensures BadgeIndex(h1) <= BadgeIndex(h2)
  {
    ThresholdsIncreasing();
    ScanDownMonotone(Thresholds, Days(h1), Days(h2));
  }

  /** What `getNextBadgeInfo` answers: the badge and the days left to it. */
  datatype Next = Next(badge: Badge, daysRemaining: int)

  /** The scan of `getNextBadgeInfo` from position `i` up: the first badge whose
      threshold lies beyond `d`. */
  function ScanUp(t: seq<nat>, d: int, i: nat): (k: Option<nat>)
    requires i <= |t|
    ensures k.Some? ==>
      && i <= k.value < |t| && t[k.value] > d
      && forall j :: i <= j < k.value ==> t[j] <= d
    ensures k.None? ==> forall j :: i <= j < |t| ==> t[j] <= d
    decreases |t| - i
  {
    if i == |t| then None
    else if t[i] > d then Some(i)
    else ScanUp(t, d, i + 1)
  }

  /** `getNextBadgeInfo`: nothing once the last badge is earned. */
  function NextBadge(hours: int): (r: Option<Next>)
    ensures r.None? <==> forall k :: 0 <= k < |Thresholds| ==> Thresholds[k] <= Days(hours)
    ensures r.Some? ==> r.value.badge.days > Days(hours)
    ensures r.Some? ==> r.value.daysRemaining == r.value.badge.days - Days(hours) >= 1
    ensures r.Some? ==>
      forall k :: 0 <= k < |Thresholds| && Thresholds[k] > Days(hours) ==> r.value.badge.days <= Thresholds[k]
  {
    var d := Days(hours);
    ThresholdsIncreasing();
    ScanUpIsSmallest(Thresholds, d);
    match ScanUp(Thresholds, d, 0)
    case None => None
    case Some(k) => Some(Next(Row(k), Thresholds[k] - d))
  }

  /** Over an increasing table the scan up stops at the smallest threshold beyond
      the count. */
  lemma ScanUpIsSmallest(t: seq<nat>, d: int)
    requires Increasing(t)
    ensures ScanUp(t, d, 0).Some? ==>
      forall j :: 0 <= j < |t| && t[j] > d ==> t[ScanUp(t, d, 0).value] <= t[j]
  {
    if ScanUp(t, d, 0).Some? {
      var m := ScanUp(t, d, 0).value;
      forall j | 0 <= j < |t| && t[j] > d
        ensures t[m] <= t[j]
      {
        if m < j {
          SortedStep(t, m, j);
        }
      }
    }
  }

  /** Over an increasing table starting at zero and a count not below zero, the
      scan up finds the badge after the one the scan down finds, and finds none
      exactly when the last threshold is reached. */
  lemma ScanUpFollowsScanDown(t: seq<nat>, d: int)
    requires 0 < |t| && Increasing(t) && t[0] == 0 && d >= 0
    ensures ScanUp(t, d, 0).None? <==> d >= t[|t| - 1]
    ensures ScanUp(t, d, 0).Some? ==>
      ScanDown(t, d, |t|) + 1 < |t| && ScanUp(t, d, 0).value == ScanDown(t, d, |t|) + 1
  {
    var k := ScanDown(t, d, |t|);
    var n := ScanUp(t, d, 0);
    var last := |t| - 1;
    if n.Some? {
      var m := n.value;
      if m < last {
        SortedStep(t, m, last);
      }
      assert t[k] <= d;
      assert k + 1 < |t| ==> t[k + 1] > d;
      if m < k {
        SortedStep(t, m, k);
      }
    }
  }

  /** For a non-negative count the next badge is the one after the earned badge,
      and there is none exactly when a year has been reached. */
  lemma NextFollowsEarned(hours: int)
    requires hours >= 0
    ensures NextBadge(hours).None? <==> Days(hours) >= MaxBadgeDays
    ensures NextBadge(hours).Some? ==>
      BadgeIndex(hours) + 1 < |Thresholds| && NextBadge(hours).value.badge == Row(BadgeIndex(hours) + 1)
  {
    ThresholdsIncreasing();
    ScanUpFollowsScanDown(Thresholds, Days(hours));
  }

  /** A negative count (a streak start in the future) shows the first badge and
      names that same badge as the next one. */
  lemma NegativeHoursNext(hours: int)
    requires hours < 0
    ensures BadgeInfo(hours) == Row(0)
    ensures NextBadge(hours) == Some(Next(Row(0), -Days(hours)))
  {
    ThresholdsIncreasing();
    ScanDownIsLargest(Thresholds, Days(hours));
  }

  /** The "day"/"days" word of the next-badge line: singular for exactly one. */
  function DayWord(n: int): (r: string)
    ensures r == "day" <==> n == 1
    ensures r == "days" <==> n != 1
  {
    if n != 1 then "days" else "day"
  }

  /** The line under the badge, `Next: <name> in <n> day(s)`, or none once the last
      badge is earned. */
  function NextBadgeLine(hours: int): (r: Option<string>)
    ensures r.None? <==> Days(hours) >= MaxBadgeDays
    ensures r.Some? ==> NextBadge(hours).Some? && exists n: nat {:trigger NatToString(n)} ::
      && n >= 1 && n == NextBadge(hours).value.daysRemaining
      && r.value == "Next: " + NextBadge(hours).value.badge.name + " in " + NatToString(n) + " " + DayWord(n)
  {
    if hours >= 0 then NextFollowsEarned(hours); NextBadgeLineOf(hours)
    else NegativeHoursNext(hours); NextBadgeLineOf(hours)
  }

  /** The text of `NextBadgeLine`, built from `NextBadge`. */
  function NextBadgeLineOf(hours: int): Option<string> {
    match NextBadge(hours)
    case None => None
    case Some(next) =>
      var n: nat := next.daysRemaining;
      Some("Next: " + next.badge.name + " in " + NatToString(n) + " " + DayWord(n))
  }

  /** The line ends in the plural `s` exactly when more than one day is left. */
  lemma NextLinePlural(hours: int)
    requires NextBadgeLine(hours).Some?
    ensures var line := NextBadgeLine(hours).value;
      line[|line| - 1] == 's' <==> NextBadge(hours).value.daysRemaining > 1
  {
  }

  // ---------------------------------------------------------------------------
  // The image loader
  // ---------------------------------------------------------------------------

  const Extensions: seq<string> := ["png", "jpg", "jpeg", "svg", "webp"]

  /** The loader's state: the extension being tried, and whether it has given up
      and shows the trophy. */
  datatype Loader = Loader(extension: nat, fallback: bool)

  const Fresh: Loader := Loader(0, false)

  /** The image source the loader shows while it has not given up. */
  function Source(imageName: string, l: Loader): string
    requires l.extension < |Extensions|
  {
    "/badges/" + imageName + "." + Extensions[l.extension]
  }

  /** `handleError`: try the next extension, or give up after the last. */
  function OnError(l: Loader): (r: Loader)
    requires l.extension < |Extensions|
    ensures r.extension < |Extensions|
  {
    if l.extension < |Extensions| - 1 then l.(extension := l.extension + 1) else l.(fallback := true)
  }

  /** The loader after `n` failed loads. */
  function AfterErrors(n: nat): (l: Loader)
    ensures l.extension < |Extensions|
  {
    if n == 0 then Fresh else OnError(AfterErrors(n - 1))
  }

  /** Each extension is tried once, in order, and the trophy appears after the
      fifth failure and stays. */
  lemma {:induction false} AfterErrorsClosedForm(n: nat)
    ensures AfterErrors(n) == Loader(if n < |Extensions| then n else |Extensions| - 1, n >= |Extensions|)
  {
    if n > 0 {
      AfterErrorsClosedForm(n - 1);
    }
  }
}

=== FILE: common.dfy ===
/**
 Shared vocabulary of the streak tracker model: optional values, the outcome of a
 route handler (status plus either a value or an error message), identifiers and
 the one piece of time arithmetic every part of the system agrees on: whole hours
 between two millisecond timestamps, truncated toward minus infinity.
 */
module Common {

  /** `null` in the source: an absent timestamp, room reference or request field. */
  datatype Option<T> = None | Some(value: T)

  /** Identifiers of stored documents; a user id is its position in the user store. */
  type UserId = nat
  type RoomId = nat

  /** The HTTP status a handler answers with. `Pending` stands for a handler that
      has not answered yet (it is still retrying, see the room-code generator). */
  datatype Status = Ok | Created | BadRequest | Unauthorized | NotFound | ServerError | Pending {
    function Code(): int {
      match this
      case Ok => 200
      case Created => 201
      case BadRequest => 400
      case Unauthorized => 401
      case NotFound => 404
      case ServerError => 500
      case Pending => 0
    }
  }

  /** A string field of a request body is present and truthy: given, and not the
      empty string. */
  predicate Given(f: Option<string>) {
    f.Some? && f.value != ""
  }

  /** The JSON body of a handler, reduced to what the caller can act on. */
  datatype Reply<T> = Success(status: Status, value: T) | Failure(status: Status, message: string)

  /** One hour in milliseconds: `1000 * 60 * 60` in the source. */
  const MsPerHour: int := 3600000

  /** `Math.floor((end - start) / (1000 * 60 * 60))`: Dafny's division by a positive
      constant already rounds toward minus infinity, like `Math.floor`. */
  function HoursBetween(start: int, end: int): (h: int)
    ensures h * MsPerHour <= end - start < (h + 1) * MsPerHour
  {
    (end - start) / MsPerHour
  }

  /** The floor characterisation pins the value down: no other integer satisfies it. */
  lemma HoursBetweenUnique(start: int, end: int, h: int)
    requires h * MsPerHour <= end - start < (h + 1) * MsPerHour
    ensures h == HoursBetween(start, end)
  {
  }

  /** A duration is never negative unless the clock went backwards. */
  lemma HoursBetweenNonNegative(start: int, end: int)
    requires start <= end
    ensures HoursBetween(start, end) >= 0
  {
  }

  /** Elapsed hours of an optional streak start: 0 without a streak, otherwise the
      truncated hours since the start (the backend does not clamp clock skew). */
  function ElapsedHours(start: Option<int>, now: int): (h: int)
    ensures start.None? ==> h == 0
    ensures start.Some? ==> h * MsPerHour <= now - start.value < (h + 1) * MsPerHour
  {
    match start
    case None => 0
    case Some(t) => HoursBetween(t, now)
  }
}

=== FILE: competition.dfy ===
/**
 The competition routes: creating a room, joining one by its code, reading the
 current room with its leaderboard, and leaving (a host's leave ends the room for
 everyone). The routes see the rooms the TTL monitor has not yet removed; the
 monitor itself is `Store.Expire`, a step of its own between requests.
 */
module Competition {
  import opened Common
  import opened Text
  import opened Seqs
  import opened Users
  import opened Rooms
  import opened Store
  import opened RoomCodes
  import opened Leaderboard

  const AlreadyInRoomToCreate: string := "You are already in a room. Leave it first to create a new one."
  const AlreadyInRoomToJoin: string := "You are already in a room. Leave it first to join another."

  /** The user list with one user's room reference set to `room`. */
  function SetRoom(users: seq<User>, uid: UserId, room: Option<RoomId>): (r: seq<User>)
    requires uid < |users|
    ensures |r| == |users|
    ensures r[uid].activeRoom == room
    ensures forall i :: 0 <= i < |users| && i != uid ==> r[i] == users[i]
    ensures r[uid] == users[uid].(activeRoom := room)
  {
    users[uid := users[uid].(activeRoom := room)]
  }

  /** `b` is `a` with at most the room references changed. */
  ghost predicate OnlyRefsDiffer(a: seq<User>, b: seq<User>) {
    |a| == |b| && forall i :: 0 <= i < |a| ==> b[i] == a[i].(activeRoom := b[i].activeRoom)
  }

  /** `User.updateMany({ activeRoom: id }, { $set: { activeRoom: null } })`: no user
      refers to the room any more, only references to it were cleared, and every
      other user is unchanged. */
  function ClearRefs(users: seq<User>, id: RoomId): (r: seq<User>)
    ensures OnlyRefsDiffer(users, r)
    ensures forall i :: 0 <= i < |r| ==> r[i].activeRoom != Some(id)
    ensures forall i :: 0 <= i < |users| && r[i].activeRoom != users[i].activeRoom ==>
      users[i].activeRoom == Some(id) && r[i].activeRoom.None?
  {
    seq(|users|, i requires 0 <= i < |users| =>
      if users[i].activeRoom == Some(id) then users[i].(activeRoom := None) else users[i])
  }

  /** POST /competition/create. The name must be given and the caller in no room;
      then codes are drawn until one is free. A name that is blank after trimming
      or longer than 30 code units fails schema validation, so nothing is stored.
      On success the new room has a fresh id, the caller as host and only member,
      a code no room held, and the caller now refers to it. */
  function Create(s: Store, uid: UserId, name: Option<string>, draws: seq<Draw>, now: int)
    : (r: Step<Room>)
    requires uid < |s.users|
    ensures !Given(name) ==> r == Step(Failure(BadRequest, "Room name is required"), s)
    ensures Given(name) && s.users[uid].activeRoom.Some? ==>
        r == Step(Failure(BadRequest, AlreadyInRoomToCreate), s)
    ensures r.reply.Failure? ==> r.store == s
    ensures r.reply.Success? <==>
      && Given(name) && s.users[uid].activeRoom.None?
      && FirstFreeCode(HeldCodes(s.rooms), Codes(draws), 0).Some?
      && StoredRoomName(name.value).Some?
    ensures r.reply.Success? ==>
      var room := r.reply.value;
      && r.reply.status == Created
      && room.id == s.nextRoomId
      && room.name == Trim(name.value)
      && IsRoomCode(room.code)
      && (forall x :: x in s.rooms ==> x.code != room.code)
      && room.host == uid
      && room.members == [uid]
      && room.createdAt == now
      && r.store.rooms == s.rooms + [room]
      && r.store.nextRoomId == s.nextRoomId + 1
      && r.store.users == SetRoom(s.users, uid, Some(room.id))
  {
    if !Given(name) then
      Step(Failure(BadRequest, "Room name is required"), s)
    else if s.users[uid].activeRoom.Some? then
      Step(Failure(BadRequest, AlreadyInRoomToCreate), s)
    else
      match FirstFreeCode(HeldCodes(s.rooms), Codes(draws), 0)
      case None => Step(Failure(Pending, ""), s)
      case Some(k) =>
        match StoredRoomName(name.value)
        case None => Step(Failure(ServerError, "Server Error"), s)
        case Some(stored) =>
          FreeCodeIsFresh(s.rooms, draws);
          var room := Room(s.nextRoomId, stored, Codes(draws)[k], uid, [uid], now);
          var users := SetRoom(s.users, uid, Some(room.id));
          Step(Success(Created, room), Store(users, s.rooms + [room], s.nextRoomId + 1))
  }

  /** The members after a join: the caller is appended unless already there. */
  function WithMember(members: seq<UserId>, uid: UserId): (r: seq<UserId>)
    ensures uid in r
    ensures forall m :: m in r <==> m in members || m == uid
    ensures uid in members ==> r == members
    ensures uid !in members ==> |r| == |members| + 1 && r[..|members|] == members
  {
    if uid in members then members
    else
      var r := members + [uid];
      assert r[..|members|] == members;
      r
  }

  /** POST /competition/join. The code must be given and the caller in no room.
      The room is looked up by the upper-cased code (the code setters trim it too);
      an unknown code answers 404 and changes nothing. Otherwise the caller joins
      the member list once, and refers to the room. */
  function Join(s: Store, uid: UserId, code: Option<string>): (r: Step<Room>)
    requires uid < |s.users|
    ensures !Given(code) ==> r == Step(Failure(BadRequest, "Room code is required"), s)
    ensures Given(code) && s.users[uid].activeRoom.Some? ==>
        r == Step(Failure(BadRequest, AlreadyInRoomToJoin), s)
    ensures Given(code) && s.users[uid].activeRoom.None? && FindByCode(s.rooms, ToUpper(code.value)).None? ==>
        r == Step(Failure(NotFound, "Room not found"), s)
    ensures r.reply.Failure? ==> r.store == s
    ensures r.reply.Success? <==>
      Given(code) && s.users[uid].activeRoom.None? && FindByCode(s.rooms, ToUpper(code.value)).Some?
    ensures r.reply.Success? ==>
      var found := FindByCode(s.rooms, ToUpper(code.value)).value;
      var room := r.reply.value;
      && r.reply.status == Ok
      && room == found.(members := WithMember(found.members, uid))
      && r.store.rooms == Replace(s.rooms, room)
      && r.store.users == SetRoom(s.users, uid, Some(found.id))
      && r.store.nextRoomId == s.nextRoomId
  {
    if !Given(code) then
      Step(Failure(BadRequest, "Room code is required"), s)
    else if s.users[uid].activeRoom.Some? then
      Step(Failure(BadRequest, AlreadyInRoomToJoin), s)
    else
      match FindByCode(s.rooms, ToUpper(code.value))
      case None => Step(Failure(NotFound, "Room not found"), s)
      case Some(found) =>
        var room := found.(members := WithMember(found.members, uid));
        var users := SetRoom(s.users, uid, Some(found.id));
        Step(Success(Ok, room), s.(users := users, rooms := Replace(s.rooms, room)))
  }

  /** The room fields `/current` answers with. */
  datatype RoomSummary = RoomSummary(id: RoomId, name: string, code: string, host: UserId, createdAt: int)

  /** The room as `/current` shows it: its own fields, without the member list. */
  function Summary(r: Room): (v: RoomSummary)
    ensures v.id == r.id && v.name == r.name && v.code == r.code
    ensures v.host == r.host && v.createdAt == r.createdAt
  {
    RoomSummary(r.id, r.name, r.code, r.host, r.createdAt)
  }

  /** What `/current` answers: not in a room, or the room and its leaderboard. */
  datatype CurrentView = NotInRoom | InRoom(room: RoomSummary, leaderboard: seq<LeaderEntry>)

  /** GET /competition/current. Always succeeds. A caller whose reference points at
      a room that no longer exists has the reference cleared and is told it is in
      no room; a caller in an existing room gets that room and its leaderboard, and
      nothing is written. */
  function Current(s: Store, uid: UserId, now: int): (r: Step<CurrentView>)
    requires uid < |s.users|
    ensures |r.store.users| == |s.users|
    ensures r.reply.Success? && r.reply.status == Ok
    ensures s.users[uid].activeRoom.None? ==> r.reply.value == NotInRoom && r.store == s
    ensures s.users[uid].activeRoom.Some? && FindById(s.rooms, s.users[uid].activeRoom.value).None? ==>
        r.reply.value == NotInRoom && r.store == s.(users := SetRoom(s.users, uid, None))
    ensures r.reply.value.InRoom? ==>
        && s.users[uid].activeRoom.Some?
        && var room := FindById(s.rooms, s.users[uid].activeRoom.value);
        && room.Some?
        && r.reply.value.room == Summary(room.value)
        && r.reply.value.leaderboard == Board(s.users, room.value, uid, now)
        && r.store == s
    ensures r.reply.value.NotInRoom? ==> r.store.users[uid].activeRoom.None?
  {
    match s.users[uid].activeRoom
    case None => Step(Success(Ok, NotInRoom), s)
    case Some(id) =>
      match FindById(s.rooms, id)
      case None => Step(Success(Ok, NotInRoom), s.(users := SetRoom(s.users, uid, None)))
      case Some(room) => Step(Success(Ok, InRoom(Summary(room), Board(s.users, room, uid, now))), s)
  }

  /** POST /competition/leave. Refused for a caller in no room. Otherwise the
      caller's reference is cleared before anything else. If the room is gone that
      is all. A host's leave deletes the room and clears the reference of every
      user still pointing at it; a member's leave removes only the caller from the
      member list and the room stays. */
  function Leave(s: Store, uid: UserId): (r: Step<string>)
    requires uid < |s.users|
    ensures |r.store.users| == |s.users|
    ensures s.users[uid].activeRoom.None? ==> r == Step(Failure(BadRequest, "Not in a room"), s)
    ensures r.reply.Success? <==> s.users[uid].activeRoom.Some?
    ensures r.reply.Success? ==>
      r.store.users[uid].activeRoom.None? && r.store.nextRoomId == s.nextRoomId
    ensures s.users[uid].activeRoom.Some? && FindById(s.rooms, s.users[uid].activeRoom.value).None? ==>
        && r.reply.value == "Room left (was already gone)"
        && r.store == s.(users := SetRoom(s.users, uid, None))
    ensures var id := s.users[uid].activeRoom;
      id.Some? && FindById(s.rooms, id.value).Some? && FindById(s.rooms, id.value).value.host == uid ==>
        && r.reply.value == "Room deleted by host"
        && (forall x :: x in r.store.rooms <==> x in s.rooms && x.id != id.value)
        && r.store.users == ClearRefs(SetRoom(s.users, uid, None), id.value)
    ensures var id := s.users[uid].activeRoom;
      id.Some? && FindById(s.rooms, id.value).Some? && FindById(s.rooms, id.value).value.host != uid ==>
        var room := FindById(s.rooms, id.value).value;
        && r.reply.value == "Left room successfully"
        && r.store.rooms == Replace(s.rooms, room.(members := Filter(room.members, (m: UserId) => m != uid)))
        && r.store.users == SetRoom(s.users, uid, None)
  {
    match s.users[uid].activeRoom
    case None => Step(Failure(BadRequest, "Not in a room"), s)
    case Some(id) =>
      var detached := SetRoom(s.users, uid, None);
      match FindById(s.rooms, id)
      case None => Step(Success(Ok, "Room left (was already gone)"), s.(users := detached))
      case Some(room) =>
        if room.host == uid then
          Step(Success(Ok, "Room deleted by host"),
               s.(users := ClearRefs(detached, id), rooms := Without(s.rooms, id)))
        else
          var left := room.(members := Filter(room.members, (m: UserId) => m != uid));
          Step(Success(Ok, "Left room successfully"), s.(users := detached, rooms := Replace(s.rooms, left)))
  }
}

=== FILE: competition_page.dfy ===
/**
 The competition page: the streak length shown on each leaderboard card, the
 rank label, the create and join input fields with the guards that keep a blank
 field from being sent, and the dialog the leave button opens.
 */
module CompetitionPage {
  import opened Common
  import opened Text
  import opened Rooms
  import opened Store
  import opened RoomCodes
  import opened Competition
  import opened CompetitionProofs

  // ---------------------------------------------------------------------------
  // The leaderboard card
  // ---------------------------------------------------------------------------

  /** `formatDuration`: under a day the hours alone, otherwise whole days and the
      hours left over. The server sends negative hours for a streak started in
      the future, and those print with their sign. */
  function FormatDuration(hours: int): (r: string)
    ensures r != [] && r[|r| - 1] == 'h'
  {
    if hours < 24 then IntToString(hours) + "h"
    else NatToString(hours / 24) + "d " + NatToString(hours % 24) + "h"
  }

  /** Reads a card's streak text back into hours: `<n>h`, `-<n>h` or
      `<d>d <r>h` with fewer than 24 hours left over. */
  function ParseDuration(s: string): Option<int> {
    if |s| > 0 && s[0] == '-' then ParseNegative(s[1..])
    else if DigitPrefixLength(s) == 0 then None
    else ParseCount(ReadNat(s).0, ReadNat(s).1)
  }

  /** The digits after a minus sign: a negative number of hours. */
  function ParseNegative(s: string): Option<int> {
    if DigitPrefixLength(s) > 0 && ReadNat(s).1 == "h" && ReadNat(s).0 > 0
    then var n: int := ReadNat(s).0; Some(-n) else None
  }

  /** A leading count `n` and the text after it. */
  function ParseCount(n: nat, rest: string): Option<int> {
    if rest == "h" then Some(n)
    else if |rest| >= 2 && rest[..2] == "d " then ParseHours(n, rest[2..])
    else None
  }

  /** The hours after `<n>d `: fewer than a day. */
  function ParseHours(days: nat, s: string): Option<int> {
    if DigitPrefixLength(s) > 0 && ReadNat(s).1 == "h" && ReadNat(s).0 < 24
    then Some(days * 24 + ReadNat(s).0) else None
  }

  /** The card's text determines the streak length: reading it back gives the
      hours it was printed from. */
  lemma DurationReadsBack(hours: int)
    ensures ParseDuration(FormatDuration(hours)) == Some(hours)
  {
    if hours < 0 {
      NegativeReadsBack(hours);
    } else if hours < 24 {
      assert FormatDuration(hours) == NatToString(hours) + "h";
      CountParses(hours, "h");
    } else {
      DaysReadsBack(hours);
    }
  }

  lemma NegativeReadsBack(hours: int)
    requires hours < 0
    ensures ParseDuration(FormatDuration(hours)) == Some(hours)
  {
    calc {
      ParseDuration(FormatDuration(hours));
      == { NegativeText(hours); }
      ParseDuration("-" + (NatToString(-hours) + "h"));
      == { NegativeParses(hours); }
      Some(hours);
    }
  }

  lemma NegativeText(hours: int)
    requires hours < 0
    ensures FormatDuration(hours) == "-" + (NatToString(-hours) + "h")
  {
    var digits := NatToString(-hours);
    assert FormatDuration(hours) == "-" + digits + "h";
    assert "-" + digits + "h" == "-" + (digits + "h");
  }

  lemma NegativeParses(hours: int)
    requires hours < 0
    ensures ParseDuration("-" + (NatToString(-hours) + "h")) == Some(hours)
  {
    var t := NatToString(-hours) + "h";
    MinusParses(t);
    NegativeDigits(hours);
  }

  lemma MinusParses(t: string)
    ensures ParseDuration("-" + t) == ParseNegative(t)
  {
    assert ("-" + t)[0] == '-' && ("-" + t)[1..] == t;
  }

  lemma NegativeDigits(hours: int)
    requires hours < 0
    ensures ParseNegative(NatToString(-hours) + "h") == Some(hours)
  {
    ReadNatToString(-hours, "h");
  }

  /** Text that starts with a number is read as a count and what follows it. */
  lemma CountParses(n: nat, rest: string)
    requires rest == [] || !IsDigit(rest[0])
    ensures ParseDuration(NatToString(n) + rest) == ParseCount(n, rest)
  {
    ReadNatToString(n, rest);
    assert (NatToString(n) + rest)[0] == NatToString(n)[0];
  }

  lemma DaysReadsBack(hours: int)
    requires hours >= 24
    ensures ParseDuration(FormatDuration(hours)) == Some(hours)
  {
    var d, m := hours / 24, hours % 24;
    var rest := "d " + (NatToString(m) + "h");
    calc {
      ParseDuration(FormatDuration(hours));
      == { DaysText(hours); }
      ParseDuration(NatToString(d) + rest);
      == { assert rest[0] == 'd'; CountParses(d, rest); }
      ParseCount(d, rest);
      == { assert rest != "h" && rest[..2] == "d " && rest[2..] == NatToString(m) + "h"; }
      ParseHours(d, NatToString(m) + "h");
      == { HoursAfterDays(hours); }
      Some(hours);
    }
  }

  lemma DaysText(hours: int)
    requires hours >= 24
    ensures FormatDuration(hours) == NatToString(hours / 24) + ("d " + (NatToString(hours % 24) + "h"))
  {
    var d, m := hours / 24, hours % 24;
    assert FormatDuration(hours) == NatToString(d) + "d " + NatToString(m) + "h";
    Regroup(NatToString(d), "d ", NatToString(m), "h");
  }

  lemma HoursAfterDays(hours: int)
    requires hours >= 24
    ensures ParseHours(hours / 24, NatToString(hours % 24) + "h") == Some(hours)
  {
    ReadNatToString(hours % 24, "h");
  }

  /** Different streak lengths never show the same text. */
  lemma DurationInjective(h1: int, h2: int)
    requires FormatDuration(h1) == FormatDuration(h2)
    ensures h1 == h2
  {
    DurationReadsBack(h1);
    DurationReadsBack(h2);
  }

  /** Under a day the card shows the hours and `h`, with a minus sign for a start in
      the future. */
  lemma DurationHoursForm(hours: int)
    requires hours < 24
    ensures hours >= 0 ==> FormatDuration(hours) == NatToString(hours) + "h"
    ensures hours < 0 ==> FormatDuration(hours) == "-" + NatToString(-hours) + "h"
  {
  }

  /** From a day on, the text shows whole days and fewer than 24 remaining hours
      that add back up to the streak length. */
  lemma DurationDaysForm(hours: int)
    requires hours >= 24
    ensures exists d: nat, h: nat {:trigger NatToString(d), NatToString(h)} ::
      && d >= 1 && h < 24 && d * 24 + h == hours
      && FormatDuration(hours) == NatToString(d) + "d " + NatToString(h) + "h"
  {
    var d: nat, h: nat := hours / 24, hours % 24;
    assert d * 24 + h == hours;
    assert FormatDuration(hours) == NatToString(d) + "d " + NatToString(h) + "h";
  }

  const Crown: string := "👑"

  /** The rank shown on the card at position `index` of the leaderboard. */
  function RankLabel(index: nat): (r: string)
    ensures r != []
    ensures r == Crown <==> index == 0
    ensures index > 0 ==> r[0] == '#' && |r| >= 2
  {
    if index == 0 then Crown else "#" + NatToString(index + 1)
  }

  /** Reads a rank label back into the leaderboard position. */
  function ParseRank(shown: string): Option<nat> {
    if shown == Crown then Some(0)
    else if |shown| >= 2 && shown[0] == '#' && DigitPrefixLength(shown[1..]) > 0 then
      var (n, rest) := ReadNat(shown[1..]);
      if rest == [] && n >= 2 then Some(n - 1) else None
    else None
  }

  /** The label names its position: the crown for the leader, `#2`, `#3`, ...
      for the rest, and no two positions share a label. */
  lemma RankReadsBack(index: nat)
    ensures ParseRank(RankLabel(index)) == Some(index)
  {
    if index > 0 {
      var l := RankLabel(index);
      assert l[1..] == NatToString(index + 1) + [];
      ReadNatToString(index + 1, []);
    }
  }

  lemma RankInjective(i: nat, j: nat)
    requires RankLabel(i) == RankLabel(j)
    ensures i == j
  {
    RankReadsBack(i);
    RankReadsBack(j);
  }

  // ---------------------------------------------------------------------------
  // The input fields
  // ---------------------------------------------------------------------------

  const CreateNameMaxLength: nat := 30
  const JoinCodeMaxLength: nat := 6

  /** What a text input with a `maxLength` holds after `typed` was entered: the
      longest prefix of `typed` of at most `maxLength` UTF-16 code units. The
      browser does not split a character to fill the last unit. */
  function Capped(typed: string, maxLength: nat): (r: string)
    ensures Utf16Length(r) <= maxLength && |r| <= |typed|
    ensures r == typed[..|r|]
    ensures Utf16Length(typed) <= maxLength ==> r == typed
    ensures |r| < |typed| ==> Utf16Length(typed[..|r| + 1]) > maxLength
    decreases |typed|
  {
    if typed == [] || Utf16Units(typed[0]) > maxLength then
      assert typed != [] ==> typed[..1] == [typed[0]] && Utf16Length([typed[0]]) == Utf16Units(typed[0]);
      []
    else
      var rest := Capped(typed[1..], maxLength - Utf16Units(typed[0]));
      var r := [typed[0]] + rest;
      assert r[1..] == rest;
      assert |r| < |typed| ==> typed[..|r| + 1][1..] == typed[1..][..|rest| + 1];
      r
  }

  /** The join field: at most six code units, each character shown upper case. */
  function JoinField(typed: string): (r: string)
    ensures Utf16Length(r) <= JoinCodeMaxLength && |r| <= JoinCodeMaxLength && IsUpperCase(r)
  {
    var c := Capped(typed, JoinCodeMaxLength);
    CaseKeepsUtf16Length(c);
    ToUpper(c)
  }

  /** Typing into the join field what it already shows changes nothing. */
  lemma JoinFieldIdempotent(typed: string)
    ensures JoinField(JoinField(typed)) == JoinField(typed)
  {
    ToUpperFixes(JoinField(typed));
  }

  /** A room code typed in lower case shows as the code itself, so the lookup the
      server makes finds the room the code was generated for. */
  lemma JoinFieldOfLowerCode(d: Draw)
    ensures JoinField(ToLower(GenerateRoomCode(d))) == GenerateRoomCode(d)
    ensures CanonicalCode(JoinField(ToLower(GenerateRoomCode(d)))) == GenerateRoomCode(d)
  {
    var c := GenerateRoomCode(d);
    GeneratedCodeShape(d);
    RoomCodeFitsJoinField(c);
    UpperOfLower(c);
    ToUpperFixes(c);
  }

  /** A room code, in either case, fits the join field whole. */
  lemma RoomCodeFitsJoinField(c: string)
    requires IsRoomCode(c)
    ensures Capped(ToLower(c), JoinCodeMaxLength) == ToLower(c)
  {
    assert InBmp(c);
    BmpLength(c);
    CaseKeepsUtf16Length(c);
  }

  /** The create field: at most 30 code units, the longest prefix of what was
      typed that fits. */
  function CreateField(typed: string): (r: string)
    ensures Utf16Length(r) <= CreateNameMaxLength && |r| <= |typed| && r == typed[..|r|]
    ensures Utf16Length(typed) <= CreateNameMaxLength ==> r == typed
  {
    Capped(typed, CreateNameMaxLength)
  }

  /** The blank guard of both forms: a field holding only spaces sends nothing. */
  function Submitted(field: string): (r: Option<string>)
    ensures r.None? <==> AllSpace(field)
    ensures r.Some? ==> r.value == field
  {
    if Trim(field) == [] then None else Some(field)
  }

  /** A create request the page sends always carries a name the room schema
      accepts. */
  lemma SubmittedNameIsStored(typed: string)
    requires Submitted(CreateField(typed)).Some?
    ensures StoredRoomName(Submitted(CreateField(typed)).value).Some?
  {
    TrimUtf16Length(CreateField(typed));
  }

  // ---------------------------------------------------------------------------
  // The leave button and its dialog
  // ---------------------------------------------------------------------------

  datatype Variant = Danger | Warning

  datatype Dialog = Dialog(title: string, message: string, confirmText: string, variant: Variant)

  /** `isHost` of the page: the room's host is the signed-in user. */
  predicate IsHost(room: RoomSummary, me: UserId) {
    room.host == me
  }

  const EndRoom: string := "End Room"
  const Surrender: string := "Surrender"
  const EndRoomMessage: string :=
    "This will kick all members and delete the room immediately. This action cannot be undone."
  const SurrenderMessage: string :=
    "Are you sure you want to surrender and leave the battle? Your progress in this room will be lost."

  /** The label of the leave button. */
  function LeaveButtonLabel(room: RoomSummary, me: UserId): (r: string)
    ensures r == EndRoom <==> IsHost(room, me)
    ensures r == Surrender <==> !IsHost(room, me)
  {
    if IsHost(room, me) then EndRoom else Surrender
  }

  /** `handleLeaveRoom`: the host is warned that the room ends for everyone, a
      member that the battle is surrendered. */
  function LeaveDialog(room: RoomSummary, me: UserId): (d: Dialog)
    ensures d.variant == Danger <==> IsHost(room, me)
    ensures d.confirmText == LeaveButtonLabel(room, me)
  {
    if IsHost(room, me) then
      Dialog("End Room?", EndRoomMessage, EndRoom, Danger)
    else
      Dialog("Surrender Battle?", SurrenderMessage, Surrender, Warning)
  }

  /** The dialog tells the truth about the server: for the room the page shows,
      the danger dialog comes up exactly when confirming deletes the room, and
      the warning dialog exactly when the room stays without the caller. */
  lemma DialogPredictsLeave(s: Store, uid: UserId, now: int)
    requires Wf(s) && uid < |s.users|
    requires Current(s, uid, now).reply.value.InRoom?
    ensures var view := Current(s, uid, now).reply.value;
      var after := Leave(s, uid).store;
      && (LeaveButtonLabel(view.room, uid) == EndRoom ==> FindById(after.rooms, view.room.id).None?)
      && (LeaveDialog(view.room, uid).variant == Danger ==> FindById(after.rooms, view.room.id).None?)
      && (LeaveDialog(view.room, uid).variant == Warning ==>
            FindById(after.rooms, view.room.id).Some?
            && uid !in FindById(after.rooms, view.room.id).value.members)
  {
    var room := FindById(s.rooms, s.users[uid].activeRoom.value).value;
    if room.host == uid {
      HostLeaveClearsEveryReference(s, uid);
    } else {
      MemberLeaveKeepsRoom(s, uid);
    }
  }
}

=== FILE: competition_proofs.dfy ===
/**
 What the competition routes guarantee together: each keeps the store invariant
 (codes unique, host a member, no duplicate member, membership and room
 references agreeing), a host's leave leaves no reference to the deleted room,
 an interrupted cascade is repaired by the next read, and an expired room is
 absent from every lookup.
 */
module CompetitionProofs {
  import opened Common
  import opened Text
  import opened Seqs
  import opened Users
  import opened Rooms
  import opened Store
  import opened RoomCodes
  import opened Leaderboard
  import opened Competition

  lemma OnlyRefsDifferWf(a: seq<User>, b: seq<User>)
    requires UsersWf(a) && OnlyRefsDiffer(a, b)
    ensures UsersWf(b)
  {
    forall i | 0 <= i < |b| ensures b[i].id == i && StoredUserValid(b[i]) {
      assert b[i] == a[i].(activeRoom := b[i].activeRoom);
    }
    forall i, j | 0 <= i < j < |b| ensures b[i].username != b[j].username {
      assert b[i].username == a[i].username && b[j].username == a[j].username;
    }
  }

  /** Under the invariant, a user belongs to a room's members only if it refers to
      that room. */
  lemma MemberRefers(s: Store, r: Room, m: UserId)
    requires MembersReferToRoom(s) && r in s.rooms && m in r.members
    ensures m < |s.users| && s.users[m].activeRoom == Some(r.id)
  {
  }

  /** A user that refers to no existing room belongs to no member list. */
  lemma NotAMember(s: Store, uid: UserId)
    requires MembersReferToRoom(s) && uid < |s.users|
    requires s.users[uid].activeRoom.None? || FindById(s.rooms, s.users[uid].activeRoom.value).None?
    ensures forall r :: r in s.rooms ==> uid !in r.members
  {
    forall r | r in s.rooms ensures uid !in r.members {
      if uid in r.members {
        MemberRefers(s, r, uid);
      }
    }
  }

  /** Dropping rooms and clearing references to rooms that are no longer there
      keeps the invariant. This covers the expiry, every detach from a vanished
      room, and a host's leave however far its cascade got. */
  lemma ClearRefsWf(s: Store, s': Store)
    requires Wf(s)
    requires OnlyRefsDiffer(s.users, s'.users) && s'.nextRoomId == s.nextRoomId
    requires forall r :: r in s'.rooms ==> r in s.rooms
    requires forall i :: 0 <= i < |s.users| && s'.users[i].activeRoom != s.users[i].activeRoom ==>
      s'.users[i].activeRoom.None? && forall r :: r in s'.rooms ==> s.users[i].activeRoom != Some(r.id)
    ensures Wf(s')
  {
    OnlyRefsDifferWf(s.users, s'.users);
    assert IdsIssued(s');
    assert RoomsShaped(s'.rooms);
    assert KeysUnique(s'.rooms);
    forall r, m | r in s'.rooms && m in r.members
      ensures m < |s'.users| && s'.users[m].activeRoom == Some(r.id)
    {
      MemberRefers(s, r, m);
    }
    forall r, i | r in s'.rooms && 0 <= i < |s'.users| && s'.users[i].activeRoom == Some(r.id)
      ensures i in r.members
    {
    }
  }

  /** Clearing the reference of a user whose room no longer exists keeps the
      invariant. */
  lemma DetachWf(s: Store, uid: UserId)
    requires Wf(s) && uid < |s.users|
    requires s.users[uid].activeRoom.Some? ==> FindById(s.rooms, s.users[uid].activeRoom.value).None?
    ensures Wf(s.(users := SetRoom(s.users, uid, None)))
  {
    ClearRefsWf(s, s.(users := SetRoom(s.users, uid, None)));
  }

  /** Replacing a room by one with the same id, code and a valid shape keeps ids
      and codes unique and every room shaped. */
  lemma ReplaceKeepsKeys(rooms: seq<Room>, prev: Room, updated: Room)
    requires KeysUnique(rooms) && RoomsShaped(rooms) && prev in rooms
    requires updated.id == prev.id && updated.code == prev.code && RoomShape(updated)
    ensures KeysUnique(Replace(rooms, updated)) && RoomsShaped(Replace(rooms, updated))
    ensures forall x :: x in Replace(rooms, updated) ==> exists y :: y in rooms && y.id == x.id
  {
  }

  /** The member side after a room replacement: members of the updated room refer
      to it, and members of every other room still refer to theirs. */
  lemma ReplaceMembersRefer(s: Store, users: seq<User>, prev: Room, updated: Room)
    requires MembersReferToRoom(s) && OnlyRefsDiffer(s.users, users)
    requires updated.id == prev.id
    requires forall m :: m in updated.members ==> m < |users| && users[m].activeRoom == Some(prev.id)
    requires forall i :: 0 <= i < |users| && users[i].activeRoom != s.users[i].activeRoom ==>
      (users[i].activeRoom.None? || users[i].activeRoom == Some(prev.id))
      && (s.users[i].activeRoom.None? || s.users[i].activeRoom == Some(prev.id))
    ensures MembersReferToRoom(Store(users, Replace(s.rooms, updated), s.nextRoomId))
  {
    var rs := Replace(s.rooms, updated);
    forall r, m | r in rs && m in r.members
      ensures m < |users| && users[m].activeRoom == Some(r.id)
    {
      var k :| 0 <= k < |rs| && rs[k] == r;
      if s.rooms[k].id != updated.id {
        MemberRefers(s, r, m);
      }
    }
  }

  /** The reference side after a room replacement. */
  lemma ReplaceRefsAreMembers(s: Store, users: seq<User>, prev: Room, updated: Room)
    requires ReferencesAreMembers(s) && OnlyRefsDiffer(s.users, users)
    requires updated.id == prev.id
    requires forall i :: 0 <= i < |users| && users[i].activeRoom == Some(prev.id) ==> i in updated.members
    requires forall i :: 0 <= i < |users| && users[i].activeRoom != s.users[i].activeRoom ==>
      (users[i].activeRoom.None? || users[i].activeRoom == Some(prev.id))
    ensures ReferencesAreMembers(Store(users, Replace(s.rooms, updated), s.nextRoomId))
  {
    var rs := Replace(s.rooms, updated);
    forall r, i | r in rs && 0 <= i < |users| && users[i].activeRoom == Some(r.id)
      ensures i in r.members
    {
      var k :| 0 <= k < |rs| && rs[k] == r;
      if s.rooms[k].id != updated.id {
        assert r == s.rooms[k];
      }
    }
  }

  /** The store after a room is replaced by one with the same id and code, when
      users' references changed only as the updated member list requires. */
  lemma ReplaceRoomWf(s: Store, users: seq<User>, prev: Room, updated: Room)
    requires Wf(s) && prev in s.rooms
    requires updated.id == prev.id && updated.code == prev.code
    requires RoomShape(updated)
    requires OnlyRefsDiffer(s.users, users)
    requires forall i :: 0 <= i < |users| && users[i].activeRoom.Some? ==>
      users[i].activeRoom.value < s.nextRoomId
    requires forall m :: m in updated.members ==> m < |users| && users[m].activeRoom == Some(prev.id)
    requires forall i :: 0 <= i < |users| && users[i].activeRoom == Some(prev.id) ==> i in updated.members
    requires forall i :: 0 <= i < |users| && users[i].activeRoom != s.users[i].activeRoom ==>
      (users[i].activeRoom.None? || users[i].activeRoom == Some(prev.id))
      && (s.users[i].activeRoom.None? || s.users[i].activeRoom == Some(prev.id))
    ensures Wf(s.(users := users, rooms := Replace(s.rooms, updated)))
  {
    var s' := s.(users := users, rooms := Replace(s.rooms, updated));
    OnlyRefsDifferWf(s.users, users);
    ReplaceKeepsKeys(s.rooms, prev, updated);
    ReplaceMembersRefer(s, users, prev, updated);
    ReplaceRefsAreMembers(s, users, prev, updated);
    assert IdsIssued(s');
  }

  /** Appending a room with an unused id and an unused code keeps ids and codes
      unique and every room shaped. */
  lemma AddRoomKeys(rooms: seq<Room>, room: Room)
    requires KeysUnique(rooms) && RoomsShaped(rooms) && RoomShape(room)
    requires forall x :: x in rooms ==> x.id != room.id && x.code != room.code
    ensures KeysUnique(rooms + [room]) && RoomsShaped(rooms + [room])
  {
  }

  /** The member side after the host is pointed at a new room whose only member
      it is. */
  lemma AddRoomMembersRefer(e: Store, uid: UserId, room: Room)
    requires MembersReferToRoom(e) && uid < |e.users|
    requires forall x :: x in e.rooms ==> uid !in x.members
    requires room.members == [uid]
    ensures MembersReferToRoom(Store(SetRoom(e.users, uid, Some(room.id)), e.rooms + [room], e.nextRoomId + 1))
  {
    var users := SetRoom(e.users, uid, Some(room.id));
    forall x, m | x in e.rooms + [room] && m in x.members
      ensures m < |users| && users[m].activeRoom == Some(x.id)
    {
      if x != room {
        MemberRefers(e, x, m);
      }
    }
  }

  /** The reference side after the host is pointed at a new room: nobody else
      can refer to an id that was never handed out. */
  lemma AddRoomRefsAreMembers(e: Store, uid: UserId, room: Room)
    requires ReferencesAreMembers(e) && IdsIssued(e) && uid < |e.users|
    requires room.id == e.nextRoomId && room.members == [uid]
    ensures ReferencesAreMembers(Store(SetRoom(e.users, uid, Some(room.id)), e.rooms + [room], e.nextRoomId + 1))
  {
    var users := SetRoom(e.users, uid, Some(room.id));
    forall x, i | x in e.rooms + [room] && 0 <= i < |users| && users[i].activeRoom == Some(x.id)
      ensures i in x.members
    {
      if i != uid {
        assert users[i] == e.users[i];
      }
    }
  }

  /** Adding a fresh room whose only member is its host, a user in no room, and
      pointing the host at it keeps the invariant. */
  lemma AddRoomWf(e: Store, uid: UserId, room: Room)
    requires Wf(e) && uid < |e.users| && e.users[uid].activeRoom.None?
    requires room.id == e.nextRoomId && room.host == uid && room.members == [uid]
    requires StoredRoomName(room.name) == Some(room.name) && IsRoomCode(room.code)
    requires forall x :: x in e.rooms ==> x.code != room.code
    ensures Wf(Store(SetRoom(e.users, uid, Some(room.id)), e.rooms + [room], e.nextRoomId + 1))
  {
    var users := SetRoom(e.users, uid, Some(room.id));
    var s' := Store(users, e.rooms + [room], e.nextRoomId + 1);
    NotAMember(e, uid);
    OnlyRefsDifferWf(e.users, users);
    assert RoomShape(room);
    AddRoomKeys(e.rooms, room);
    AddRoomMembersRefer(e, uid, room);
    AddRoomRefsAreMembers(e, uid, room);
    assert IdsIssued(s');
  }

  /** Creating a room keeps the invariant: the new room has an id no room or
      reference used, a code no room holds, and its only member is the host, who
      was in no room before. */
  lemma CreateKeepsWf(s: Store, uid: UserId, name: Option<string>, draws: seq<Draw>, now: int)
    requires Wf(s) && uid < |s.users|
    ensures Wf(Create(s, uid, name, draws, now).store)
  {
    if Create(s, uid, name, draws, now).reply.Success? {
      CreatedWf(s, uid, name, draws, now);
    }
  }

  /** The success case of create. */
  lemma CreatedWf(s: Store, uid: UserId, name: Option<string>, draws: seq<Draw>, now: int)
    requires Wf(s) && uid < |s.users| && Create(s, uid, name, draws, now).reply.Success?
    ensures Wf(Create(s, uid, name, draws, now).store)
  {
    TrimIdempotent(name.value);
    AddRoomWf(s, uid, Create(s, uid, name, draws, now).reply.value);
  }

  /** Joining keeps the invariant: the caller, in no room before, is added once. */
  lemma JoinKeepsWf(s: Store, uid: UserId, code: Option<string>)
    requires Wf(s) && uid < |s.users|
    ensures Wf(Competition.Join(s, uid, code).store)
  {
    var r := Competition.Join(s, uid, code);
    if r.reply.Success? {
      var found := FindByCode(s.rooms, ToUpper(code.value)).value;
      JoinWf(s, uid, found);
    }
  }

  /** The join step itself. */
  lemma JoinWf(e: Store, uid: UserId, found: Room)
    requires Wf(e) && uid < |e.users| && e.users[uid].activeRoom.None? && found in e.rooms
    ensures Wf(e.(users := SetRoom(e.users, uid, Some(found.id)),
                  rooms := Replace(e.rooms, found.(members := WithMember(found.members, uid)))))
  {
    var room := found.(members := WithMember(found.members, uid));
    var users := SetRoom(e.users, uid, Some(found.id));
    NotAMember(e, uid);
    NoDupSnoc(found.members, uid);
    assert RoomShape(room);
    forall m | m in room.members ensures m < |users| && users[m].activeRoom == Some(found.id) {
      if m != uid {
        MemberRefers(e, found, m);
      }
    }
    ReplaceRoomWf(e, users, found, room);
  }

  /** Reading the current room keeps the invariant, including its repair. */
  lemma CurrentKeepsWf(s: Store, uid: UserId, now: int)
    requires Wf(s) && uid < |s.users|
    ensures Wf(Current(s, uid, now).store)
  {
    if s.users[uid].activeRoom.Some? && FindById(s.rooms, s.users[uid].activeRoom.value).None? {
      DetachWf(s, uid);
    }
  }

  /** Leaving keeps the invariant in all three cases. */
  lemma LeaveKeepsWf(s: Store, uid: UserId)
    requires Wf(s) && uid < |s.users|
    ensures Wf(Leave(s, uid).store)
  {
    if s.users[uid].activeRoom.Some? {
      var id := s.users[uid].activeRoom.value;
      match FindById(s.rooms, id)
      case None =>
        DetachWf(s, uid);
      case Some(room) =>
        if room.host == uid {
          HostLeaveWf(s, uid, room);
        } else {
          MemberLeaveWf(s, uid, room);
        }
    }
  }

  /** The member case of leave. */
  lemma MemberLeaveWf(e: Store, uid: UserId, room: Room)
    requires Wf(e) && uid < |e.users| && room in e.rooms
    requires e.users[uid].activeRoom == Some(room.id) && room.host != uid
    ensures Wf(e.(users := SetRoom(e.users, uid, None),
                  rooms := Replace(e.rooms, room.(members := Filter(room.members, (m: UserId) => m != uid)))))
  {
    var left := room.(members := Filter(room.members, (m: UserId) => m != uid));
    FilterNoDup(room.members, (m: UserId) => m != uid);
    assert RoomShape(left);
    var users := SetRoom(e.users, uid, None);
    forall m | m in left.members ensures m < |users| && users[m].activeRoom == Some(room.id) {
      MemberRefers(e, room, m);
    }
    ReplaceRoomWf(e, users, room, left);
  }

  /** The host case of leave: the room goes, and with it every reference to it. */
  lemma HostLeaveWf(e: Store, uid: UserId, room: Room)
    requires Wf(e) && uid < |e.users| && room in e.rooms
    requires e.users[uid].activeRoom == Some(room.id) && room.host == uid
    ensures Wf(e.(users := ClearRefs(SetRoom(e.users, uid, None), room.id), rooms := Without(e.rooms, room.id)))
  {
    var s' := e.(users := ClearRefs(SetRoom(e.users, uid, None), room.id), rooms := Without(e.rooms, room.id));
    forall i | 0 <= i < |e.users|
      ensures s'.users[i] == e.users[i].(activeRoom := s'.users[i].activeRoom)
      ensures s'.users[i].activeRoom != e.users[i].activeRoom ==>
        s'.users[i].activeRoom.None? && e.users[i].activeRoom == Some(room.id)
    {
    }
    ClearRefsWf(e, s');
  }

  /** After a host's leave, the room is gone and no user refers to it. */
  lemma HostLeaveClearsEveryReference(s: Store, uid: UserId)
    requires uid < |s.users|
    requires s.users[uid].activeRoom.Some?
    requires var room := FindById(s.rooms, s.users[uid].activeRoom.value);
      room.Some? && room.value.host == uid
    ensures var id := s.users[uid].activeRoom.value;
      var s' := Leave(s, uid).store;
      && FindById(s'.rooms, id).None?
      && forall i :: 0 <= i < |s'.users| ==> s'.users[i].activeRoom != Some(id)
  {
  }

  /** A member's leave takes only the caller off the member list: the room stays,
      its host stays a member, and every other member stays. */
  lemma MemberLeaveKeepsRoom(s: Store, uid: UserId)
    requires Wf(s) && uid < |s.users|
    requires s.users[uid].activeRoom.Some?
    requires var room := FindById(s.rooms, s.users[uid].activeRoom.value);
      room.Some? && room.value.host != uid
    ensures var room := FindById(s.rooms, s.users[uid].activeRoom.value).value;
      var s' := Leave(s, uid).store;
      && FindById(s'.rooms, room.id).Some?
      && var after := FindById(s'.rooms, room.id).value;
      && after.host == room.host && after.code == room.code
      && room.host in after.members
      && uid !in after.members
      && forall m :: m in room.members && m != uid ==> m in after.members
  {
    var room := FindById(s.rooms, s.users[uid].activeRoom.value).value;
    var left := room.(members := Filter(room.members, (m: UserId) => m != uid));
    assert left in Replace(s.rooms, left);
  }

  // ---------------------------------------------------------------------------
  // The cascade is not transactional
  // ---------------------------------------------------------------------------

  /** The user list when the cascade of a host's leave stopped part-way: only the
      users in `done` have had their reference cleared. */
  function PartlyCleared(users: seq<User>, id: RoomId, done: set<UserId>): (r: seq<User>)
    ensures |r| == |users|
    ensures forall i :: 0 <= i < |users| ==>
      r[i] == (if i in done && users[i].activeRoom == Some(id) then users[i].(activeRoom := None) else users[i])
  {
    seq(|users|, i requires 0 <= i < |users| =>
      if i in done && users[i].activeRoom == Some(id) then users[i].(activeRoom := None) else users[i])
  }

  /** The store after the host's own reference was cleared and the room deleted,
      but the cascade reached only the users in `done`. */
  function InterruptedHostLeave(e: Store, uid: UserId, id: RoomId, done: set<UserId>): Store
    requires uid < |e.users|
  {
    e.(users := PartlyCleared(SetRoom(e.users, uid, None), id, done), rooms := Without(e.rooms, id))
  }

  /** However far the cascade got, the invariant holds: what is left behind are
      references to a room that no longer exists. */
  lemma InterruptedHostLeaveWf(e: Store, uid: UserId, room: Room, done: set<UserId>)
    requires Wf(e) && uid < |e.users| && room in e.rooms
    requires e.users[uid].activeRoom == Some(room.id) && room.host == uid
    ensures Wf(InterruptedHostLeave(e, uid, room.id, done))
  {
    var s' := InterruptedHostLeave(e, uid, room.id, done);
    forall i | 0 <= i < |e.users|
      ensures s'.users[i] == e.users[i].(activeRoom := s'.users[i].activeRoom)
      ensures s'.users[i].activeRoom != e.users[i].activeRoom ==>
        s'.users[i].activeRoom.None? && e.users[i].activeRoom == Some(room.id)
    {
    }
    ClearRefsWf(e, s');
  }

  /** The next read repairs every user the interrupted cascade missed: such a user
      is told it is in no room and its reference is cleared. */
  lemma CurrentRepairsInterruptedLeave(e: Store, uid: UserId, room: Room, done: set<UserId>, v: UserId, now: int)
    requires Wf(e) && uid < |e.users| && room in e.rooms
    requires e.users[uid].activeRoom == Some(room.id) && room.host == uid
    requires v < |e.users|
    requires InterruptedHostLeave(e, uid, room.id, done).users[v].activeRoom == Some(room.id)
    ensures var r := Current(InterruptedHostLeave(e, uid, room.id, done), v, now);
      && r.reply.value == NotInRoom
      && r.store.users[v].activeRoom.None?
  {
    var s' := InterruptedHostLeave(e, uid, room.id, done);
    assert forall y :: y in s'.rooms ==> y.id != room.id;
  }

  // ---------------------------------------------------------------------------
  // Expiry
  // ---------------------------------------------------------------------------

  /** After a pass of the TTL monitor at time `t`, looking up the code of a room
      that had expired by `t` finds nothing. */
  lemma ExpiredCodeNotFound(s: Store, room: Room, t: int)
    requires KeysUnique(s.rooms) && RoomsShaped(s.rooms) && room in s.rooms && !Live(room, t)
    ensures room.code != ""
    ensures FindByCode(Expire(s, t).rooms, ToUpper(room.code)).None?
  {
    assert IsRoomCode(room.code);
    ToUpperFixes(room.code);
    RoomCodeIsCanonical(room.code);
    forall x | x in Expire(s, t).rooms ensures x.code != room.code {
      assert x in s.rooms && x != room;
    }
  }

  /** Once the monitor has passed, an expired room cannot be joined, even with its
      exact code. */
  lemma ExpiredRoomCannotBeJoined(s: Store, uid: UserId, room: Room, t: int)
    requires Wf(s) && uid < |s.users| && room in s.rooms && !Live(room, t)
    requires s.users[uid].activeRoom.None?
    ensures Competition.Join(Expire(s, t), uid, Some(room.code)).reply == Failure(NotFound, "Room not found")
  {
    ExpiredCodeNotFound(s, room, t);
  }

  /** Once the monitor has passed, a user whose room had expired is told it is in
      no room, and the stale reference is cleared. */
  lemma ExpiredRoomIsLeft(s: Store, uid: UserId, room: Room, t: int, now: int)
    requires Wf(s) && uid < |s.users| && room in s.rooms && !Live(room, t)
    requires s.users[uid].activeRoom == Some(room.id)
    ensures var r := Current(Expire(s, t), uid, now);
      r.reply.value == NotInRoom && r.store.users[uid].activeRoom.None?
  {
    var e := Expire(s, t);
    forall x | x in e.rooms ensures x.id != room.id {
      assert x in s.rooms && x != room;
    }
  }

  /** Expiry is not immediate: a room whose 24 hours are over by `now`, but that
      was still live at the monitor's last pass `t`, can still be joined. */
  lemma ExpiredUntilSwept(s: Store, uid: UserId, room: Room, t: int, now: int)
    requires Wf(s) && uid < |s.users| && room in s.rooms
    requires Live(room, t) && !Live(room, now)
    requires s.users[uid].activeRoom.None?
    ensures Competition.Join(Expire(s, t), uid, Some(room.code)).reply
         == Success(Ok, room.(members := WithMember(room.members, uid)))
  {
    var e := Expire(s, t);
    ExpireWf(s, t);
    assert room in e.rooms;
    FoundByCode(e, room);
  }

  // ---------------------------------------------------------------------------
  // Scenarios
  // ---------------------------------------------------------------------------

  /** The host of a newly created room finds itself in that room: `/current`
      answers the room and its leaderboard. */
  lemma CreateThenCurrent(s: Store, uid: UserId, name: Option<string>, draws: seq<Draw>, now: int)
    requires Wf(s) && uid < |s.users|
    requires Create(s, uid, name, draws, now).reply.Success?
    ensures var r := Create(s, uid, name, draws, now);
      var room := r.reply.value;
      Current(r.store, uid, now).reply.value == InRoom(Summary(room), Board(r.store.users, room, uid, now))
  {
    var r := Create(s, uid, name, draws, now);
    var room := r.reply.value;
    CreatedWf(s, uid, name, draws, now);
    var f := FindById(r.store.rooms, room.id);
    assert f.Some? && f.value in r.store.rooms;
    assert KeysUnique(r.store.rooms);
  }

  /** A stored room is found by its exact code. */
  lemma FoundByCode(t: Store, room: Room)
    requires KeysUnique(t.rooms) && RoomsShaped(t.rooms) && room in t.rooms
    ensures room.code != ""
    ensures FindByCode(t.rooms, ToUpper(room.code)) == Some(room)
  {
    assert IsRoomCode(room.code);
    ToUpperFixes(room.code);
    RoomCodeIsCanonical(room.code);
    var f := FindByCode(t.rooms, ToUpper(room.code));
    assert f.Some? && f.value in t.rooms;
  }

  /** A stored room is found by its code typed in lower case. */
  lemma FoundByLowerCode(t: Store, room: Room)
    requires KeysUnique(t.rooms) && RoomsShaped(t.rooms) && room in t.rooms
    ensures ToLower(room.code) != ""
    ensures FindByCode(t.rooms, ToUpper(ToLower(room.code))) == Some(room)
  {
    assert IsRoomCode(room.code);
    UpperOfLower(room.code);
    FoundByCode(t, room);
  }

  /** A caller in no room joins a stored room by its code typed in lower case. */
  lemma JoinByLowerCode(t: Store, v: UserId, room: Room)
    requires KeysUnique(t.rooms) && RoomsShaped(t.rooms)
    requires v < |t.users| && t.users[v].activeRoom.None?
    requires room in t.rooms
    ensures Competition.Join(t, v, Some(ToLower(room.code))).reply
         == Success(Ok, room.(members := WithMember(room.members, v)))
  {
    FoundByLowerCode(t, room);
  }

  /** The room create answers is stored, live at its creation time, and the
      other users' references are untouched. */
  lemma CreatedRoomIsLive(s: Store, uid: UserId, name: Option<string>, draws: seq<Draw>, now: int, v: UserId)
    requires uid < |s.users| && v < |s.users| && v != uid
    requires Create(s, uid, name, draws, now).reply.Success?
    ensures var c := Create(s, uid, name, draws, now);
      && c.reply.value in c.store.rooms && Live(c.reply.value, now)
      && c.reply.value.members == [uid]
      && c.store.users[v].activeRoom == s.users[v].activeRoom
  {
  }

  lemma SecondMember(host: UserId, v: UserId)
    requires v != host
    ensures WithMember([host], v) == [host, v]
  {
  }

  /** A second user joins a room just created by typing its code in lower case:
      the join succeeds and the room now has both users as members. */
  lemma CreateThenJoinLowerCase(s: Store, host: UserId, v: UserId, name: Option<string>, draws: seq<Draw>, now: int)
    requires Wf(s) && host < |s.users| && v < |s.users| && v != host
    requires s.users[v].activeRoom.None?
    requires Create(s, host, name, draws, now).reply.Success?
    ensures var c := Create(s, host, name, draws, now);
      Competition.Join(c.store, v, Some(ToLower(c.reply.value.code))).reply
        == Success(Ok, c.reply.value.(members := [host, v]))
  {
    var c := Create(s, host, name, draws, now);
    CreatedWf(s, host, name, draws, now);
    CreatedRoomIsLive(s, host, name, draws, now, v);
    JoinByLowerCode(c.store, v, c.reply.value);
    SecondMember(host, v);
  }

  // ---------------------------------------------------------------------------
  // The user schema has no room reference
  // ---------------------------------------------------------------------------

  /** The users as the schema lets them be stored: a path the schema does not
      declare is dropped on save, so no room reference survives. */
  function Unreferenced(users: seq<User>): (r: seq<User>)
    ensures OnlyRefsDiffer(users, r)
    ensures forall i :: 0 <= i < |r| ==> r[i].activeRoom.None?
  {
    seq(|users|, i requires 0 <= i < |users| => users[i].(activeRoom := None))
  }

  /** The create route as the schema actually stores its writes: the room is
      saved, but the host's reference to it is not. */
  function CreateAsWritten(s: Store, uid: UserId, name: Option<string>, draws: seq<Draw>, now: int): (r: Step<Room>)
    requires uid < |s.users|
    ensures r.reply == Create(s, uid, name, draws, now).reply
    ensures r.store.rooms == Create(s, uid, name, draws, now).store.rooms
    ensures forall i :: 0 <= i < |r.store.users| ==> r.store.users[i].activeRoom.None?
  {
    var c := Create(s, uid, name, draws, now);
    Step(c.reply, c.store.(users := Unreferenced(c.store.users)))
  }

  /** As written, the host of a room it has just created is not in it: `/current`
      says "not in a room", leaving is refused, and the room stays until it
      expires. */
  lemma CreateAsWrittenLosesHost(s: Store, uid: UserId, name: Option<string>, draws: seq<Draw>, now: int)
    requires uid < |s.users|
    requires CreateAsWritten(s, uid, name, draws, now).reply.Success?
    ensures var c := CreateAsWritten(s, uid, name, draws, now);
      && c.reply.value in c.store.rooms
      && c.reply.value.host == uid
      && Current(c.store, uid, now).reply.value == NotInRoom
      && Leave(c.store, uid).reply == Failure(BadRequest, "Not in a room")
  {
  }

  /** The join route as the schema actually stores its writes: the caller is added
      to the member list, but its reference to the room is not kept. */
  function JoinAsWritten(s: Store, uid: UserId, code: Option<string>): (r: Step<Room>)
    requires uid < |s.users|
    ensures r.reply == Competition.Join(s, uid, code).reply
    ensures r.store.rooms == Competition.Join(s, uid, code).store.rooms
    ensures forall i :: 0 <= i < |r.store.users| ==> r.store.users[i].activeRoom.None?
  {
    var j := Competition.Join(s, uid, code);
    Step(j.reply, j.store.(users := Unreferenced(j.store.users)))
  }

  /** One join as written, by a room's exact code, from a state where the caller
      refers to no room: it succeeds, replaces the room by the one with the caller
      added, keeps ids and codes unique, and the caller still refers to no room. */
  lemma JoinAsWrittenStep(s: Store, uid: UserId, room: Room)
    requires KeysUnique(s.rooms) && RoomsShaped(s.rooms)
    requires uid < |s.users| && s.users[uid].activeRoom.None? && room in s.rooms
    ensures var j := JoinAsWritten(s, uid, Some(room.code));
      var joined := room.(members := WithMember(room.members, uid));
      && j.reply == Success(Ok, joined)
      && j.store.rooms == Replace(s.rooms, joined)
      && KeysUnique(j.store.rooms) && RoomsShaped(j.store.rooms)
      && |j.store.users| == |s.users| && j.store.users[uid].activeRoom.None?
  {
    FoundByCode(s, room);
    var joined := room.(members := WithMember(room.members, uid));
    var j := Competition.Join(s, uid, Some(room.code));
    assert j.reply == Success(Ok, joined) && j.store.rooms == Replace(s.rooms, joined);
    assert |j.store.users| == |s.users|;
    if uid !in room.members {
      NoDupSnoc(room.members, uid);
    }
    assert RoomShape(joined);
    ReplaceKeepsKeys(s.rooms, room, joined);
  }

  /** As written, nothing stops a user from joining a second room: after joining
      two rooms it is a member of both, and it cannot leave either. */
  lemma JoinAsWrittenTwoRooms(s: Store, uid: UserId, a: Room, b: Room)
    requires KeysUnique(s.rooms) && RoomsShaped(s.rooms)
    requires uid < |s.users| && s.users[uid].activeRoom.None?
    requires a in s.rooms && b in s.rooms && a.id != b.id
    ensures var j1 := JoinAsWritten(s, uid, Some(a.code));
      var j2 := JoinAsWritten(j1.store, uid, Some(b.code));
      && j1.reply.Success? && j2.reply.Success?
      && j1.reply.value.id == a.id && j2.reply.value.id == b.id
      && j1.reply.value in j2.store.rooms && j2.reply.value in j2.store.rooms
      && uid in j1.reply.value.members && uid in j2.reply.value.members
      && Leave(j2.store, uid).reply == Failure(BadRequest, "Not in a room")
  {
    var j1 := JoinAsWritten(s, uid, Some(a.code));
    JoinAsWrittenStep(s, uid, a);
    var a' := a.(members := WithMember(a.members, uid));
    assert a' in j1.store.rooms by {
      assert a in s.rooms && a.id == a'.id;
    }
    assert b in j1.store.rooms;
    JoinAsWrittenStep(j1.store, uid, b);
    var b' := b.(members := WithMember(b.members, uid));
    var j2 := JoinAsWritten(j1.store, uid, Some(b.code));
    assert j2.store.rooms == Replace(j1.store.rooms, b');
    assert a' in j2.store.rooms;
    assert b' in j2.store.rooms by {
      assert b in j1.store.rooms && b.id == b'.id;
    }
  }
}

=== FILE: history_page.dfy ===
/**
 The history page: the stored attempts newest first, each with the length of
 the streak in words and the badge it reached, the count of attempts, and the
 button that clears them.
 */
module HistoryPage {
  import opened Common
  import opened Text
  import opened Seqs
  import opened Users
  import opened Streak
  import opened Badges

  // ---------------------------------------------------------------------------
  // The length of an attempt in words
  // ---------------------------------------------------------------------------

  function HourUnit(n: int): string {
    if n != 1 then " hours" else " hour"
  }

  function DayUnit(n: int): string {
    if n != 1 then " days" else " day"
  }

  /** `formatDuration` of the history page: hours under a day, whole days when no
      hours are left over, otherwise days and hours. */
  function FormatDuration(hours: int): (r: string)
    ensures r != []
    ensures hours < 24 ==> EndsIn(r, HourUnit(hours))
    ensures hours >= 24 && hours % 24 == 0 ==> EndsIn(r, DayUnit(hours / 24))
    ensures hours >= 24 && hours % 24 != 0 ==> EndsIn(r, "h")
  {
    if hours < 24 then Ending(IntToString(hours), HourUnit(hours))
    else
      var days, rem := hours / 24, hours % 24;
      if rem == 0 then Ending(NatToString(days), DayUnit(days))
      else Ending(NatToString(days) + "d " + NatToString(rem), "h")
  }

  predicate EndsIn(s: string, suffix: string) {
    |suffix| <= |s| && s[|s| - |suffix|..] == suffix
  }

  /** `a + b`, which ends in `b`. */
  function Ending(a: string, b: string): (r: string)
    ensures r == a + b && EndsIn(r, b)
  {
    var r := a + b;
    assert r[|r| - |b|..] == b;
    r
  }

  /** Reads the words back into hours, accepting each form only where the page
      would print it and only with the unit's number agreeing with the count. */
  function ParseDuration(s: string): Option<int> {
    if |s| > 0 && s[0] == '-' then ParseNegative(s[1..])
    else if DigitPrefixLength(s) == 0 then None
    else ParseCount(ReadNat(s).0, ReadNat(s).1)
  }

  /** The digits after a minus sign: a negative number of hours. */
  function ParseNegative(s: string): Option<int> {
    if DigitPrefixLength(s) > 0 && ReadNat(s).1 == " hours" && ReadNat(s).0 > 0
    then var n: int := ReadNat(s).0; Some(-n) else None
  }

  /** A leading count `n` and the text after it. */
  function ParseCount(n: nat, rest: string): Option<int> {
    if n < 24 && rest == HourUnit(n) then Some(n)
    else if n >= 1 && rest == DayUnit(n) then Some(n * 24)
    else if n >= 1 && |rest| >= 2 && rest[..2] == "d " then ParseHours(n, rest[2..])
    else None
  }

  /** The hours after `<n>d `: fewer than a day, and at least one. */
  function ParseHours(days: nat, s: string): Option<int> {
    if DigitPrefixLength(s) > 0 && ReadNat(s).1 == "h" && 0 < ReadNat(s).0 < 24
    then Some(days * 24 + ReadNat(s).0) else None
  }

  /** The words determine the length of the attempt. */
  lemma DurationReadsBack(hours: int)
    ensures ParseDuration(FormatDuration(hours)) == Some(hours)
  {
    if hours < 0 {
      NegativeReadsBack(hours);
    } else if hours < 24 {
      HoursReadBack(hours);
    } else if hours % 24 == 0 {
      WholeDaysReadBack(hours);
    } else {
      DaysAndHoursReadBack(hours);
    }
  }

  lemma NegativeReadsBack(hours: int)
    requires hours < 0
    ensures ParseDuration(FormatDuration(hours)) == Some(hours)
  {
    var t := NatToString(-hours) + " hours";
    calc {
      ParseDuration(FormatDuration(hours));
      == { NegativeText(hours); }
      ParseDuration("-" + t);
      == { MinusParses(t); }
      ParseNegative(t);
      == { NegativeDigits(hours); }
      Some(hours);
    }
  }

  lemma NegativeText(hours: int)
    requires hours < 0
    ensures FormatDuration(hours) == "-" + (NatToString(-hours) + " hours")
  {
    var digits := NatToString(-hours);
    assert FormatDuration(hours) == "-" + digits + " hours";
    assert "-" + digits + " hours" == "-" + (digits + " hours");
  }

  lemma NegativeDigits(hours: int)
    requires hours < 0
    ensures ParseNegative(NatToString(-hours) + " hours") == Some(hours)
  {
    ReadNatToString(-hours, " hours");
  }

  lemma MinusParses(t: string)
    ensures ParseDuration("-" + t) == ParseNegative(t)
  {
    assert ("-" + t)[0] == '-' && ("-" + t)[1..] == t;
  }

  /** Text that starts with a number is read as a count and what follows it. */
  lemma CountParses(n: nat, rest: string)
    requires rest == [] || !IsDigit(rest[0])
    ensures ParseDuration(NatToString(n) + rest) == ParseCount(n, rest)
  {
    ReadNatToString(n, rest);
    assert (NatToString(n) + rest)[0] == NatToString(n)[0];
  }

  lemma HoursReadBack(hours: int)
    requires 0 <= hours < 24
    ensures ParseDuration(FormatDuration(hours)) == Some(hours)
  {
    assert FormatDuration(hours) == NatToString(hours) + HourUnit(hours);
    CountParses(hours, HourUnit(hours));
  }

  lemma WholeDaysReadBack(hours: int)
    requires hours >= 24 && hours % 24 == 0
    ensures ParseDuration(FormatDuration(hours)) == Some(hours)
  {
    var d := hours / 24;
    calc {
      ParseDuration(FormatDuration(hours));
      == { assert FormatDuration(hours) == NatToString(d) + DayUnit(d); }
      ParseDuration(NatToString(d) + DayUnit(d));
      == { CountParses(d, DayUnit(d)); }
      ParseCount(d, DayUnit(d));
      == { assert DayUnit(d) != HourUnit(d); }
      Some(hours);
    }
  }

  lemma DaysAndHoursReadBack(hours: int)
    requires hours >= 24 && hours % 24 != 0
    ensures ParseDuration(FormatDuration(hours)) == Some(hours)
  {
    var d, m := hours / 24, hours % 24;
    var rest := "d " + (NatToString(m) + "h");
    calc {
      ParseDuration(FormatDuration(hours));
      == { DaysAndHoursText(hours); }
      ParseDuration(NatToString(d) + rest);
      == { assert rest[0] == 'd'; CountParses(d, rest); }
      ParseCount(d, rest);
      == { assert rest[..2] == "d " && rest[2..] == NatToString(m) + "h"; DaysFormIsNoUnit(d, rest); }
      ParseHours(d, NatToString(m) + "h");
      == { HoursAfterDays(hours); }
      Some(hours);
    }
  }

  lemma DaysAndHoursText(hours: int)
    requires hours >= 24 && hours % 24 != 0
    ensures FormatDuration(hours) == NatToString(hours / 24) + ("d " + (NatToString(hours % 24) + "h"))
  {
    var d, m := hours / 24, hours % 24;
    assert FormatDuration(hours) == NatToString(d) + "d " + NatToString(m) + "h";
    Regroup(NatToString(d), "d ", NatToString(m), "h");
  }

  /** Text that starts with `d ` is neither unit, so it is read as days and hours. */
  lemma DaysFormIsNoUnit(n: nat, rest: string)
    requires n >= 1 && |rest| >= 2 && rest[..2] == "d "
    ensures ParseCount(n, rest) == ParseHours(n, rest[2..])
  {
    assert rest[0] == 'd';
    assert HourUnit(n)[0] == ' ' && DayUnit(n)[0] == ' ';
  }

  lemma HoursAfterDays(hours: int)
    requires hours >= 24 && hours % 24 != 0
    ensures ParseHours(hours / 24, NatToString(hours % 24) + "h") == Some(hours)
  {
    ReadNatToString(hours % 24, "h");
  }

  /** The three texts of the history card: hours with `hour`/`hours` under a day,
      whole days with `day`/`days`, otherwise `<d>d <r>h`. */
  lemma DurationTexts(hours: int)
    ensures 0 <= hours < 24 ==>
      FormatDuration(hours) == NatToString(hours) + (if hours == 1 then " hour" else " hours")
    ensures hours < 0 ==> FormatDuration(hours) == "-" + NatToString(-hours) + " hours"
    ensures hours >= 24 && hours % 24 == 0 ==>
      FormatDuration(hours) == NatToString(hours / 24) + (if hours == 24 then " day" else " days")
    ensures hours >= 24 && hours % 24 != 0 ==>
      FormatDuration(hours) == NatToString(hours / 24) + "d " + NatToString(hours % 24) + "h"
  {
  }

  /** The singular appears for exactly one hour and exactly one day. */
  lemma SingularOnlyForOne(hours: int)
    ensures FormatDuration(hours) == "1 hour" <==> hours == 1
    ensures FormatDuration(hours) == "1 day" <==> hours == 24
  {
    DurationReadsBack(hours);
    OneHourReads();
    OneDayReads();
  }

  lemma OneHourReads()
    ensures ParseDuration("1 hour") == Some(1)
  {
    ReadNatToString(1, " hour");
    assert NatToString(1) + " hour" == "1 hour";
  }

  lemma OneDayReads()
    ensures ParseDuration("1 day") == Some(24)
  {
    ReadNatToString(1, " day");
    assert NatToString(1) + " day" == "1 day";
  }

  // ---------------------------------------------------------------------------
  // The list of attempts
  // ---------------------------------------------------------------------------

  function EndDate(e: HistoryEntry): int {
    e.endDate
  }

  /** `sortedHistory`: a sorted copy of the stored history, latest end first. */
  function SortedHistory(stored: seq<HistoryEntry>): (r: seq<HistoryEntry>)
    ensures multiset(r) == multiset(stored) && |r| == |stored|
    ensures SortedDesc(r, EndDate)
  {
    var r := SortDesc(stored, EndDate);
    assert |multiset(r)| == |multiset(stored)|;
    r
  }

  /** The page lists every stored attempt exactly once, latest end first, and
      attempts that ended at the same moment in the order they were stored. */
  lemma SortedHistoryIsArrangement(stored: seq<HistoryEntry>)
    ensures multiset(SortedHistory(stored)) == multiset(stored)
    ensures SortedDesc(SortedHistory(stored), EndDate)
    ensures forall t :: WithKey(SortedHistory(stored), EndDate, t) == WithKey(stored, EndDate, t)
  {
    forall t ensures WithKey(SortedHistory(stored), EndDate, t) == WithKey(stored, EndDate, t) {
      SortDescStable(stored, EndDate, t);
    }
  }

  /** After a reset the attempt just recorded heads the list, as long as every
      earlier attempt ended before it. */
  lemma ResetShowsFirst(u: User, now: int)
    requires u.currentStreakStart.Some?
    requires forall i :: 0 <= i < |u.streakHistory| ==> u.streakHistory[i].endDate < now
    ensures var r := Reset(u, now);
      SortedHistory(r.1.streakHistory) != [] && SortedHistory(r.1.streakHistory)[0] == r.0.value.lastStreak
  {
    var r := Reset(u, now);
    var h := r.1.streakHistory;
    var n := |u.streakHistory|;
    var x := h[n];
    var sorted := SortedHistory(h);
    assert x in multiset(h);
    assert x in multiset(sorted);
    var j :| 0 <= j < |sorted| && sorted[j] == x;
    assert sorted[0] in multiset(h);
    var i :| 0 <= i < |h| && h[i] == sorted[0];
  }

  /** What the page shows: the cards, whether the clear button is there, and the
      attempt count under the list when there is one. */
  datatype HistoryView = HistoryView(cards: seq<HistoryEntry>, clearButton: bool, totalAttempts: Option<nat>)

  /** The history the page works with: the signed-in user's, or none. */
  function StoredHistory(user: Option<PublicUser>): seq<HistoryEntry> {
    if user.Some? then user.value.streakHistory else []
  }

  /** The history page: the stored attempts as sorted cards, the clear button
      exactly when there are any, and then their number. */
  function Page(user: Option<PublicUser>): (v: HistoryView)
    ensures multiset(v.cards) == multiset(StoredHistory(user)) && SortedDesc(v.cards, EndDate)
    ensures v.clearButton <==> StoredHistory(user) != []
    ensures v.clearButton ==> v.totalAttempts == Some(|StoredHistory(user)|)
    ensures !v.clearButton ==> v.totalAttempts.None? && v.cards == []
  {
    var sorted := SortedHistory(StoredHistory(user));
    HistoryView(sorted, |sorted| > 0, if |sorted| > 0 then Some(|sorted|) else None)
  }

  /** The button and the count appear exactly when there is something stored, and
      the count is the number of stored attempts. */
  lemma PageCounts(user: Option<PublicUser>)
    ensures Page(user).clearButton <==> user.Some? && user.value.streakHistory != []
    ensures Page(user).clearButton ==> Page(user).totalAttempts == Some(|user.value.streakHistory|)
    ensures !Page(user).clearButton ==> Page(user).totalAttempts.None? && Page(user).cards == []
    ensures multiset(Page(user).cards) == multiset(StoredHistory(user))
  {
  }

  /** After clearing, the page shows no cards, no button and no count. */
  lemma ClearedPageIsEmpty(u: User)
    ensures Page(Some(View(ClearHistory(u).1))) == HistoryView([], false, None)
  {
  }

  // ---------------------------------------------------------------------------
  // The badge on a card
  // ---------------------------------------------------------------------------

  datatype BadgeView = Trophy | Picture(src: string, alt: string)

  /** `HistoryBadge`: the earned badge's picture with the loader's current
      extension, or the trophy once the loader has given up. The handler is the
      same as the one of the streak badge. */
  function HistoryBadge(hours: int, l: Loader): (v: BadgeView)
    requires l.extension < |Extensions|
    ensures v == Trophy <==> l.fallback
    ensures v.Picture? ==> v.alt == BadgeInfo(hours).name
    ensures v.Picture? ==> v.src == "/badges/" + Image(BadgeInfo(hours)) + "." + Extensions[l.extension]
  {
    if l.fallback then Trophy
    else Picture(Source(Image(BadgeInfo(hours)), l), BadgeInfo(hours).name)
  }

  /** A card tries the five extensions of its badge in order and shows the trophy
      from the fifth failure on. */
  lemma HistoryBadgeAfterErrors(hours: int, n: nat)
    ensures n < |Extensions| ==>
      HistoryBadge(hours, AfterErrors(n))
        == Picture("/badges/" + Image(BadgeInfo(hours)) + "." + Extensions[n], BadgeInfo(hours).name)
    ensures n >= |Extensions| ==> HistoryBadge(hours, AfterErrors(n)) == Trophy
  {
    AfterErrorsClosedForm(n);
  }
}

=== FILE: home_page.dfy ===
/**
 The home page clock: the time since the streak started split into days, hours,
 minutes and seconds, the total hours that choose the badge, and the two-digit
 fields the clock is printed with.
 */
module HomePage {
  import opened Common
  import opened Text
  import opened Users
  import opened Streak

  datatype Elapsed = Elapsed(days: int, hours: int, minutes: int, seconds: int)

  const Zero: Elapsed := Elapsed(0, 0, 0, 0)

  /** `calculateElapsed` together with the total hours it sets: zero without a
      streak and for a start in the future, otherwise whole seconds, minutes and
      hours since the start, each taken from the one before. */
  function CalculateElapsed(start: Option<int>, now: int): (r: (Elapsed, int))
    ensures start.None? || now - start.value < 0 ==> r == (Zero, 0)
    ensures start.Some? && now - start.value >= 0 ==>
      && 0 <= r.0.hours < 24 && 0 <= r.0.minutes < 60 && 0 <= r.0.seconds < 60 && r.0.days >= 0
      && r.1 == r.0.days * 24 + r.0.hours
  {
    match start
    case None => (Zero, 0)
    case Some(t) =>
      var diff := now - t;
      if diff < 0 then (Zero, 0)
      else
        var totalSeconds := diff / 1000;
        var totalMins := totalSeconds / 60;
        var totalHrs := totalMins / 60;
        var days := totalHrs / 24;
        (Elapsed(days, totalHrs % 24, totalMins % 60, totalSeconds % 60), totalHrs)
  }

  /** The clock fields add up to the whole seconds elapsed. */
  lemma ClockAddsUp(start: int, now: int)
    requires now - start >= 0
    ensures var e := CalculateElapsed(Some(start), now).0;
      e.days * 86400 + e.hours * 3600 + e.minutes * 60 + e.seconds == (now - start) / 1000
  {
    var diff := now - start;
    var s := diff / 1000;
    var m := s / 60;
    var h := m / 60;
    assert s == m * 60 + s % 60;
    assert m == h * 60 + m % 60;
    assert h == (h / 24) * 24 + h % 24;
  }

  /** Nested floor divisions by 1000, 60 and 60 are one floor division by an hour. */
  lemma NestedHours(diff: int)
    requires diff >= 0
    ensures diff / 1000 / 60 / 60 == diff / MsPerHour
  {
    var h := diff / 1000 / 60 / 60;
    var s := diff / 1000;
    var m := s / 60;
    assert s * 1000 <= diff < s * 1000 + 1000;
    assert m * 60 <= s < m * 60 + 60;
    assert h * 60 <= m < h * 60 + 60;
    assert h * MsPerHour <= diff < (h + 1) * MsPerHour;
    HoursBetweenUnique(0, diff, h);
  }

  /** The hours the page shows agree with the hours the server records for the
      same start and moment, as long as the clock has not gone backwards. */
  lemma PageHoursMatchServer(start: Option<int>, now: int)
    requires start.None? || now >= start.value
    ensures CalculateElapsed(start, now).1 == ElapsedHours(start, now)
  {
    if start.Some? {
      NestedHours(now - start.value);
    }
  }

  /** `hasActiveStreak`. */
  predicate HasActiveStreak(start: Option<int>) {
    start.Some?
  }

  /** The page offers the button the server accepts: "Start Journey" exactly when
      a start would succeed, "I Relapsed" exactly when a reset would. */
  lemma ButtonMatchesServer(u: User, now: int)
    ensures !HasActiveStreak(u.currentStreakStart) <==> Start(u, now).0.Success?
    ensures HasActiveStreak(u.currentStreakStart) <==> Reset(u, now).0.Success?
  {
  }

  /** Without an active streak the clock shows zero. */
  lemma InactiveShowsZero(start: Option<int>, now: int)
    requires !HasActiveStreak(start)
    ensures CalculateElapsed(start, now) == (Zero, 0)
  {
  }

  /** `String(n).padStart(2, "0")`. */
  function FormatNumber(n: nat): (r: string)
    ensures |r| >= 2 && AllDigits(r)
    ensures n < 100 ==> |r| == 2
  {
    var s := NatToString(n);
    assert 10 <= n < 100 ==> |NatToString(n / 10)| == 1;
    if |s| < 2 then "0" + s else s
  }

  /** A clock field reads back as the number it shows, whatever follows it. */
  lemma FormatNumberReadsBack(n: nat, rest: string)
    requires rest == [] || !IsDigit(rest[0])
    ensures DigitPrefixLength(FormatNumber(n) + rest) == |FormatNumber(n)|
    ensures ReadNat(FormatNumber(n) + rest) == (n, rest)
  {
    var s := NatToString(n);
    if |s| < 2 {
      LeadingZero(s);
      DigitPrefixOf("0" + s, rest);
      var f := "0" + s + rest;
      assert f[..|s| + 1] == "0" + s;
      assert f[|s| + 1..] == rest;
    } else {
      ReadNatToString(n, rest);
    }
  }

  /** The printed clock, `DD:HH:MM:SS`. */
  function Clock(e: Elapsed): (r: string)
    requires e.days >= 0 && e.hours >= 0 && e.minutes >= 0 && e.seconds >= 0
    ensures |r| >= 11
    ensures e.days < 100 && e.hours < 100 && e.minutes < 100 && e.seconds < 100 ==>
      |r| == 11 && r[2] == ':' && r[5] == ':' && r[8] == ':' && AllDigits(r[..2])
  {
    FormatNumber(e.days) + ":" + FormatNumber(e.hours) + ":" + FormatNumber(e.minutes) + ":" + FormatNumber(e.seconds)
  }

  /** Below 100 days the clock has the fixed width of eleven characters. */
  lemma ClockWidth(start: int, now: int)
    requires now - start >= 0
    requires CalculateElapsed(Some(start), now).0.days < 100
    ensures |Clock(CalculateElapsed(Some(start), now).0)| == 11
  {
  }
}

=== FILE: journal.dfy ===
/**
 The journal of one user: appending a check-in entry (which also records the
 check-in time) and listing the entries.
 */
module Journal {
  import opened Common
  import opened Users
  import opened Store

  /** POST /journal. A missing or empty mood is refused before anything is read.
      A mood outside the enumeration fails schema validation on save, so nothing is
      stored. Otherwise exactly one entry is appended at the end (an absent quote
      stored as the empty string), and the reply is the appended entry. The clock is
      read twice: `dated` for the entry, then `checkedIn` for the check-in time. */
  function AddEntry(u: User, mood: Option<string>, quote: Option<string>, dated: int, checkedIn: int)
    : (r: (Reply<JournalEntry>, User))
    ensures !Given(mood) ==> r.0 == Failure(BadRequest, "Mood is required") && r.1 == u
    ensures Given(mood) && ParseMood(mood.value).None? ==>
      r.0 == Failure(ServerError, "Server error") && r.1 == u
    ensures r.0.Success? <==> Given(mood) && ParseMood(mood.value).Some?
    ensures r.0.Success? ==>
      var n := |u.journals|;
      && |r.1.journals| == n + 1
      && r.1.journals[..n] == u.journals
      && r.0.value == r.1.journals[n]
      && r.0.value.date == dated
      && MoodName(r.0.value.mood) == mood.value
      && r.0.value.quote == (if Given(quote) then quote.value else "")
      && r.1 == u.(journals := r.1.journals, lastCheckIn := Some(checkedIn))
  {
    if !Given(mood) then
      (Failure(BadRequest, "Mood is required"), u)
    else
      match ParseMood(mood.value)
      case None => (Failure(ServerError, "Server error"), u)
      case Some(m) =>
        var entry := JournalEntry(dated, m, if Given(quote) then quote.value else "");
        var journals := u.journals + [entry];
        assert journals[..|u.journals|] == u.journals;
        (Success(Ok, entry), u.(journals := journals, lastCheckIn := Some(checkedIn)))
  }

  /** GET /journal: the stored entries, oldest first. */
  function Entries(u: User): seq<JournalEntry> {
    u.journals
  }

  /** Listing after a successful append shows the earlier list followed by the
      entry the append answered; after a refused append the list is unchanged. */
  lemma AddThenList(u: User, mood: Option<string>, quote: Option<string>, dated: int, checkedIn: int)
    ensures var (reply, u') := AddEntry(u, mood, quote, dated, checkedIn);
      Entries(u') == if reply.Success? then Entries(u) + [reply.value] else Entries(u)
  {
    var (reply, u') := AddEntry(u, mood, quote, dated, checkedIn);
    if reply.Success? {
      assert u'.journals == u'.journals[..|u.journals|] + [u'.journals[|u.journals|]];
    }
  }

  /** Every stored mood is one of the three names of the enumeration, whatever
      the requests carried. */
  lemma StoredMoodsAreNamed(u: User, mood: Option<string>, quote: Option<string>, dated: int, checkedIn: int)
    ensures var u' := AddEntry(u, mood, quote, dated, checkedIn).1;
      forall i :: 0 <= i < |u'.journals| ==>
        MoodName(u'.journals[i].mood) in {"strong", "okay", "struggling"}
  {
    var u' := AddEntry(u, mood, quote, dated, checkedIn).1;
    forall i | 0 <= i < |u'.journals|
      ensures MoodName(u'.journals[i].mood) in {"strong", "okay", "struggling"}
    {
      match u'.journals[i].mood
      case Strong =>
      case Okay =>
      case Struggling =>
    }
  }

  /** Appending to the journal keeps the store invariant. */
  lemma AddKeepsStoreWf(s: Store, uid: UserId, mood: Option<string>, quote: Option<string>, dated: int, checkedIn: int)
    requires Wf(s) && uid < |s.users|
    ensures Wf(s.(users := s.users[uid := AddEntry(s.users[uid], mood, quote, dated, checkedIn).1]))
  {
    UserWriteWf(s, AddEntry(s.users[uid], mood, quote, dated, checkedIn).1);
  }
}

=== FILE: leaderboard.dfy ===
/**
 The leaderboard of a competition room: one entry per member with the whole hours
 of the member's active streak, sorted by those hours, most first, ties kept in
 member order.
 */
module Leaderboard {
  import opened Common
  import opened Seqs
  import opened Users
  import opened Rooms

  datatype LeaderEntry = LeaderEntry(
    id: UserId,
    username: string,
    durationHours: int,
    isHost: bool,
    isMe: bool)

  /** The sort key. */
  function Hours(e: LeaderEntry): int {
    e.durationHours
  }

  function EntryId(e: LeaderEntry): UserId {
    e.id
  }

  /** What the entry of member `m` says: its name, the hours of its streak at
      `now` (zero without one), and whether it is the host and the caller. */
  predicate Describes(e: LeaderEntry, users: seq<User>, host: UserId, caller: UserId, now: int) {
    && e.id < |users|
    && e.username == users[e.id].username
    && e.durationHours == ElapsedHours(users[e.id].currentStreakStart, now)
    && (e.isHost <==> e.id == host)
    && (e.isMe <==> e.id == caller)
  }

  /** `room.members.map(...)` after `populate`: members whose user document exists,
      in member order, each described at time `now`. */
  function Standings(users: seq<User>, members: seq<UserId>, host: UserId, caller: UserId, now: int)
    : (r: seq<LeaderEntry>)
    ensures |r| <= |members|
    ensures forall e :: e in r ==> e.id in members && Describes(e, users, host, caller, now)
    ensures (forall i :: 0 <= i < |members| ==> members[i] < |users|) ==> Map(r, EntryId) == members
  {
    if members == [] then []
    else
      var m := members[0];
      var rest := Standings(users, members[1..], host, caller, now);
      if m < |users| then
        var u := users[m];
        var e := LeaderEntry(m, u.username, ElapsedHours(u.currentStreakStart, now), m == host, m == caller);
        assert members == [m] + members[1..];
        MapAppend([e], rest, EntryId);
        [e] + rest
      else
        rest
  }

  /** The `/current` leaderboard. */
  function Board(users: seq<User>, room: Room, caller: UserId, now: int): (r: seq<LeaderEntry>)
    ensures SortedDesc(r, Hours)
    ensures multiset(r) == multiset(Standings(users, room.members, room.host, caller, now))
    ensures forall e :: e in r ==> e.id in room.members && Describes(e, users, room.host, caller, now)
  {
    var s := Standings(users, room.members, room.host, caller, now);
    var r := SortDesc(s, Hours);
    assert forall e :: e in r ==> e in multiset(r);
    r
  }

  /** When every member exists, the leaderboard lists every member exactly as often
      as the member list does: it is a rearrangement of the members. */
  lemma BoardIsPermutationOfMembers(users: seq<User>, room: Room, caller: UserId, now: int)
    requires forall i :: 0 <= i < |room.members| ==> room.members[i] < |users|
    ensures multiset(Map(Board(users, room, caller, now), EntryId)) == multiset(room.members)
  {
    var s := Standings(users, room.members, room.host, caller, now);
    MapMultiset(Board(users, room, caller, now), s, EntryId);
  }

  /** Ties keep member order: for every hour count, the entries with that count
      appear in the leaderboard in the order their members appear in the room. */
  lemma BoardIsStable(users: seq<User>, room: Room, caller: UserId, now: int, h: int)
    ensures WithKey(Board(users, room, caller, now), Hours, h)
         == WithKey(Standings(users, room.members, room.host, caller, now), Hours, h)
  {
    SortDescStable(Standings(users, room.members, room.host, caller, now), Hours, h);
  }

  lemma {:induction false} InsertBelow(x: LeaderEntry, h: LeaderEntry, t: seq<LeaderEntry>)
    requires SortedDesc(t, Hours) && SortedDesc([h] + t, Hours) && Hours(h) >= Hours(x)
    ensures Insert(x, [h] + t, Hours) == [h] + Insert(x, t, Hours)
  {
    assert ([h] + t)[1..] == t;
  }

  lemma {:induction false} InsertAbove(x: LeaderEntry, s: seq<LeaderEntry>)
    requires SortedDesc(s, Hours) && s != [] && Hours(s[0]) < Hours(x)
    ensures Insert(x, s, Hours) == [x] + s
  {
  }

  lemma {:induction false} SortSnoc(s: seq<LeaderEntry>, x: LeaderEntry)
    ensures SortDesc(s + [x], Hours) == Insert(x, SortDesc(s, Hours), Hours)
  {
    assert (s + [x])[..|s|] == s;
  }

  lemma {:induction false} SortTwo(a: LeaderEntry, b: LeaderEntry)
    requires Hours(a) < Hours(b)
    ensures SortDesc([a, b], Hours) == [b, a]
  {
    SortSnoc([], a);
    SortSnoc([a], b);
    assert [a] + [b] == [a, b];
    InsertAbove(b, [a]);
  }

  lemma ConsThree<T>(x: T, y: T, z: T)
    ensures [x] + [y, z] == [x, y, z]
  {
  }

  lemma ConsFour<T>(x: T, y: T, z: T, w: T)
    ensures [x] + [y, z, w] == [x, y, z, w]
  {
  }

  lemma SnocFour<T>(x: T, y: T, z: T, w: T)
    ensures [x, y, z] + [w] == [x, y, z, w]
  {
  }

  lemma {:induction false} InsertLast(c: LeaderEntry, b: LeaderEntry, a: LeaderEntry)
    requires Hours(c) <= Hours(a) <= Hours(b)
    ensures SortedDesc([b, a], Hours)
    ensures Insert(c, [b, a], Hours) == [b, a, c]
  {
    assert Insert(c, [a], Hours) == [a, c] by {
      assert [a] == [a] + [];
      InsertBelow(c, a, []);
      assert Insert(c, [], Hours) == [c];
    }
    assert Insert(c, [b, a], Hours) == [b] + Insert(c, [a], Hours) by {
      assert [b, a] == [b] + [a];
      InsertBelow(c, b, [a]);
    }
    ConsThree(b, a, c);
  }

  lemma {:induction false} SortThree(a: LeaderEntry, b: LeaderEntry, c: LeaderEntry)
    requires Hours(c) <= Hours(a) < Hours(b)
    ensures SortDesc([a, b, c], Hours) == [b, a, c]
  {
    SortTwo(a, b);
    SortSnoc([a, b], c);
    assert [a, b] + [c] == [a, b, c];
    InsertLast(c, b, a);
  }

  lemma {:induction false} InsertSecond(d: LeaderEntry, b: LeaderEntry, a: LeaderEntry, c: LeaderEntry)
    requires Hours(c) <= Hours(a) < Hours(d) <= Hours(b)
    ensures SortedDesc([b, a, c], Hours)
    ensures Insert(d, [b, a, c], Hours) == [b, d, a, c]
  {
    assert Insert(d, [a, c], Hours) == [d, a, c] by {
      InsertAbove(d, [a, c]);
    }
    assert Insert(d, [b, a, c], Hours) == [b] + Insert(d, [a, c], Hours) by {
      assert [b, a, c] == [b] + [a, c];
      InsertBelow(d, b, [a, c]);
    }
    ConsFour(b, d, a, c);
  }

  /** Members with elapsed hours 5, 20, 0, 20 are ranked: the first 20-hour member,
      the second 20-hour member, the 5-hour member, the 0-hour member. */
  lemma {:induction false} BoardExample(a: LeaderEntry, b: LeaderEntry, c: LeaderEntry, d: LeaderEntry)
    requires a.durationHours == 5 && b.durationHours == 20
    requires c.durationHours == 0 && d.durationHours == 20
    ensures SortDesc([a, b, c, d], Hours) == [b, d, a, c]
  {
    SortThree(a, b, c);
    SnocFour(a, b, c, d);
    SortSnoc([a, b, c], d);
    InsertSecond(d, b, a, c);
  }
}

=== FILE: middleware.dfy ===
/**
 The `protect` middleware in front of every private route: it takes the token
 from the cookie or, failing that, from a bearer Authorization header, verifies
 it and loads the user it names. Token verification is a parameter: it answers
 the user id a token was signed for, or nothing when the token is invalid or
 expired (where `jwt.verify` throws).
 */
module Middleware {
  import opened Common
  import opened Text
  import opened Users

  /** What the middleware decides: pass the request on for a user, or refuse. */
  datatype Gate = Next(uid: UserId) | Refused(reply: Reply<UserId>)

  const BearerScheme: string := "Bearer"

  /** The token the middleware works with: the cookie if it is non-empty, else
      the second space-separated field of an Authorization header starting with
      "Bearer", else whatever the cookie held. */
  function SelectToken(cookie: Option<string>, authorization: Option<string>): (t: Option<string>)
    ensures Given(cookie) ==> t == cookie
    ensures !Given(cookie) && (authorization.None? || !StartsWith(authorization.value, BearerScheme)) ==> t == cookie
    ensures !Given(cookie) && authorization.Some? && StartsWith(authorization.value, BearerScheme) ==>
      var fields := Split(authorization.value, ' ');
      t == if |fields| > 1 then Some(fields[1]) else None
  {
    if !Given(cookie) && authorization.Some? && StartsWith(authorization.value, BearerScheme) then
      var fields := Split(authorization.value, ' ');
      if |fields| > 1 then Some(fields[1]) else None
    else cookie
  }

  /** `protect`: refuses without a token, with a token that does not verify, and
      with one naming a user that does not exist; otherwise lets the request
      through for that user. */
  function Protect(users: seq<User>, cookie: Option<string>, authorization: Option<string>,
                   verify: string -> Option<UserId>): (g: Gate)
    ensures g.Next? <==>
      var t := SelectToken(cookie, authorization);
      Given(t) && verify(t.value).Some? && verify(t.value).value < |users|
    ensures g.Next? ==> g.uid < |users| && verify(SelectToken(cookie, authorization).value) == Some(g.uid)
    ensures g.Refused? ==> g.reply.Failure? && g.reply.status == Unauthorized
    ensures !Given(SelectToken(cookie, authorization)) ==>
      g == Refused(Failure(Unauthorized, "Not authorized, no token"))
  {
    var t := SelectToken(cookie, authorization);
    if !Given(t) then Refused(Failure(Unauthorized, "Not authorized, no token"))
    else
      match verify(t.value)
      case None => Refused(Failure(Unauthorized, "Not authorized, token failed"))
      case Some(id) =>
        if id < |users| then Next(id)
        else Refused(Failure(Unauthorized, "Not authorized, user not found"))
  }

  /** The header a client sends with a token: the scheme, one space, the token. */
  function BearerHeader(token: string): (r: string)
    ensures |r| == |BearerScheme| + 1 + |token|
    ensures r[..|BearerScheme|] == BearerScheme && r[|BearerScheme|] == ' '
    ensures r[|BearerScheme| + 1..] == token
  {
    BearerScheme + " " + token
  }

  /** A token without spaces sent as a bearer header is the token the middleware
      works with. */
  lemma BearerHeaderToken(token: string)
    requires ' ' !in token
    ensures SelectToken(None, Some(BearerHeader(token))) == Some(token)
  {
    var h := BearerHeader(token);
    assert Join([BearerScheme, token], ' ') == h by {
      assert Join([BearerScheme, token][1..], ' ') == token;
    }
    SplitJoin([BearerScheme, token], ' ');
    assert h[..|BearerScheme|] == BearerScheme;
  }

  /** A token issued for an existing user opens the gate for exactly that user,
      whether it arrives as the cookie or as a bearer header. */
  lemma IssuedTokenPasses(users: seq<User>, uid: UserId, sign: UserId -> string,
                          verify: string -> Option<UserId>, header: Option<string>)
    requires uid < |users| && verify(sign(uid)) == Some(uid) && sign(uid) != ""
    ensures Protect(users, Some(sign(uid)), header, verify) == Next(uid)
    ensures ' ' !in sign(uid) ==> Protect(users, None, Some(BearerHeader(sign(uid))), verify) == Next(uid)
  {
    if ' ' !in sign(uid) {
      BearerHeaderToken(sign(uid));
    }
  }

  /** An empty cookie counts as no cookie: the middleware decides as if there
      were none. */
  lemma EmptyCookieIsNoCookie(users: seq<User>, authorization: Option<string>, verify: string -> Option<UserId>)
    ensures Protect(users, Some(""), authorization, verify) == Protect(users, None, authorization, verify)
  {
  }
}

=== FILE: register_page.dfy ===
/**
 The sign-up form: the checks the page makes, in order, before it sends the
 username and the password to the register route.
 */
module RegisterPage {
  import opened Common
  import opened Text
  import opened Users
  import opened Store
  import opened Auth

  const FillAllFields: string := "Please fill in all fields"
  const UsernameTooShort: string := "Username must be at least 3 characters"
  const PasswordTooShort: string := "Password must be at least 6 characters"
  const PasswordsDiffer: string := "Passwords do not match"

  /** The outcome of submitting the form: an error shown on the page, or the
      register request with the two fields as typed. */
  datatype Outcome = Refused(error: string) | Send(username: string, password: string)

  /** `!x.trim()` for one of the three fields. */
  predicate Blank(field: string) {
    Trim(field) == []
  }

  /** One check of the form: whether it fails, and the message it then shows. */
  datatype Check = Check(fails: bool, message: string)

  /** The reference reading of the form: the first failing check decides, and
      the request is sent only when none fails. */
  function FirstFailure(checks: seq<Check>, username: string, password: string): (r: Outcome)
    ensures r.Send? <==> forall i :: 0 <= i < |checks| ==> !checks[i].fails
    ensures r.Refused? ==> exists i :: 0 <= i < |checks| && checks[i].fails && r.error == checks[i].message
  {
    if checks == [] then Send(username, password)
    else if checks[0].fails then Refused(checks[0].message)
    else
      var r := FirstFailure(checks[1..], username, password);
      assert forall i :: 1 <= i < |checks| ==> checks[i] == checks[1..][i - 1];
      r
  }

  /** The checks of `handleSubmit`, in the order it makes them. The username
      check is on the length of the field as typed, blanks included. */
  function Checks(username: string, password: string, confirm: string): seq<Check> {
    [ Check(Blank(username) || Blank(password) || Blank(confirm), FillAllFields),
      Check(Utf16Length(username) < UsernameMinLength, UsernameTooShort),
      Check(Utf16Length(password) < PasswordMinLength, PasswordTooShort),
      Check(password != confirm, PasswordsDiffer) ]
  }

  /** `handleSubmit` as written. */
  function HandleSubmit(username: string, password: string, confirm: string): (r: Outcome)
    ensures r.Send? <==>
      && !AllSpace(username) && !AllSpace(password) && !AllSpace(confirm)
      && Utf16Length(username) >= UsernameMinLength && Utf16Length(password) >= PasswordMinLength && password == confirm
    ensures r.Send? ==> r == Send(username, password)
    ensures AllSpace(username) || AllSpace(password) || AllSpace(confirm) ==> r == Refused(FillAllFields)
  {
    if Blank(username) || Blank(password) || Blank(confirm) then Refused(FillAllFields)
    else if Utf16Length(username) < UsernameMinLength then Refused(UsernameTooShort)
    else if Utf16Length(password) < PasswordMinLength then Refused(PasswordTooShort)
    else if password != confirm then Refused(PasswordsDiffer)
    else Send(username, password)
  }

  /** The form is the ordered chain of its checks: the first failing one names
      the error and the request goes out only when all pass. */
  lemma HandleSubmitIsFirstFailure(username: string, password: string, confirm: string)
    ensures HandleSubmit(username, password, confirm)
         == FirstFailure(Checks(username, password, confirm), username, password)
  {
    var c := Checks(username, password, confirm);
    var c1 := c[1..];
    var c2 := c1[1..];
    var c3 := c2[1..];
    assert c3 == [c[3]] && c3[1..] == [];
    assert c2[0] == c[2] && c1[0] == c[1];
    assert FirstFailure(c3[1..], username, password) == Send(username, password);
    var f3 := FirstFailure(c3, username, password);
    assert f3 == if c[3].fails then Refused(c[3].message) else Send(username, password);
    var f2 := FirstFailure(c2, username, password);
    assert f2 == if c[2].fails then Refused(c[2].message) else f3;
    var f1 := FirstFailure(c1, username, password);
    assert f1 == if c[1].fails then Refused(c[1].message) else f2;
    assert FirstFailure(c, username, password) == if c[0].fails then Refused(c[0].message) else f1;
  }

  /** A username that is short once trimmed but long enough with its blanks is
      sent, and the server then refuses it with its validation error. */
  lemma PaddedShortNameIsSent(b: Bcrypt, sign: UserId -> string)
    ensures HandleSubmit("  ab", "secret", "secret") == Send("  ab", "secret")
    ensures var r := RegisterChecked(Store([], [], 0), Some("  ab"), Some("secret"), b, sign);
      r.reply.Failure? && r.reply.status == ServerError && StartsWith(r.reply.message, ValidationPrefix)
  {
    var u := "  ab";
    assert !AllSpace(u) by { assert !IsSpace(u[2]); }
    assert !AllSpace("secret") by { assert !IsSpace("secret"[0]); }
    PaddedSampleLengths();
    PaddedSampleKey();
    assert ValidationMessage(ToLower(u), "secret").Some?;
  }

  lemma PaddedSampleLengths()
    ensures Utf16Length("  ab") == 4 && Utf16Length("secret") == 6 && Utf16Length("ab") == 2
  {
    BmpLength("  ab");
    BmpLength("secret");
    BmpLength("ab");
  }

  lemma PaddedSampleKey()
    ensures ToLower("  ab") == "  ab" && UsernameKey("  ab") == "ab"
  {
    var l := ToLower("  ab");
    assert l == "  ab";
    assert SkipSpaces(l, 2) == 2;
    assert SkipSpaces(l, 1) == 2;
    assert SkipSpaces(l, 0) == 2;
    assert DropTrailingSpaces(l, 2, 4) == 4;
    assert Trim(l) == l[2..4] == "ab";
  }

  /** `handleSubmit` with the username check made on the trimmed field, as the
      server makes it. */
  function HandleSubmitTrimmed(username: string, password: string, confirm: string): (r: Outcome)
    ensures r.Send? <==>
      && !AllSpace(username) && !AllSpace(password) && !AllSpace(confirm)
      && Utf16Length(Trim(username)) >= UsernameMinLength && Utf16Length(password) >= PasswordMinLength && password == confirm
    ensures r.Send? ==> r == Send(username, password)
  {
    if Blank(username) || Blank(password) || Blank(confirm) then Refused(FillAllFields)
    else if Utf16Length(Trim(username)) < UsernameMinLength then Refused(UsernameTooShort)
    else if Utf16Length(password) < PasswordMinLength then Refused(PasswordTooShort)
    else if password != confirm then Refused(PasswordsDiffer)
    else Send(username, password)
  }

  /** Whatever the corrected form sends, the register route (with the password
      rule on the submitted password) accepts, unless the name is taken. */
  lemma SentFormIsRegistered(s: Store, username: string, password: string, confirm: string,
                             b: Bcrypt, sign: UserId -> string)
    requires HandleSubmitTrimmed(username, password, confirm).Send?
    ensures var r := RegisterChecked(s, Some(username), Some(password), b, sign).reply;
      r.Success? || r == Failure(BadRequest, "Username already taken")
  {
    TrimLower(username);
    CaseKeepsUtf16Length(Trim(username));
  }

  /** The corrected form refuses only what the original refuses, besides names
      that are too short once trimmed. */
  lemma TrimmedKeepsRefusals(username: string, password: string, confirm: string)
    requires HandleSubmit(username, password, confirm).Refused?
    ensures HandleSubmitTrimmed(username, password, confirm).Refused?
  {
    TrimUtf16Length(username);
  }
}

=== FILE: room_codes.dfy ===
/**
 Room codes: three random bytes written as lower-case hexadecimal and upper-cased,
 and the retry loop that draws codes until one is not held by any room. The
 random bytes are an input: a sequence of draws, consumed in order.
 */
module RoomCodes {
  import opened Common
  import opened Text
  import opened Rooms

  /** One value of `crypto.randomBytes`. */
  type Byte = b: int | 0 <= b < 256

  /** The three bytes of one `crypto.randomBytes(3)` call. */
  datatype Draw = Draw(b0: Byte, b1: Byte, b2: Byte)

  /** The digits `Buffer.toString("hex")` writes. */
  const LowerHexDigits: string := "0123456789abcdef"

  /** The value of a lower-case hexadecimal digit. */
  function LowerHexValue(c: char): (v: nat)
    requires c in LowerHexDigits
    ensures v < 16 && LowerHexDigits[v] == c
  {
    if '0' <= c <= '9' then (c as int - '0' as int) else (c as int - 'a' as int) + 10
  }

  lemma LowerHexValueOfDigit(n: int)
    requires 0 <= n < 16
    ensures LowerHexValue(LowerHexDigits[n]) == n
  {
  }

  /** `randomBytes(3).toString("hex")`: six lower-case hexadecimal digits, each
      byte written as two digits, high nibble first. */
  function HexEncode(d: Draw): (s: string)
    ensures |s| == 6
    ensures forall i :: 0 <= i < 6 ==> s[i] in LowerHexDigits
  {
    [LowerHexDigits[d.b0 / 16], LowerHexDigits[d.b0 % 16],
     LowerHexDigits[d.b1 / 16], LowerHexDigits[d.b1 % 16],
     LowerHexDigits[d.b2 / 16], LowerHexDigits[d.b2 % 16]]
  }

  /** Each pair of digits of the hex text is the value of its byte, high nibble
      first, in the order the bytes were drawn. */
  lemma HexEncodeReadsBack(d: Draw)
    ensures var s := HexEncode(d);
      && LowerHexValue(s[0]) * 16 + LowerHexValue(s[1]) == d.b0
      && LowerHexValue(s[2]) * 16 + LowerHexValue(s[3]) == d.b1
      && LowerHexValue(s[4]) * 16 + LowerHexValue(s[5]) == d.b2
  {
    LowerHexValueOfDigit(d.b0 / 16); LowerHexValueOfDigit(d.b0 % 16);
    LowerHexValueOfDigit(d.b1 / 16); LowerHexValueOfDigit(d.b1 % 16);
    LowerHexValueOfDigit(d.b2 / 16); LowerHexValueOfDigit(d.b2 % 16);
  }

  /** Upper-casing a lower-case hexadecimal digit gives the upper-case digit of the
      same value. */
  lemma UpperHexDigit(n: int)
    requires 0 <= n < 16
    ensures UpperChar(LowerHexDigits[n]) == HexDigits[n]
  {
  }

  /** The six digits of a draw, upper case, high nibble first. */
  function UpperHex(d: Draw): (c: string)
    ensures |c| == 6
  {
    [HexDigits[d.b0 / 16], HexDigits[d.b0 % 16],
     HexDigits[d.b1 / 16], HexDigits[d.b1 % 16],
     HexDigits[d.b2 / 16], HexDigits[d.b2 % 16]]
  }

  /** `generateRoomCode`: upper-casing the lower-case hex text gives the upper-case
      digits of the same three bytes. */
  function GenerateRoomCode(d: Draw): (c: string)
    ensures c == UpperHex(d)
  {
    var h := HexEncode(d);
    var c := ToUpper(h);
    UpperHexDigit(d.b0 / 16);
    UpperHexDigit(d.b0 % 16);
    UpperHexDigit(d.b1 / 16);
    UpperHexDigit(d.b1 % 16);
    UpperHexDigit(d.b2 / 16);
    UpperHexDigit(d.b2 % 16);
    assert c[0] == UpperChar(h[0]) && c[1] == UpperChar(h[1]) && c[2] == UpperChar(h[2]);
    assert c[3] == UpperChar(h[3]) && c[4] == UpperChar(h[4]) && c[5] == UpperChar(h[5]);
    c
  }

  /** Every generated code has the shape of a room code and is already in the form
      the code setters store and query. */
  lemma GeneratedCodeShape(d: Draw)
    ensures IsRoomCode(GenerateRoomCode(d))
    ensures CanonicalCode(GenerateRoomCode(d)) == GenerateRoomCode(d)
  {
    var c := GenerateRoomCode(d);
    assert forall i :: 0 <= i < 6 ==> c[i] in HexDigits;
    RoomCodeIsCanonical(c);
  }

  /** The value of an upper-case hexadecimal digit. */
  function HexValue(c: char): (v: nat)
    requires c in HexDigits
    ensures v < 16 && HexDigits[v] == c
  {
    if '0' <= c <= '9' then (c as int - '0' as int) else (c as int - 'A' as int) + 10
  }

  /** Reads the three bytes back from a room code. */
  function DecodeRoomCode(c: string): (d: Draw)
    requires IsRoomCode(c)
  {
    Draw(HexValue(c[0]) * 16 + HexValue(c[1]),
         HexValue(c[2]) * 16 + HexValue(c[3]),
         HexValue(c[4]) * 16 + HexValue(c[5]))
  }

  lemma HexValueOfDigit(n: int)
    requires 0 <= n < 16
    ensures HexValue(HexDigits[n]) == n
  {
  }

  /** The code determines the draw: decoding a generated code gives its bytes back,
      so two different draws never produce the same code. */
  lemma DecodeGenerated(d: Draw)
    ensures DecodeRoomCode(GenerateRoomCode(d)) == d
  {
    var c := GenerateRoomCode(d);
    HexValueOfDigit(d.b0 / 16); HexValueOfDigit(d.b0 % 16);
    HexValueOfDigit(d.b1 / 16); HexValueOfDigit(d.b1 % 16);
    HexValueOfDigit(d.b2 / 16); HexValueOfDigit(d.b2 % 16);
  }

  lemma GenerateInjective(d: Draw, e: Draw)
    requires GenerateRoomCode(d) == GenerateRoomCode(e)
    ensures d == e
  {
    DecodeGenerated(d);
    DecodeGenerated(e);
  }

  /** The codes the rooms hold. */
  function HeldCodes(rooms: seq<Room>): set<string> {
    set r | r in rooms :: r.code
  }

  /** `Room.findOne({ code })` finds a room exactly when its canonical form is held. */
  lemma FindByCodeHeld(rooms: seq<Room>, code: string)
    ensures FindByCode(rooms, code).Some? <==> CanonicalCode(code) in HeldCodes(rooms)
  {
    if FindByCode(rooms, code).None? {
      assert forall x :: x in rooms ==> x.code != CanonicalCode(code);
    } else {
      assert FindByCode(rooms, code).value in rooms;
    }
  }

  /** The codes of a sequence of draws, in drawing order. */
  function Codes(draws: seq<Draw>): (cs: seq<string>)
    ensures |cs| == |draws|
    ensures forall i :: 0 <= i < |draws| ==> cs[i] == GenerateRoomCode(draws[i])
  {
    seq(|draws|, i requires 0 <= i < |draws| => GenerateRoomCode(draws[i]))
  }

  /** The retry loop of the create route over the candidate codes from position
      `from` on: the position of the first code no room holds, or nothing when every
      remaining candidate collides (the source would keep drawing). Candidates are
      generated codes, which the code setters leave unchanged, so "no room holds
      it" is what `Room.findOne({ code })` answers. */
  function FirstFreeCode(held: set<string>, codes: seq<string>, from: nat): (k: Option<nat>)
    requires from <= |codes|
    ensures k.Some? ==>
      && from <= k.value < |codes|
      && codes[k.value] !in held
      && forall j :: from <= j < k.value ==> codes[j] in held
    ensures k.None? ==> forall j :: from <= j < |codes| ==> codes[j] in held
    decreases |codes| - from
  {
    if from == |codes| then None
    else if codes[from] !in held then Some(from)
    else FirstFreeCode(held, codes, from + 1)
  }

  /** The code the loop settles on has the room-code shape, and no room holds it:
      neither literally nor in the form the code setters give it. */
  lemma FreeCodeIsFresh(rooms: seq<Room>, draws: seq<Draw>)
    requires FirstFreeCode(HeldCodes(rooms), Codes(draws), 0).Some?
    ensures var c := Codes(draws)[FirstFreeCode(HeldCodes(rooms), Codes(draws), 0).value];
      && IsRoomCode(c)
      && FindByCode(rooms, c).None?
      && forall r :: r in rooms ==> r.code != c
  {
    var k := FirstFreeCode(HeldCodes(rooms), Codes(draws), 0).value;
    var c := Codes(draws)[k];
    GeneratedCodeShape(draws[k]);
    FindByCodeHeld(rooms, c);
    assert forall r :: r in rooms ==> r.code in HeldCodes(rooms);
  }
}

=== FILE: rooms.dfy ===
/**
 The competition room document and the queries the routes run against the room
 collection: lookup by id and by code (the first match in insertion order, as
 `findOne` returns it), deletion, replacement and the 24-hour expiry.
 */
module Rooms {
  import opened Common
  import opened Text
  import opened Seqs

  const RoomNameMaxLength: int := 30
  /** `expires: 86400` on `createdAt`, in milliseconds. */
  const RoomTtlMs: int := 86400 * 1000

  datatype Room = Room(
    id: RoomId,
    name: string,
    code: string,
    host: UserId,
    members: seq<UserId>,
    createdAt: int)

  /** The hexadecimal digits a room code is drawn from, upper case. */
  const HexDigits: string := "0123456789ABCDEF"
  const RoomCodeLength: int := 6

  /** The shape of every code the room generator produces. */
  predicate IsRoomCode(c: string) {
    |c| == RoomCodeLength && forall i :: 0 <= i < |c| ==> c[i] in HexDigits
  }

  /** A room is live until 86400 s after its creation; from then on it is gone. */
  predicate Live(r: Room, now: int) {
    now < r.createdAt + RoomTtlMs
  }

  /** The `trim` and `uppercase` setters of the `code` path, which run both when a
      room is saved and when a query on `code` is cast. */
  function CanonicalCode(code: string): (c: string)
    ensures IsUpperCase(c) && Trim(c) == c
    ensures |c| <= |code|
    ensures c == [] <==> AllSpace(code)
  {
    var t := Trim(code);
    var c := ToUpper(t);
    assert t != [] ==> IsSpace(c[0]) == IsSpace(t[0]) && IsSpace(c[|c| - 1]) == IsSpace(t[|t| - 1]);
    TrimUntrimmed(c);
    c
  }

  /** The setters are idempotent: a stored code is stored unchanged again. */
  lemma CanonicalCodeIdempotent(code: string)
    ensures CanonicalCode(CanonicalCode(code)) == CanonicalCode(code)
  {
    var c := CanonicalCode(code);
    ToUpperFixes(c);
  }

  /** The setters ignore letter case: a code typed in lower case is the same code. */
  lemma CanonicalCodeIgnoresCase(code: string)
    ensures CanonicalCode(ToLower(code)) == CanonicalCode(code)
  {
    TrimLower(code);
    UpperOfLower(Trim(code));
  }

  /** Generated codes are fixed points of the code setters: storing and querying a
      generated code leave it as it is. */
  lemma RoomCodeIsCanonical(c: string)
    requires IsRoomCode(c)
    ensures CanonicalCode(c) == c
  {
    assert forall i :: 0 <= i < |c| ==> !IsSpace(c[i]) && !IsLowerLetter(c[i]);
    assert SkipSpaces(c, 0) == 0;
    assert DropTrailingSpaces(c, 0, |c|) == |c|;
    assert Trim(c) == c;
    ToUpperFixes(c);
  }

  /** The per-room constraints: the host is a member, members are distinct, the
      name passed schema validation and the code has the generated shape. */
  ghost predicate RoomShape(r: Room) {
    && r.host in r.members
    && NoDup(r.members)
    && StoredRoomName(r.name) == Some(r.name)
    && IsRoomCode(r.code)
  }

  /** Schema validation of a room name after the `trim` setter: required and at
      most 30 UTF-16 code units. Answers the stored name, or nothing when invalid. */
  function StoredRoomName(name: string): (r: Option<string>)
    ensures r.Some? <==> Trim(name) != [] && Utf16Length(Trim(name)) <= RoomNameMaxLength
    ensures r.Some? ==> r.value == Trim(name)
  {
    var t := Trim(name);
    if t == [] || Utf16Length(t) > RoomNameMaxLength then None else Some(t)
  }

  /** `Room.findById(id)`: the first room with that id. */
  function FindById(rooms: seq<Room>, id: RoomId): (r: Option<Room>)
    ensures r.Some? ==> r.value in rooms && r.value.id == id
    ensures r.None? ==> forall x :: x in rooms ==> x.id != id
  {
    if rooms == [] then None
    else if rooms[0].id == id then Some(rooms[0])
    else FindById(rooms[1..], id)
  }

  /** `Room.findOne({ code })`: the first room whose stored code is the query's
      canonical form. */
  function FindByCode(rooms: seq<Room>, code: string): (r: Option<Room>)
    ensures r.Some? ==> r.value in rooms && r.value.code == CanonicalCode(code)
    ensures r.None? ==> forall x :: x in rooms ==> x.code != CanonicalCode(code)
  {
    if rooms == [] then None
    else if rooms[0].code == CanonicalCode(code) then Some(rooms[0])
    else FindByCode(rooms[1..], code)
  }

  /** `Room.findByIdAndDelete(id)`. */
  function Without(rooms: seq<Room>, id: RoomId): (r: seq<Room>)
    ensures forall x :: x in r <==> x in rooms && x.id != id
  {
    Filter(rooms, (x: Room) => x.id != id)
  }

  /** The rooms the TTL monitor has not yet removed at time `now`. */
  function LiveRooms(rooms: seq<Room>, now: int): (r: seq<Room>)
    ensures forall x :: x in r <==> x in rooms && Live(x, now)
  {
    Filter(rooms, (x: Room) => Live(x, now))
  }

  /** `room.save()` of an updated room: the stored room with its id is replaced.
      Every position keeps its id, rooms with other ids are untouched, and the
      updated room is stored exactly when a room with its id was. */
  function Replace(rooms: seq<Room>, updated: Room): (r: seq<Room>)
    ensures |r| == |rooms|
    ensures forall i :: 0 <= i < |rooms| ==> r[i].id == rooms[i].id
    ensures forall i :: 0 <= i < |rooms| && rooms[i].id != updated.id ==> r[i] == rooms[i]
    ensures forall x :: x in rooms && x.id != updated.id ==> x in r
    ensures forall x :: x in r && x != updated ==> x in rooms && x.id != updated.id
    ensures updated in r <==> exists k :: 0 <= k < |rooms| && rooms[k].id == updated.id
  {
    var r := seq(|rooms|, i requires 0 <= i < |rooms| => if rooms[i].id == updated.id then updated else rooms[i]);
    ReplacedContents(rooms, updated, r);
    r
  }

  /** The contents of the replaced sequence, position by position. */
  lemma ReplacedContents(rooms: seq<Room>, updated: Room, r: seq<Room>)
    requires |r| == |rooms|
    requires forall i :: 0 <= i < |rooms| ==> r[i] == (if rooms[i].id == updated.id then updated else rooms[i])
    ensures forall x :: x in rooms && x.id != updated.id ==> x in r
    ensures forall x :: x in r && x != updated ==> x in rooms && x.id != updated.id
    ensures updated in r <==> exists k :: 0 <= k < |rooms| && rooms[k].id == updated.id
  {
    forall x | x in rooms && x.id != updated.id ensures x in r {
      var i :| 0 <= i < |rooms| && rooms[i] == x;
      assert r[i] == x;
    }
    forall x | x in r && x != updated ensures x in rooms && x.id != updated.id {
      var i :| 0 <= i < |r| && r[i] == x;
      assert rooms[i].id != updated.id;
    }
    if exists k :: 0 <= k < |rooms| && rooms[k].id == updated.id {
      var k :| 0 <= k < |rooms| && rooms[k].id == updated.id;
      assert r[k] == updated;
    }
  }
}

=== FILE: seqs.dfy ===
/**
 Sequence helpers shared by the backend and the pages: `Array.prototype.filter`,
 duplicate-freedom, and `Array.prototype.sort` with a descending numeric
 comparator (`(a, b) => key(b) - key(a)`), which ECMAScript requires to be stable.
 */
module Seqs {

  /** `s.filter(p)`: exactly the elements satisfying `p`, in their original order. */
  function Filter<T(==,!new)>(s: seq<T>, p: T -> bool): (r: seq<T>)
    ensures |r| <= |s|
    ensures forall x :: x in r <==> x in s && p(x)
    ensures multiset(r) <= multiset(s)
  {
    if s == [] then []
    else
      var rest := Filter(s[1..], p);
      assert s == [s[0]] + s[1..];
      if p(s[0]) then [s[0]] + rest else rest
  }

  /** No value occurs twice. */
  ghost predicate NoDup<T>(s: seq<T>) {
    forall i, j :: 0 <= i < j < |s| ==> s[i] != s[j]
  }

  lemma NoDupCons<T>(x: T, s: seq<T>)
    ensures NoDup([x] + s) <==> x !in s && NoDup(s)
  {
    var t := [x] + s;
    if x !in s && NoDup(s) {
      forall i, j | 0 <= i < j < |t| ensures t[i] != t[j] {
        if i == 0 {
          assert t[j] == s[j - 1];
        } else {
          assert t[i] == s[i - 1] && t[j] == s[j - 1];
        }
      }
    }
    if NoDup(t) {
      forall k | 0 <= k < |s| ensures s[k] != x {
        assert t[0] == x && t[k + 1] == s[k];
        assert t[0] != t[k + 1];
      }
      forall i, j | 0 <= i < j < |s| ensures s[i] != s[j] {
        assert t[i + 1] == s[i] && t[j + 1] == s[j];
      }
    }
  }

  /** Appending a fresh value keeps a sequence duplicate-free. */
  lemma NoDupSnoc<T>(s: seq<T>, x: T)
    requires NoDup(s) && x !in s
    ensures NoDup(s + [x])
  {
  }

  /** Filtering never introduces a duplicate. */
  lemma {:induction false} FilterNoDup<T(!new)>(s: seq<T>, p: T -> bool)
    requires NoDup(s)
    ensures NoDup(Filter(s, p))
    decreases |s|
  {
    if s != [] {
      NoDupCons(s[0], s[1..]);
      assert s == [s[0]] + s[1..];
      FilterNoDup(s[1..], p);
      if p(s[0]) {
        NoDupCons(s[0], Filter(s[1..], p));
      }
    }
  }

  // ---------------------------------------------------------------------------
  // Stable descending sort
  // ---------------------------------------------------------------------------

  /** Keys never increase from left to right. */
  predicate SortedDesc<T>(s: seq<T>, key: T -> int) {
    forall i, j :: 0 <= i < j < |s| ==> key(s[i]) >= key(s[j])
  }

  /** The elements whose key is `k`, in order: stability says this subsequence is
      the same before and after sorting. */
  function WithKey<T>(s: seq<T>, key: T -> int, k: int): seq<T> {
    if s == [] then []
    else (if key(s[0]) == k then [s[0]] else []) + WithKey(s[1..], key, k)
  }

  lemma {:induction false} WithKeyAppend<T>(a: seq<T>, b: seq<T>, key: T -> int, k: int)
    ensures WithKey(a + b, key, k) == WithKey(a, key, k) + WithKey(b, key, k)
    decreases |a|
  {
    if a == [] {
      assert a + b == b;
    } else {
      var h := if key(a[0]) == k then [a[0]] else [];
      assert (a + b)[0] == a[0];
      assert (a + b)[1..] == a[1..] + b;
      WithKeyAppend(a[1..], b, key, k);
      calc {
        WithKey(a + b, key, k);
        h + WithKey(a[1..] + b, key, k);
        h + (WithKey(a[1..], key, k) + WithKey(b, key, k));
        (h + WithKey(a[1..], key, k)) + WithKey(b, key, k);
        WithKey(a, key, k) + WithKey(b, key, k);
      }
    }
  }

  lemma {:induction false} WithKeyNone<T>(s: seq<T>, key: T -> int, k: int)
    requires forall i :: 0 <= i < |s| ==> key(s[i]) < k
    ensures WithKey(s, key, k) == []
    decreases |s|
  {
    if s != [] {
      WithKeyNone(s[1..], key, k);
    }
  }

  /** A key at least the first key of a sorted sequence can be put in front. */
  lemma SortedCons<T>(h: T, t: seq<T>, key: T -> int)
    requires SortedDesc(t, key)
    requires t != [] ==> key(h) >= key(t[0])
    ensures SortedDesc([h] + t, key)
  {
    var r := [h] + t;
    forall i, j | 0 <= i < j < |r| ensures key(r[i]) >= key(r[j]) {
      if i == 0 {
        assert r[j] == t[j - 1];
      } else {
        assert r[i] == t[i - 1] && r[j] == t[j - 1];
      }
    }
  }

  /** Places `x` after every element whose key is at least its own. */
  function Insert<T>(x: T, s: seq<T>, key: T -> int): (r: seq<T>)
    requires SortedDesc(s, key)
    ensures |r| == |s| + 1
    ensures r[0] == x || (|s| > 0 && r[0] == s[0])
    ensures SortedDesc(r, key)
    decreases |s|
  {
    if s == [] then [x]
    else if key(s[0]) >= key(x) then
      var rest := Insert(x, s[1..], key);
      SortedCons(s[0], rest, key);
      [s[0]] + rest
    else
      SortedCons(x, s, key);
      [x] + s
  }

  /** Insertion adds exactly the inserted element. */
  lemma {:induction false} InsertMultiset<T>(x: T, s: seq<T>, key: T -> int)
    requires SortedDesc(s, key)
    ensures multiset(Insert(x, s, key)) == multiset(s) + multiset{x}
    decreases |s|
  {
    if s != [] && key(s[0]) >= key(x) {
      var rest := Insert(x, s[1..], key);
      InsertMultiset(x, s[1..], key);
      assert Insert(x, s, key) == [s[0]] + rest;
      assert s == [s[0]] + s[1..];
      assert multiset([s[0]] + rest) == multiset{s[0]} + multiset(rest);
      assert multiset(s) == multiset{s[0]} + multiset(s[1..]);
    } else if s != [] {
      assert Insert(x, s, key) == [x] + s;
    }
  }

  /** The JavaScript `sort` with comparator `(a, b) => key(b) - key(a)`: sorted, and
      a rearrangement of its input. */
  function SortDesc<T>(s: seq<T>, key: T -> int): (r: seq<T>)
    ensures |r| == |s|
    ensures SortedDesc(r, key)
    ensures multiset(r) == multiset(s)
    decreases |s|
  {
    if s == [] then []
    else
      var init := SortDesc(s[..|s| - 1], key);
      assert s == s[..|s| - 1] + [s[|s| - 1]];
      InsertMultiset(s[|s| - 1], init, key);
      Insert(s[|s| - 1], init, key)
  }

  lemma WithKeySingle<T>(x: T, key: T -> int, k: int)
    ensures WithKey([x], key, k) == if key(x) == k then [x] else []
  {
    assert [x][1..] == [];
  }

  lemma {:induction false} InsertWithKey<T>(x: T, s: seq<T>, key: T -> int, k: int)
    requires SortedDesc(s, key)
    ensures WithKey(Insert(x, s, key), key, k)
         == WithKey(s, key, k) + (if key(x) == k then [x] else [])
    decreases |s|
  {
    WithKeySingle(x, key, k);
    if s == [] {
      assert Insert(x, s, key) == [x];
    } else if key(s[0]) >= key(x) {
      var rest := Insert(x, s[1..], key);
      assert Insert(x, s, key) == [s[0]] + rest;
      InsertWithKey(x, s[1..], key, k);
      WithKeyAppend([s[0]], rest, key, k);
      assert s == [s[0]] + s[1..];
      WithKeyAppend([s[0]], s[1..], key, k);
    } else {
      assert Insert(x, s, key) == [x] + s;
      WithKeyAppend([x], s, key, k);
      if key(x) == k {
        WithKeyNone(s, key, k);
      }
    }
  }

  /** Stability: for every key, the elements with that key appear in the sorted
      output in the same relative order as in the input. */
  lemma {:induction false} SortDescStable<T>(s: seq<T>, key: T -> int, k: int)
    ensures WithKey(SortDesc(s, key), key, k) == WithKey(s, key, k)
    decreases |s|
  {
    if s != [] {
      var init, last := s[..|s| - 1], s[|s| - 1];
      assert SortDesc(s, key) == Insert(last, SortDesc(init, key), key);
      SortDescStable(init, key, k);
      InsertWithKey(last, SortDesc(init, key), key, k);
      assert s == init + [last];
      WithKeyAppend(init, [last], key, k);
      WithKeySingle(last, key, k);
    }
  }

  // ---------------------------------------------------------------------------
  // Mapping
  // ---------------------------------------------------------------------------

  /** `s.map(f)`. */
  function Map<A, B>(s: seq<A>, f: A -> B): (r: seq<B>)
    ensures |r| == |s|
    ensures forall i :: 0 <= i < |s| ==> r[i] == f(s[i])
  {
    seq(|s|, i requires 0 <= i < |s| => f(s[i]))
  }

  lemma MapAppend<A, B>(a: seq<A>, b: seq<A>, f: A -> B)
    ensures Map(a + b, f) == Map(a, f) + Map(b, f)
  {
  }

  /** Mapping two arrangements of the same elements gives two arrangements of the
      same images. */
  lemma {:induction false} MapMultiset<A, B>(s: seq<A>, t: seq<A>, f: A -> B)
    requires multiset(s) == multiset(t)
    ensures multiset(Map(s, f)) == multiset(Map(t, f))
    decreases |s|
  {
    if s == [] {
      assert |t| == |multiset(t)| == 0;
    } else {
      var x := s[0];
      assert x in multiset(t);
      var k :| 0 <= k < |t| && t[k] == x;
      var rest := t[..k] + t[k + 1..];
      assert t == t[..k] + [x] + t[k + 1..];
      assert s == [x] + s[1..];
      calc {
        multiset(s[1..]) + multiset{x};
        multiset(s);
        multiset(t);
        multiset(t[..k]) + multiset{x} + multiset(t[k + 1..]);
        multiset(rest) + multiset{x};
      }
      assert multiset(s[1..]) == multiset(s[1..]) + multiset{x} - multiset{x};
      assert multiset(s[1..]) == multiset(rest);
      MapMultiset(s[1..], rest, f);
      MapAppend([x], s[1..], f);
      MapAppend(t[..k] + [x], t[k + 1..], f);
      MapAppend(t[..k], [x], f);
      MapAppend(t[..k], t[k + 1..], f);
    }
  }
}

=== FILE: store.dfy ===
/**
 The document store the routes read and write: the user collection (a user's id
 is its position; users are never deleted), the room collection in insertion
 order, and the source of fresh room ids. `Wf` collects the cross-document
 invariants that every route preserves.
 */
module Store {
  import opened Common
  import opened Text
  import opened Seqs
  import opened Users
  import opened Rooms

  datatype Store = Store(users: seq<User>, rooms: seq<Room>, nextRoomId: RoomId)

  /** What a route hands back: its reply and the store after it. */
  datatype Step<T> = Step(reply: Reply<T>, store: Store)

  /** User ids are positions, documents satisfy the schema, and no two users
      share a username. */
  ghost predicate UsersWf(users: seq<User>) {
    && (forall i :: 0 <= i < |users| ==> users[i].id == i && StoredUserValid(users[i]))
    && (forall i, j :: 0 <= i < j < |users| ==> users[i].username != users[j].username)
  }

  /** Every room id, and every id a user refers to, was handed out already. */
  ghost predicate IdsIssued(s: Store) {
    && (forall r :: r in s.rooms ==> r.id < s.nextRoomId)
    && (forall i :: 0 <= i < |s.users| && s.users[i].activeRoom.Some? ==>
          s.users[i].activeRoom.value < s.nextRoomId)
  }

  ghost predicate RoomsShaped(rooms: seq<Room>) {
    forall r :: r in rooms ==> RoomShape(r)
  }

  /** A room id or a room code determines the room. */
  ghost predicate KeysUnique(rooms: seq<Room>) {
    && (forall a, b :: a in rooms && b in rooms && a.id == b.id ==> a == b)
    && (forall a, b :: a in rooms && b in rooms && a.code == b.code ==> a == b)
  }

  /** Every member of a room refers back to it. */
  ghost predicate MembersReferToRoom(s: Store) {
    forall r, m {:trigger m in r.members} :: r in s.rooms && m in r.members ==>
      m < |s.users| && s.users[m].activeRoom == Some(r.id)
  }

  /** Every user referring to an existing room is among its members. */
  ghost predicate ReferencesAreMembers(s: Store) {
    forall r, i :: r in s.rooms && 0 <= i < |s.users| && s.users[i].activeRoom == Some(r.id) ==>
      i in r.members
  }

  /** Room ids are fresh and unique, codes are pairwise distinct, every room has
      its shape, and room membership and `activeRoom` agree in both directions for
      every room that still exists. A reference to a deleted room is allowed: it
      is what an interrupted cascade or the expiry leaves behind. */
  ghost predicate RoomsWf(s: Store) {
    && IdsIssued(s)
    && RoomsShaped(s.rooms)
    && KeysUnique(s.rooms)
    && MembersReferToRoom(s)
    && ReferencesAreMembers(s)
  }

  ghost predicate Wf(s: Store) {
    UsersWf(s.users) && RoomsWf(s)
  }

  /** The store with no users and no rooms. */
  const Empty: Store := Store([], [], 0)

  lemma EmptyWf()
    ensures Wf(Empty)
  {
  }

  /** The store as the TTL monitor leaves it at time `now`. */
  function Expire(s: Store, now: int): (e: Store)
    ensures e.users == s.users && e.nextRoomId == s.nextRoomId
    ensures forall r :: r in e.rooms <==> r in s.rooms && Live(r, now)
  {
    s.(rooms := LiveRooms(s.rooms, now))
  }

  /** Removing rooms keeps the invariant: every room-side fact was about a room
      that is still there, and a dangling reference is allowed. */
  lemma FewerRoomsWf(s: Store, rooms: seq<Room>)
    requires Wf(s)
    requires forall r :: r in rooms ==> r in s.rooms
    ensures Wf(s.(rooms := rooms))
  {
    var e := s.(rooms := rooms);
    assert IdsIssued(e);
    assert RoomsShaped(e.rooms);
    assert KeysUnique(e.rooms);
    forall r, m | r in e.rooms && m in r.members
      ensures m < |e.users| && e.users[m].activeRoom == Some(r.id)
    {
      assert r in s.rooms;
    }
    assert MembersReferToRoom(e);
    assert ReferencesAreMembers(e);
  }

  /** Expiry keeps the invariant: it only removes rooms. */
  lemma ExpireWf(s: Store, now: int)
    requires Wf(s)
    ensures Wf(Expire(s, now))
  {
    FewerRoomsWf(s, Expire(s, now).rooms);
  }

  /** Writing back a user document that keeps its id, username and room reference
      and still satisfies the schema keeps the invariant. This covers every route
      that only touches the streak ledger or the journal. */
  lemma UserWriteWf(s: Store, u: User)
    requires Wf(s)
    requires u.id < |s.users|
    requires u.username == s.users[u.id].username
    requires u.activeRoom == s.users[u.id].activeRoom
    requires StoredUserValid(u)
    ensures Wf(s.(users := s.users[u.id := u]))
  {
    var s' := s.(users := s.users[u.id := u]);
    forall i | 0 <= i < |s.users|
      ensures s'.users[i].activeRoom == s.users[i].activeRoom
      ensures s'.users[i].username == s.users[i].username
      ensures s'.users[i].id == i && StoredUserValid(s'.users[i])
    {
      if i == u.id {
        assert s'.users[i] == u;
      } else {
        assert s'.users[i] == s.users[i];
      }
    }
    forall i, j | 0 <= i < j < |s'.users|
      ensures s'.users[i].username != s'.users[j].username
    {
      assert s.users[i].username != s.users[j].username;
    }
    assert UsersWf(s'.users);
    assert IdsIssued(s');
    forall r, m | r in s'.rooms && m in r.members
      ensures m < |s'.users| && s'.users[m].activeRoom == Some(r.id)
    {
    }
    forall r, i | r in s'.rooms && 0 <= i < |s'.users| && s'.users[i].activeRoom == Some(r.id)
      ensures i in r.members
    {
    }
  }

  /** No user can be found under two spellings that differ only in letter case. */
  lemma UsernamesCaseInsensitivelyUnique(s: Store, i: nat, j: nat)
    requires Wf(s) && i < |s.users| && j < |s.users| && i != j
    ensures ToLower(s.users[i].username) != ToLower(s.users[j].username)
  {
    ToLowerFixes(s.users[i].username);
    ToLowerFixes(s.users[j].username);
  }
}

=== FILE: streak.dfy ===
/**
 The streak ledger of one user: starting a streak, resetting it (which records
 the completed attempt in the history) and clearing the history. Each route acts
 on the caller's own user document.
 */
module Streak {
  import opened Common
  import opened Users
  import opened Store

  /** What the reset route answers: the entry it recorded and the new history. */
  datatype ResetReply = ResetReply(lastStreak: HistoryEntry, streakHistory: seq<HistoryEntry>)

  /** POST /start. Rejected while a streak is active; otherwise the streak starts now
      and nothing else about the user changes. */
  function Start(u: User, now: int): (r: (Reply<int>, User))
    ensures u.currentStreakStart.Some? ==>
      r.0 == Failure(BadRequest, "You already have an active streak") && r.1 == u
    ensures u.currentStreakStart.None? ==>
      && r.0 == Success(Ok, now)
      && r.1.currentStreakStart == Some(now)
      && r.1.streakHistory == u.streakHistory
      && r.1 == u.(currentStreakStart := Some(now))
  {
    if u.currentStreakStart.Some? then
      (Failure(BadRequest, "You already have an active streak"), u)
    else
      var u' := u.(currentStreakStart := Some(now));
      (Success(Ok, now), u')
  }

  /** POST /reset. Rejected without an active streak, appending nothing. Otherwise
      exactly one entry is appended, holding the start, `now` and the whole hours in
      between; earlier entries are untouched, the streak is cleared, and the reply
      carries the appended entry and the stored history. */
  function Reset(u: User, now: int): (r: (Reply<ResetReply>, User))
    ensures u.currentStreakStart.None? ==>
      r.0 == Failure(BadRequest, "No active streak to reset") && r.1 == u
    ensures u.currentStreakStart.Some? ==>
      var start := u.currentStreakStart.value;
      var n := |u.streakHistory|;
      && r.0.Success?
      && |r.1.streakHistory| == n + 1
      && r.1.streakHistory[..n] == u.streakHistory
      && r.1.streakHistory[n].startDate == start
      && r.1.streakHistory[n].endDate == now
      && r.1.streakHistory[n].durationHours * MsPerHour <= now - start
      && now - start < (r.1.streakHistory[n].durationHours + 1) * MsPerHour
      && r.0.value.lastStreak == r.1.streakHistory[n]
      && r.0.value.streakHistory == r.1.streakHistory
      && r.1.currentStreakStart.None?
      && r.1 == u.(currentStreakStart := None, streakHistory := r.1.streakHistory)
  {
    match u.currentStreakStart
    case None => (Failure(BadRequest, "No active streak to reset"), u)
    case Some(start) =>
      var entry := HistoryEntry(start, now, HoursBetween(start, now));
      var history := u.streakHistory + [entry];
      assert history[..|u.streakHistory|] == u.streakHistory;
      var u' := u.(currentStreakStart := None, streakHistory := history);
      (Success(Ok, ResetReply(entry, history)), u')
  }

  /** DELETE /history. The history becomes empty; the active streak, if any, is kept. */
  function ClearHistory(u: User): (r: (Reply<()>, User))
    ensures r.0.Success?
    ensures r.1.streakHistory == []
    ensures r.1.currentStreakStart == u.currentStreakStart
    ensures r.1 == u.(streakHistory := [])
  {
    (Success(Ok, ()), u.(streakHistory := []))
  }

  /** A second start without a reset in between is rejected and leaves the first
      start time in place. */
  lemma StartTwiceRejected(u: User, t1: int, t2: int)
    requires u.currentStreakStart.None?
    ensures var (_, u1) := Start(u, t1);
      var (reply, u2) := Start(u1, t2);
      reply.Failure? && reply.status == BadRequest && u2.currentStreakStart == Some(t1)
  {
  }

  /** A streak started at `t` and reset 26 hours later is recorded as 26 hours. */
  lemma ResetAfterTwentySixHours(u: User, t: int)
    requires u.currentStreakStart == Some(t)
    ensures var (reply, u') := Reset(u, t + 26 * MsPerHour);
      && reply.Success? && reply.value.lastStreak.durationHours == 26
      && |u'.streakHistory| == |u.streakHistory| + 1
      && u'.currentStreakStart.None?
  {
  }

  /** The recorded duration is what the leaderboard showed at the moment of the
      reset, and it is non-negative unless the clock went backwards. */
  lemma ResetRecordsElapsed(u: User, now: int)
    requires u.currentStreakStart.Some?
    ensures var (reply, _) := Reset(u, now);
      && reply.Success?
      && reply.value.lastStreak.durationHours == ElapsedHours(u.currentStreakStart, now)
      && (u.currentStreakStart.value <= now ==> reply.value.lastStreak.durationHours >= 0)
  {
  }

  /** A start followed by a reset is a full cycle: the user is back without a
      streak and the history grew by one entry beginning at the start time. */
  lemma StartResetCycle(u: User, t1: int, t2: int)
    requires u.currentStreakStart.None?
    ensures var (_, u1) := Start(u, t1);
      var (reply, u2) := Reset(u1, t2);
      && reply.Success?
      && u2.currentStreakStart.None?
      && u2.streakHistory == u.streakHistory + [reply.value.lastStreak]
      && reply.value.lastStreak.startDate == t1
      && reply.value.lastStreak.endDate == t2
  {
    var (_, u1) := Start(u, t1);
    var (reply, u2) := Reset(u1, t2);
    assert u2.streakHistory == u.streakHistory + [u2.streakHistory[|u.streakHistory|]];
  }

  /** Every entry of the history always carries the duration of its own dates:
      each of the three routes keeps that property of the user document. */
  lemma RoutesKeepHistoryConsistent(u: User, now: int)
    requires HistoryConsistent(u.streakHistory)
    ensures HistoryConsistent(Start(u, now).1.streakHistory)
    ensures HistoryConsistent(Reset(u, now).1.streakHistory)
    ensures HistoryConsistent(ClearHistory(u).1.streakHistory)
  {
    var h := Reset(u, now).1.streakHistory;
    if u.currentStreakStart.Some? {
      var n := |u.streakHistory|;
      forall i | 0 <= i < |h| ensures EntryConsistent(h[i]) {
        if i < n {
          assert h[i] == h[..n][i];
        }
      }
    }
  }

  /** The streak routes keep the store invariant when the updated user document is
      written back. */
  lemma RoutesKeepStoreWf(s: Store, uid: UserId, now: int)
    requires Wf(s) && uid < |s.users|
    ensures Wf(s.(users := s.users[uid := Start(s.users[uid], now).1]))
    ensures Wf(s.(users := s.users[uid := Reset(s.users[uid], now).1]))
    ensures Wf(s.(users := s.users[uid := ClearHistory(s.users[uid]).1]))
  {
    var u := s.users[uid];
    RoutesKeepHistoryConsistent(u, now);
    UserWriteWf(s, Start(u, now).1);
    UserWriteWf(s, Reset(u, now).1);
    UserWriteWf(s, ClearHistory(u).1);
  }
}

=== FILE: text.dfy ===
/**
 The JavaScript string built-ins the tracker relies on: `trim`, `toLowerCase`,
 `toUpperCase`, `startsWith`, `split(" ")`, `String(n)` and the decimal reading
 of such a string. Case mapping covers the ASCII letters only.
 */
module Text {

  // ---------------------------------------------------------------------------
  // Whitespace and trim
  // ---------------------------------------------------------------------------

  /** The characters `String.prototype.trim` removes: the ECMAScript WhiteSpace
      and LineTerminator code points. */
  predicate IsSpace(c: char) {
    || c == ' ' || c == '\t' || c == '\n' || c == '\r'
    || c == '\U{B}' || c == '\U{C}' || c == '\U{A0}' || c == '\U{FEFF}'
    || c == '\U{1680}' || ('\U{2000}' <= c <= '\U{200A}')
    || c == '\U{2028}' || c == '\U{2029}' || c == '\U{202F}' || c == '\U{205F}'
    || c == '\U{3000}'
  }

  predicate AllSpace(s: string) {
    forall i :: 0 <= i < |s| ==> IsSpace(s[i])
  }

  /** Index of the first non-space character of `s` at or after `i` (`|s|` if none). */
  function SkipSpaces(s: string, i: nat): (k: nat)
    requires i <= |s|
    ensures i <= k <= |s|
    ensures forall j :: i <= j < k ==> IsSpace(s[j])
    ensures k < |s| ==> !IsSpace(s[k])
    decreases |s| - i
  {
    if i < |s| && IsSpace(s[i]) then SkipSpaces(s, i + 1) else i
  }

  /** End of `s[lo..hi]` once its trailing spaces are dropped. */
  function DropTrailingSpaces(s: string, lo: nat, hi: nat): (k: nat)
    requires lo <= hi <= |s|
    ensures lo <= k <= hi
    ensures forall j :: k <= j < hi ==> IsSpace(s[j])
    ensures k > lo ==> !IsSpace(s[k - 1])
    decreases hi
  {
    if hi > lo && IsSpace(s[hi - 1]) then DropTrailingSpaces(s, lo, hi - 1) else hi
  }

  /** `s.trim()`: the slice of `s` between its leading and its trailing run of
      spaces; it neither starts nor ends with a space and is empty exactly when
      `s` is all spaces. */
  function Trim(s: string): (r: string)
    ensures SkipSpaces(s, 0) + |r| <= |s|
    ensures r != [] ==> !IsSpace(r[0]) && !IsSpace(r[|r| - 1])
    ensures r == [] <==> AllSpace(s)
    ensures r == s[SkipSpaces(s, 0)..SkipSpaces(s, 0) + |r|]
    ensures AllSpace(s[..SkipSpaces(s, 0)]) && AllSpace(s[SkipSpaces(s, 0) + |r|..])
  {
    var a := SkipSpaces(s, 0);
    var b := DropTrailingSpaces(s, a, |s|);
    assert a < |s| ==> b > a;
    SpaceRuns(s, a, b);
    s[a..b]
  }

  /** Cutting `s` at `a` and `b` gives three pieces, and the outer two are blank
      when every character outside `s[a..b]` is a space. */
  lemma SpaceRuns(s: string, a: nat, b: nat)
    requires a <= b <= |s|
    requires forall j :: 0 <= j < a ==> IsSpace(s[j])
    requires forall j :: b <= j < |s| ==> IsSpace(s[j])
    ensures AllSpace(s[..a]) && AllSpace(s[b..])
    ensures s == s[..a] + s[a..b] + s[b..]
  {
    assert forall j :: 0 <= j < |s| - b ==> s[b..][j] == s[b + j];
  }

  /** `trim` only cuts blanks off the two ends: the input is the trimmed text with
      a blank run before it and a blank run after it. */
  lemma TrimCutsOnlyEnds(s: string)
    ensures var a := SkipSpaces(s, 0);
      && a + |Trim(s)| <= |s|
      && s == s[..a] + Trim(s) + s[a + |Trim(s)|..]
      && AllSpace(s[..a]) && AllSpace(s[a + |Trim(s)|..])
  {
    var a := SkipSpaces(s, 0);
    SpaceRuns(s, a, a + |Trim(s)|);
  }

  /** A string that neither starts nor ends with a space is its own trim. */
  lemma TrimUntrimmed(t: string)
    requires t != [] ==> !IsSpace(t[0]) && !IsSpace(t[|t| - 1])
    ensures Trim(t) == t
  {
    if t != [] {
      assert SkipSpaces(t, 0) == 0;
      assert DropTrailingSpaces(t, 0, |t|) == |t|;
    }
  }

  /** Trimming twice is trimming once: the `trim` setter is idempotent. */
  lemma TrimIdempotent(s: string)
    ensures Trim(Trim(s)) == Trim(s)
  {
    TrimUntrimmed(Trim(s));
  }

  // ---------------------------------------------------------------------------
  // ASCII case mapping
  // ---------------------------------------------------------------------------

  predicate IsUpperLetter(c: char) { 'A' <= c <= 'Z' }
  predicate IsLowerLetter(c: char) { 'a' <= c <= 'z' }

  function LowerChar(c: char): (d: char)
    ensures !IsUpperLetter(d)
  {
    if IsUpperLetter(c) then (c as int + 32) as char else c
  }

  function UpperChar(c: char): (d: char)
    ensures !IsLowerLetter(d)
  {
    if IsLowerLetter(c) then (c as int - 32) as char else c
  }

  /** A string with no upper-case letter: a fixed point of `toLowerCase`. */
  predicate IsLowerCase(s: string) {
    forall i :: 0 <= i < |s| ==> !IsUpperLetter(s[i])
  }

  /** A string with no lower-case letter: a fixed point of `toUpperCase`. */
  predicate IsUpperCase(s: string) {
    forall i :: 0 <= i < |s| ==> !IsLowerLetter(s[i])
  }

  function ToLower(s: string): (r: string)
    ensures |r| == |s| && IsLowerCase(r)
    ensures forall i :: 0 <= i < |s| ==> r[i] == LowerChar(s[i])
  {
    seq(|s|, i requires 0 <= i < |s| => LowerChar(s[i]))
  }

  function ToUpper(s: string): (r: string)
    ensures |r| == |s| && IsUpperCase(r)
    ensures forall i :: 0 <= i < |s| ==> r[i] == UpperChar(s[i])
  {
    seq(|s|, i requires 0 <= i < |s| => UpperChar(s[i]))
  }

  /** Lower-casing leaves an already lower-case string alone. */
  lemma ToLowerFixes(s: string)
    requires IsLowerCase(s)
    ensures ToLower(s) == s
  {
  }

  lemma ToUpperFixes(s: string)
    requires IsUpperCase(s)
    ensures ToUpper(s) == s
  {
  }

  /** Upper-casing forgets any earlier lower-casing: a lookup that upper-cases its
      query does not depend on the letter case the query was typed in. */
  lemma UpperOfLower(s: string)
    ensures ToUpper(ToLower(s)) == ToUpper(s)
  {
    var l := ToLower(s);
    assert forall i :: 0 <= i < |s| ==> UpperChar(l[i]) == UpperChar(s[i]);
  }

  /** Any slice of a lower-case string is lower case. */
  lemma LowerCaseSlice(s: string, a: int, b: int)
    requires IsLowerCase(s) && 0 <= a <= b <= |s|
    ensures IsLowerCase(s[a..b])
  {
  }

  /** Trimming keeps a lower-case string lower case. */
  lemma TrimKeepsLowerCase(s: string)
    requires IsLowerCase(s)
    ensures IsLowerCase(Trim(s))
  {
    var r := Trim(s);
    var a := SkipSpaces(s, 0);
    LowerCaseSlice(s, a, a + |r|);
  }

  /** Lower-casing changes letters only, never a space, so it moves neither end
      of the trim. */
  lemma {:induction false} SkipSpacesLower(s: string, i: nat)
    requires i <= |s|
    ensures SkipSpaces(ToLower(s), i) == SkipSpaces(s, i)
    decreases |s| - i
  {
    if i < |s| {
      assert IsSpace(ToLower(s)[i]) == IsSpace(s[i]);
      SkipSpacesLower(s, i + 1);
    }
  }

  lemma {:induction false} DropTrailingSpacesLower(s: string, lo: nat, hi: nat)
    requires lo <= hi <= |s|
    ensures DropTrailingSpaces(ToLower(s), lo, hi) == DropTrailingSpaces(s, lo, hi)
    decreases hi
  {
    if hi > lo {
      assert IsSpace(ToLower(s)[hi - 1]) == IsSpace(s[hi - 1]);
      DropTrailingSpacesLower(s, lo, hi - 1);
    }
  }

  /** Trimming and lower-casing commute. */
  lemma TrimLower(s: string)
    ensures Trim(ToLower(s)) == ToLower(Trim(s))
  {
    var l := ToLower(s);
    var a := SkipSpaces(s, 0);
    SkipSpacesLower(s, 0);
    var b := DropTrailingSpaces(s, a, |s|);
    DropTrailingSpacesLower(s, a, |s|);
    assert Trim(s) == s[a..b];
    assert Trim(l) == l[a..b];
    LowerSlice(s, a, b);
  }

  /** Lower-casing a slice is slicing the lower-cased string. */
  lemma LowerSlice(s: string, a: nat, b: nat)
    requires a <= b <= |s|
    ensures ToLower(s[a..b]) == ToLower(s)[a..b]
  {
    assert forall i :: 0 <= i < b - a ==> ToLower(s[a..b])[i] == LowerChar(s[a + i]);
  }

  /** Regrouping a four-part concatenation so that its first part is read first. */
  lemma Regroup(a: string, b: string, c: string, e: string)
    ensures a + b + c + e == a + (b + (c + e))
  {
  }

  function StartsWith(s: string, prefix: string): bool {
    |prefix| <= |s| && s[..|prefix|] == prefix
  }

  // ---------------------------------------------------------------------------
  // Length in UTF-16 code units
  // ---------------------------------------------------------------------------

  /** The UTF-16 code units of one character: two for a character outside the
      Basic Multilingual Plane (a surrogate pair), one otherwise. */
  function Utf16Units(c: char): (n: nat)
    ensures n == 1 || n == 2
  {
    if c >= '\U{10000}' then 2 else 1
  }

  /** `s.length` in JavaScript, which is also what Mongoose's `minlength` and
      `maxlength` and the browser's `maxLength` count: UTF-16 code units. */
  function Utf16Length(s: string): (n: nat)
    ensures |s| <= n <= 2 * |s|
    ensures n == 0 <==> s == []
  {
    if s == [] then 0 else Utf16Units(s[0]) + Utf16Length(s[1..])
  }

  /** A string of Basic Multilingual Plane characters has one code unit each. */
  predicate InBmp(s: string) {
    forall i :: 0 <= i < |s| ==> s[i] < '\U{10000}'
  }

  lemma {:induction false} BmpLength(s: string)
    requires InBmp(s)
    ensures Utf16Length(s) == |s|
  {
    if s != [] {
      assert InBmp(s[1..]) by {
        assert forall i :: 0 <= i < |s| - 1 ==> s[1..][i] == s[i + 1];
      }
      BmpLength(s[1..]);
    }
  }

  /** The code units of a concatenation add up. */
  lemma {:induction false} Utf16LengthAppend(a: string, b: string)
    ensures Utf16Length(a + b) == Utf16Length(a) + Utf16Length(b)
  {
    if a == [] {
      assert a + b == b;
    } else {
      assert (a + b)[0] == a[0];
      assert (a + b)[1..] == a[1..] + b;
      Utf16LengthAppend(a[1..], b);
    }
  }

  /** Two strings whose characters take the same code units position by position
      have the same UTF-16 length. */
  lemma {:induction false} SameUnits(a: string, b: string)
    requires |a| == |b|
    requires forall i :: 0 <= i < |a| ==> Utf16Units(a[i]) == Utf16Units(b[i])
    ensures Utf16Length(a) == Utf16Length(b)
  {
    if a != [] {
      assert forall i :: 0 <= i < |a| - 1 ==> a[1..][i] == a[i + 1] && b[1..][i] == b[i + 1];
      SameUnits(a[1..], b[1..]);
    }
  }

  /** Case mapping touches ASCII letters only, so it keeps the UTF-16 length. */
  lemma CaseKeepsUtf16Length(s: string)
    ensures Utf16Length(ToUpper(s)) == Utf16Length(s)
    ensures Utf16Length(ToLower(s)) == Utf16Length(s)
  {
    SameUnits(ToUpper(s), s);
    SameUnits(ToLower(s), s);
  }

  /** Trimming never adds code units. */
  lemma TrimUtf16Length(s: string)
    ensures Utf16Length(Trim(s)) <= Utf16Length(s)
  {
    var a := SkipSpaces(s, 0);
    var t := Trim(s);
    TrimCutsOnlyEnds(s);
    Utf16LengthAppend(s[..a], t);
    Utf16LengthAppend(s[..a] + t, s[a + |t|..]);
  }

  // ---------------------------------------------------------------------------
  // Decimal numbers: `String(n)` and its reading back
  // ---------------------------------------------------------------------------

  predicate IsDigit(c: char) { '0' <= c <= '9' }

  predicate AllDigits(s: string) {
    forall i :: 0 <= i < |s| ==> IsDigit(s[i])
  }

  function DigitValue(c: char): (d: nat)
    requires IsDigit(c)
    ensures d < 10
  {
    c as int - '0' as int
  }

  function DigitChar(d: nat): (c: char)
    requires d < 10
    ensures IsDigit(c) && DigitValue(c) == d
  {
    ('0' as int + d) as char
  }

  /** The value of a string of decimal digits, leading zeros allowed. */
  function DigitsValue(s: string): nat
    requires AllDigits(s)
  {
    if s == [] then 0 else DigitsValue(s[..|s| - 1]) * 10 + DigitValue(s[|s| - 1])
  }

  /** `String(n)` for a non-negative integer: canonical decimal digits that read
      back as `n`. */
  function NatToString(n: nat): (r: string)
    ensures |r| >= 1 && AllDigits(r)
    ensures r[0] == '0' ==> n == 0 && |r| == 1
    ensures DigitsValue(r) == n
    decreases n
  {
    if n < 10 then [DigitChar(n)]
    else
      var p := NatToString(n / 10);
      var r := p + [DigitChar(n % 10)];
      assert r[..|r| - 1] == p;
      r
  }

  /** `String(i)` for any integer: a minus sign before the digits of `-i`. */
  function IntToString(i: int): (r: string)
    ensures i >= 0 ==> r == NatToString(i)
    ensures i < 0 ==> r == "-" + NatToString(-i)
  {
    if i < 0 then "-" + NatToString(-i) else NatToString(i)
  }

  /** Two numbers print the same only if they are equal. */
  lemma NatToStringInjective(m: nat, n: nat)
    requires NatToString(m) == NatToString(n)
    ensures m == n
  {
  }

  /** A leading zero does not change the value read. */
  lemma {:induction false} LeadingZero(s: string)
    requires AllDigits(s)
    ensures AllDigits("0" + s) && DigitsValue("0" + s) == DigitsValue(s)
    decreases |s|
  {
    var z := "0" + s;
    if s != [] {
      assert z[..|z| - 1] == "0" + s[..|s| - 1];
      LeadingZero(s[..|s| - 1]);
    }
  }

  /** Number of leading decimal digits of `s`. */
  function DigitPrefixLength(s: string): (k: nat)
    ensures k <= |s| && AllDigits(s[..k])
    ensures k < |s| ==> !IsDigit(s[k])
    decreases |s|
  {
    if |s| > 0 && IsDigit(s[0]) then 1 + DigitPrefixLength(s[1..]) else 0
  }

  /** A run of digits followed by a non-digit is read as exactly that run. */
  lemma {:induction false} DigitPrefixOf(p: string, t: string)
    requires AllDigits(p)
    requires t == [] || !IsDigit(t[0])
    ensures DigitPrefixLength(p + t) == |p|
    decreases |p|
  {
    if p != [] {
      assert (p + t)[1..] == p[1..] + t;
      DigitPrefixOf(p[1..], t);
    }
  }

  /** Reads the leading decimal number of `s`, returning its value and the rest,
      or nothing when `s` does not start with a digit. */
  function ReadNat(s: string): (r: (nat, string))
    requires DigitPrefixLength(s) > 0
  {
    var k := DigitPrefixLength(s);
    (DigitsValue(s[..k]), s[k..])
  }

  /** Printing a number and reading it back returns the number and the text after it. */
  lemma ReadNatToString(n: nat, t: string)
    requires t == [] || !IsDigit(t[0])
    ensures DigitPrefixLength(NatToString(n) + t) == |NatToString(n)|
    ensures ReadNat(NatToString(n) + t) == (n, t)
  {
    var p := NatToString(n);
    DigitPrefixOf(p, t);
    assert (p + t)[..|p|] == p;
    assert (p + t)[|p|..] == t;
  }

  // ---------------------------------------------------------------------------
  // split(" ")
  // ---------------------------------------------------------------------------

  /** Position of the first `sep` in `s`, or `|s|` when there is none. */
  function IndexOf(s: string, sep: char): (i: nat)
    ensures i <= |s|
    ensures sep !in s[..i]
    ensures i < |s| ==> s[i] == sep
    decreases |s|
  {
    if s == [] then 0
    else if s[0] == sep then 0
    else
      var j := IndexOf(s[1..], sep);
      assert s[..1 + j] == [s[0]] + s[1..][..j];
      1 + j
  }

  /** Joins fields with the separator between consecutive fields. */
  function Join(fields: seq<string>, sep: char): string
    requires |fields| >= 1
    decreases |fields|
  {
    if |fields| == 1 then fields[0] else fields[0] + [sep] + Join(fields[1..], sep)
  }

  /** `s.split(sep)` for a one-character separator: the fields between separators,
      none containing it, which join back to `s`. */
  function Split(s: string, sep: char): (fields: seq<string>)
    ensures |fields| >= 1
    ensures forall k :: 0 <= k < |fields| ==> sep !in fields[k]
    ensures Join(fields, sep) == s
    decreases |s|
  {
    var i := IndexOf(s, sep);
    if i == |s| then
      assert s[..i] == s;
      [s]
    else
      var rest := Split(s[i + 1..], sep);
      var fields := [s[..i]] + rest;
      assert fields[1..] == rest;
      assert s == s[..i] + [sep] + s[i + 1..];
      fields
  }

  /** Splitting a separator-joined list gives the list back when no field holds the
      separator: `split` inverts `join`. */
  lemma {:induction false} SplitJoin(fields: seq<string>, sep: char)
    requires |fields| >= 1
    requires forall k :: 0 <= k < |fields| ==> sep !in fields[k]
    ensures Split(Join(fields, sep), sep) == fields
    decreases |fields|
  {
    var s := Join(fields, sep);
    var f0 := fields[0];
    if |fields| == 1 {
      NoSeparator(f0, sep);
    } else {
      var tail := Join(fields[1..], sep);
      assert s == f0 + [sep] + tail;
      FirstSeparator(f0, tail, sep);
      assert s[..|f0|] == f0 && s[|f0| + 1..] == tail;
      SplitJoin(fields[1..], sep);
      assert fields == [f0] + fields[1..];
    }
  }

  /** A string without the separator has it nowhere. */
  lemma NoSeparator(f: string, sep: char)
    requires sep !in f
    ensures IndexOf(f, sep) == |f|
  {
  }

  /** The first separator of `f + [sep] + tail` is the one after `f`. */
  lemma FirstSeparator(f: string, tail: string, sep: char)
    requires sep !in f
    ensures IndexOf(f + [sep] + tail, sep) == |f|
  {
    var s := f + [sep] + tail;
    assert s[..|f|] == f && s[|f|] == sep;
  }

}

=== FILE: users.dfy ===
/**
 The user document: credentials, the streak ledger (active start and completed
 history), the journal and the reference to the room the user is in, together
 with the constraints the user schema enforces when a document is written.
 */
module Users {
  import opened Common
  import opened Text

  const UsernameMinLength: int := 3
  const PasswordMinLength: int := 6

  /** The mood enumeration of a journal entry. */
  datatype Mood = Strong | Okay | Struggling

  function MoodName(m: Mood): string {
    match m
    case Strong => "strong"
    case Okay => "okay"
    case Struggling => "struggling"
  }

  /** Casting a request string to the mood enumeration: only the three names are
      accepted, each as exactly the mood it names. */
  function ParseMood(s: string): (r: Option<Mood>)
    ensures r.Some? ==> MoodName(r.value) == s
    ensures r.None? ==> forall m: Mood :: MoodName(m) != s
  {
    if s == "strong" then Some(Strong)
    else if s == "okay" then Some(Okay)
    else if s == "struggling" then Some(Struggling)
    else None
  }

  /** Every mood survives the round trip through its stored name. */
  lemma ParseMoodName(m: Mood)
    ensures ParseMood(MoodName(m)) == Some(m)
  {
  }

  /** One completed streak: both dates and the duration are always present. */
  datatype HistoryEntry = HistoryEntry(startDate: int, endDate: int, durationHours: int)

  /** One journal entry; its mood is one of the enumeration by construction. */
  datatype JournalEntry = JournalEntry(date: int, mood: Mood, quote: string)

  datatype User = User(
    id: UserId,
    username: string,
    password: string,               // the stored bcrypt hash
    currentStreakStart: Option<int>, // None: no active streak
    lastCheckIn: Option<int>,
    streakHistory: seq<HistoryEntry>,
    journals: seq<JournalEntry>,
    activeRoom: Option<RoomId>)

  /** A history entry as the reset route computes it. */
  predicate EntryConsistent(e: HistoryEntry) {
    e.durationHours == HoursBetween(e.startDate, e.endDate)
  }

  predicate HistoryConsistent(h: seq<HistoryEntry>) {
    forall i :: 0 <= i < |h| ==> EntryConsistent(h[i])
  }

  /** The username rules of the schema, applied after the `trim` setter: the
      failing rule's message, or nothing. */
  function UsernameRule(name: string): (err: Option<string>)
    ensures err.None? <==> Utf16Length(name) >= UsernameMinLength
  {
    if name == [] then Some("Username is required")
    else if Utf16Length(name) < UsernameMinLength then Some("Username must be at least 3 characters")
    else None
  }

  /** The password rules of the schema, applied to whatever string is saved. */
  function PasswordRule(password: string): (err: Option<string>)
    ensures err.None? <==> Utf16Length(password) >= PasswordMinLength
  {
    if password == [] then Some("Password is required")
    else if Utf16Length(password) < PasswordMinLength then Some("Password must be at least 6 characters")
    else None
  }

  /** The message of a failed `User.create`: every failing path in schema order,
      each as `path: message`, separated by ", ", after the model's prefix. */
  function ValidationMessage(username: string, password: string): (err: Option<string>)
    ensures err.None? <==> Utf16Length(Trim(username)) >= UsernameMinLength && Utf16Length(password) >= PasswordMinLength
    ensures err.Some? ==> StartsWith(err.value, ValidationPrefix)
  {
    var u := UsernameRule(Trim(username));
    var p := PasswordRule(password);
    var detail :=
      if u.Some? && p.Some? then "username: " + u.value + ", password: " + p.value
      else if u.Some? then "username: " + u.value
      else if p.Some? then "password: " + p.value
      else "";
    if u.None? && p.None? then None
    else
      var m := ValidationPrefix + detail;
      assert m[..|ValidationPrefix|] == ValidationPrefix;
      Some(m)
  }

  const ValidationPrefix: string := "User validation failed: "

  /** A stored user document as the schema and the register route leave it: the
      username is trimmed, lower case and long enough, the password long enough,
      and every history entry carries the duration of its dates. */
  predicate StoredUserValid(u: User) {
    && Trim(u.username) == u.username
    && IsLowerCase(u.username)
    && Utf16Length(u.username) >= UsernameMinLength
    && Utf16Length(u.password) >= PasswordMinLength
    && HistoryConsistent(u.streakHistory)
  }

  /** The user object the auth routes answer with: it has no password field. */
  datatype PublicUser = PublicUser(
    id: UserId,
    username: string,
    currentStreakStart: Option<int>,
    lastCheckIn: Option<int>,
    streakHistory: seq<HistoryEntry>,
    journals: seq<JournalEntry>)

  /** The answered user object: every stored profile field but the password. */
  function View(u: User): (v: PublicUser)
    ensures v.id == u.id && v.username == u.username
    ensures v.currentStreakStart == u.currentStreakStart && v.lastCheckIn == u.lastCheckIn
    ensures v.streakHistory == u.streakHistory && v.journals == u.journals
  {
    PublicUser(u.id, u.username, u.currentStreakStart, u.lastCheckIn, u.streakHistory, u.journals)
  }

  /** The answered user object does not depend on the stored password in any way,
      and it carries every other profile field unchanged. */
  lemma ViewOmitsPassword(u: User, otherPassword: string)
    ensures View(u.(password := otherPassword)) == View(u)
    ensures View(u).id == u.id && View(u).username == u.username
    ensures View(u).streakHistory == u.streakHistory && View(u).journals == u.journals
  {
  }
}

=== FILE: videos.dfy ===
/**
 The emergency videos: the fixed list, one video picked at random and the whole
 list in random order. A call to `Math.random()` is a draw `num / den` in
 [0, 1), passed in.
 */
module Videos {

  datatype Video = Video(id: string, title: string)

  const Library: seq<Video> := [
    Video("inpok4MKVLM", "5-Minute Meditation"),
    Video("z6X5oEIg6Ak", "Relaxing Music for Stress Relief"),
    Video("ZToicYcHIOU", "10 Minute Guided Meditation"),
    Video("5tSTk1083VY", "David Goggins - Stay Hard"),
    Video("TLKxdTmk-zc", "David Goggins - Motivation"),
    Video("78I9dTB9vqM", "Goggins on Suffering"),
    Video("g-jwWYX7Jlo", "Best Motivational Speech"),
    Video("IdTMDpizis8", "Why You Need Discipline"),
    Video("7Oxz060iedY", "The Power of Habit"),
    Video("mgmVOuLgFB0", "Jordan Peterson - Clean Your Room"),
    Video("Vtp31feyTfM", "Your Brain on Porn"),
    Video("wSF82AwSDiU", "Dopamine Detox"),
    Video("DkS1pkKpILY", "The Science of Self-Control"),
    Video("Hu0xDtK3g3Q", "Marcus Aurelius - How To Think"),
    Video("2bGuU4krojo", "Stoic Philosophy Explained"),
    Video("wnHW6o8WMas", "Morning Workout Motivation"),
    Video("xvFZjo5PgG0", "The Rock - Morning Routine")
  ]

  /** One value of `Math.random()`, as the fraction `num / den`. */
  datatype Draw = Draw(num: nat, den: nat)

  /** What `Math.random()` promises: a value in [0, 1). */
  predicate InUnit(d: Draw) {
    d.num < d.den
  }

  predicate AllInUnit(draws: seq<Draw>) {
    forall k :: 0 <= k < |draws| ==> InUnit(draws[k])
  }

  /** `a * n`, by repeated addition. */
  function Times(a: nat, n: nat): nat {
    if n == 0 then 0 else Times(a, n - 1) + a
  }

  /** `Math.floor(a / den)`, by counting how often `den` fits into `a`. */
  function Quotient(a: nat, den: nat): nat
    requires den > 0
  {
    if a < den then 0 else 1 + Quotient(a - den, den)
  }

  lemma {:induction false} TimesIsProduct(a: nat, n: nat)
    ensures Times(a, n) == a * n
  {
    if n > 0 {
      TimesIsProduct(a, n - 1);
    }
  }

  /** `Quotient` is the floor: `den` fits `Quotient(a, den)` times into `a`,
      and once more does not. */
  lemma {:induction false} QuotientBounds(a: nat, den: nat)
    requires den > 0
    ensures Times(den, Quotient(a, den)) <= a < Times(den, Quotient(a, den)) + den
    decreases a
  {
    if a >= den {
      QuotientBounds(a - den, den);
    }
  }

  lemma {:induction false} TimesBelow(num: nat, den: nat, n: nat)
    requires num < den && n > 0
    ensures Times(num, n) < Times(den, n)
  {
    if n > 1 {
      TimesBelow(num, den, n - 1);
    }
  }

  lemma {:induction false} QuotientBelow(a: nat, den: nat, n: nat)
    requires den > 0 && a < Times(den, n)
    ensures Quotient(a, den) < n
    decreases n
  {
    if a >= den {
      QuotientBelow(a - den, den, n - 1);
    }
  }

  /** `Math.floor(random * n)` for the draw `num / den`. */
  function Scale(d: Draw, n: nat): nat
    requires InUnit(d)
  {
    Quotient(Times(d.num, n), d.den)
  }

  /** A draw scaled to `n` is an index below `n`. */
  lemma ScaleBelow(d: Draw, n: nat)
    requires InUnit(d) && n > 0
    ensures Scale(d, n) < n
  {
    TimesBelow(d.num, d.den, n);
    QuotientBelow(Times(d.num, n), d.den, n);
  }

  /** The scaled draw is the floor of the real product `num / den * n`: the
      largest `k` with `k * den <= num * n`. */
  lemma ScaleIsFloor(d: Draw, n: nat)
    requires InUnit(d)
    ensures Scale(d, n) * d.den <= d.num * n < Scale(d, n) * d.den + d.den
  {
    var k := Scale(d, n);
    QuotientBounds(Times(d.num, n), d.den);
    TimesIsProduct(d.num, n);
    TimesIsProduct(d.den, k);
  }

  /** `getRandomVideo`: always a video of the list. */
  function RandomVideo(d: Draw): (v: Video)
    requires InUnit(d)
    ensures v in Library
  {
    ScaleBelow(d, |Library|);
    Library[Scale(d, |Library|)]
  }

  /** Every video can come up: the draw `k / 17` picks the `k`-th. */
  lemma EveryVideoCanComeUp(k: nat)
    requires k < |Library|
    ensures RandomVideo(Draw(k, |Library|)) == Library[k]
  {
    ScaleExact(k, |Library|);
  }

  /** The draw `k / n` scaled to `n` is exactly `k`. */
  lemma ScaleExact(k: nat, n: nat)
    requires k < n
    ensures Scale(Draw(k, n), n) == k
  {
    var q := Scale(Draw(k, n), n);
    QuotientBounds(Times(k, n), n);
    TimesIsProduct(k, n);
    TimesIsProduct(n, k);
    assert Times(n, q) <= Times(n, k) < Times(n, q + 1);
    if q > k {
      TimesMonotone(n, k + 1, q);
    } else if q < k {
      TimesMonotone(n, q + 1, k);
    }
  }

  lemma {:induction false} TimesMonotone(a: nat, m: nat, n: nat)
    requires m <= n
    ensures Times(a, m) <= Times(a, n)
    decreases n
  {
    if m < n {
      TimesMonotone(a, m, n - 1);
    }
  }

  /** The destructuring swap `[a[i], a[j]] = [a[j], a[i]]`. */
  function Swap<T>(t: seq<T>, i: nat, j: nat): (r: seq<T>)
    requires i < |t| && j < |t|
    ensures |r| == |t| && multiset(r) == multiset(t)
    ensures r[i] == t[j] && r[j] == t[i]
    ensures forall k :: 0 <= k < |t| && k != i && k != j ==> r[k] == t[k]
  {
    t[i := t[j]][j := t[i]]
  }

  /** The swap partner of position `i`: `Math.floor(random * (i + 1))`, a
      position from 0 to `i`. */
  function Partner(d: Draw, i: nat): (j: nat)
    requires InUnit(d)
    ensures j <= i
  {
    ScaleBelow(d, i + 1);
    Scale(d, i + 1)
  }

  /** Partner choices for a list: `picks[p]` is the position that position `p`
      swaps with, never above `p`. */
  predicate ValidPicks(picks: seq<nat>) {
    forall p :: 0 < p < |picks| ==> picks[p] <= p
  }

  /** The partners the draws choose for a list of `n` videos: the step for
      position `p` uses draw `n - 1 - p`, the steps running from the last
      position down. Position 0 has no step of its own. */
  function Picks(draws: seq<Draw>, n: nat): (picks: seq<nat>)
    requires n <= |draws| + 1 && AllInUnit(draws)
    ensures |picks| == n && ValidPicks(picks)
  {
    seq(n, p => if 0 < p < n && n - 1 - p < |draws| && InUnit(draws[n - 1 - p]) then Partner(draws[n - 1 - p], p) else 0)
  }

  lemma PickIsPartner(draws: seq<Draw>, n: nat, p: nat)
    requires n <= |draws| + 1 && AllInUnit(draws) && 0 < p < n
    ensures Picks(draws, n)[p] == Partner(draws[n - 1 - p], p)
  {
  }

  /** The list after the steps for positions `|t| - 1` down to `i + 1`;
      `i == |t| - 1` is the copy before the first step. */
  function ShuffledAbove<T>(t: seq<T>, picks: seq<nat>, i: nat): (r: seq<T>)
    requires i < |t| == |picks| && ValidPicks(picks)
    ensures |r| == |t| && multiset(r) == multiset(t)
    decreases |t| - i
  {
    if i == |t| - 1 then t
    else Swap(ShuffledAbove(t, picks, i + 1), i + 1, picks[i + 1])
  }

  /** The reference shuffle: every step the draws choose, down to position 1. */
  function Shuffle<T>(t: seq<T>, draws: seq<Draw>): (r: seq<T>)
    requires |t| <= |draws| + 1 && AllInUnit(draws)
    ensures |r| == |t| && multiset(r) == multiset(t)
  {
    if t == [] then [] else ShuffledAbove(t, Picks(draws, |t|), 0)
  }

  /** One more step: the list before position `i`'s step, with that step made. */
  lemma StepDown<T>(t: seq<T>, picks: seq<nat>, i: nat)
    requires 0 < i < |t| == |picks| && ValidPicks(picks)
    ensures ShuffledAbove(t, picks, i - 1) == Swap(ShuffledAbove(t, picks, i), i, picks[i])
  {
  }

  /** The loop of `getShuffledVideos`, from the last position down to 1, each
      position swapping with its partner. */
  method SwapDown<T>(videos: seq<T>, picks: seq<nat>) returns (shuffled: seq<T>)
    requires 0 < |videos| == |picks| && ValidPicks(picks)
    ensures shuffled == ShuffledAbove(videos, picks, 0)
  {
    shuffled := videos;
    var i: nat := |videos| - 1;
    while i > 0
      invariant i < |videos|
      invariant shuffled == ShuffledAbove(videos, picks, i)
      decreases i
    {
      StepDown(videos, picks, i);
      shuffled := Swap(shuffled, i, picks[i]);
      i := i - 1;
    }
  }

  /** `getShuffledVideos` over any list: a shuffled copy, the same videos each as
      often as before. The partner of each position depends only on its draw,
      so the partners are chosen first and the swaps made after. */
  method GetShuffled<T>(videos: seq<T>, draws: seq<Draw>) returns (shuffled: seq<T>)
    requires |videos| <= |draws| + 1 && AllInUnit(draws)
    ensures |shuffled| == |videos| && multiset(shuffled) == multiset(videos)
    ensures shuffled == Shuffle(videos, draws)
  {
    if |videos| == 0 {
      return videos;
    }
    shuffled := SwapDown(videos, Picks(draws, |videos|));
  }

  /** Once a position's step is done, no later step moves what it holds. */
  lemma {:induction false} StepsBelowKeep<T>(t: seq<T>, picks: seq<nat>, i: nat, k: nat)
    requires i < |t| == |picks| && ValidPicks(picks)
    requires i < k < |t|
    ensures ShuffledAbove(t, picks, i)[k] == ShuffledAbove(t, picks, k - 1)[k]
    decreases k - i
  {
    if i < k - 1 {
      StepsBelowKeep(t, picks, i + 1, k);
    }
  }

  /** The first step settles the last position: it gets the video at the index
      the first draw picks, and no later step moves it. */
  lemma LastPositionFromFirstDraw<T>(t: seq<T>, draws: seq<Draw>)
    requires 2 <= |t| <= |draws| + 1 && AllInUnit(draws)
    ensures Shuffle(t, draws)[|t| - 1] == t[Partner(draws[0], |t| - 1)]
  {
    StepsBelowKeep(t, Picks(draws, |t|), 0, |t| - 1);
    PickIsPartner(draws, |t|, |t| - 1);
  }
}
